=== FILE: README.md ===
# Manga archive metadata pipeline — a Dafny model

This project models the deterministic core of `TOOL/add_manga_metadata.py`.
That tool takes a folder of `[123456]Title.zip` / `.cbz` archives and, for each
one, does five things:

- fetches the gallery's metadata;
- writes it into the archive as `metadata.json`, together with a generated
  `ComicInfo.xml` when the archive is or becomes a CBZ;
- optionally renames `.zip` to `.cbz`;
- translates the tags inside the archive using a dictionary;
- records the outcome per file in a persistent task store.

The model is written as pure functions over immutable values. Each part of
the program has its own module, one file each:

| module | file | models |
|---|---|---|
| `Common` | `common.dfy` | Python string and list helpers: `startswith`, ASCII `lower`, `strip`, `rstrip('/')`, `split`/`join`, `sorted`, `list.remove`, order-preserving filters |
| `TaskStore` | `taskstore.dfy` | `TaskManager`: tasks, file records, the status and translation counters, the queries, the `.cbz` record move, task creation, deletion and the translation-retry reset |
| `LfuCache` | `cache.dfy` | `MemoryCacheManager`: the key/content and key/count maps, least-used eviction with insertion-order ties, get, put, clear |
| `Zip` | `archive.dfy` | archives as entry lists: `analyze_zip_structure`, `convert_nested_to_flat`, the copy-all-but-the-reserved-names rewrite shared by `process_zip_file` and `_update_cbz_content`, `update_file_content` |
| `ComicInfo` | `comicinfo.dfy` | `ComicInfoGenerator`: list formatting, the flag and language tests, and the XML escaping (the predefined entities of section 4.6 of XML 1.0) |
| `Translation` | `translation.dfy` | `Translator.translate_tag` / `translate_tags_list`, and `_translate_content`'s all-or-nothing rule per field |
| `Pipeline` | `pipeline.dfy` | `ZipMetadataAdder`: `extract_id`, `process_zip_file`, `translate_metadata_in_cbz`, `process_file`, the batch preload, batch loop and batch clearing |

The model stands in for the outside world as follows:

- **Archives on disk.** a task's folder is a map from file name to entry list. A file's path is its name.
- **Entries.** An entry is a `(name, bytes)` pair. `namelist()` is the list of names. Reading a name returns the last entry with that name, as `zipfile` does.
- **Opaque operations.** These are fields of a parameter `Env`: fetching metadata, `json.dumps`, filling the ComicInfo template, parsing `metadata.json` and `ComicInfo.xml` for their tags, serialising them again, and the text of the exception raised when a missing archive is opened.
- **Task ids.** The md5 hex digest used for task ids is a function parameter.

Three behaviours of the code a reader might not expect:

- **Cache key.** The key is the string `path + ":" + entry`, not a pair. Two different pairs can collide (`LfuCache.KeyCollides`).
- **Counters.** They are not kept consistent in every case. An update for a file name its task does not hold breaks them (`TaskStore.UnknownFilenameBreaksCounters`). So does a `.cbz` record move onto a name its task already holds (`TaskStore.MoveOntoExistingKeyBreaksCounters`).
- **Cache invalidation.** The cache is cleared only between batches. Within a batch it is never invalidated when an archive is rewritten. See "## Findings".

## Model

| member | source | states |
|---|---|---|
| Common.Lower | TOOL/add_manga_metadata.py:525-531 | `str.lower` keeps the length and lower-cases each character on its own (ASCII letters only) |
| Common.LowerAppend | TOOL/add_manga_metadata.py:525-531 | lower-casing distributes over concatenation, so a flag test on a joined list can look at each part |
| Common.Strip | TOOL/add_manga_metadata.py:409-423 | the stripped tag neither starts nor ends with white space |
| Common.StripIsMiddle | TOOL/add_manga_metadata.py:409-423 | `strip()` removes white space from both ends and nothing else: the result is a slice of the text with only white space before and after it |
| Common.RStripSlash | TOOL/add_manga_metadata.py:678 | `rstrip('/')` removes exactly the trailing slashes: the result is a prefix, does not end in `/`, and everything cut off was `/` |
| Common.Before | TOOL/add_manga_metadata.py:684 | `split('/')[0]` is the longest prefix without the separator, and the separator follows it when it is shorter than the text |
| Common.Split | TOOL/add_manga_metadata.py:1400-1415 | `split(',')` yields at least one part and no part contains the separator |
| Common.SplitJoin | TOOL/add_manga_metadata.py:1400-1415 | splitting on a character and joining with it gives the original text back |
| Common.NatToStringInjective | TOOL/add_manga_metadata.py:813 | different counters print differently, so the `_1`, `_2`, … suffixes are all different |
| Common.Filter | TOOL/add_manga_metadata.py:986-989 | an order-preserving selection: exactly the elements that pass, as a subsequence of the input |
| Common.Remove | TOOL/add_manga_metadata.py:331-334 | removing a key from a duplicate-free order keeps every other key, drops exactly that one, and shortens it by one when present |
| Common.Sort | TOOL/add_manga_metadata.py:833 | `sorted` returns a sorted permutation of its input |
| Common.DedupSorted | TOOL/add_manga_metadata.py:833-838 | filling a dict from a sorted list keeps one key per distinct name, still sorted |
| Common.LessEqTotal | TOOL/add_manga_metadata.py:833 | Python's string order is total |
| Common.LessEqTransitive | TOOL/add_manga_metadata.py:833 | Python's string order is transitive |
| Common.LessEqAntisymmetric | TOOL/add_manga_metadata.py:833 | Python's string order is antisymmetric, so a sorted list of names is unique up to duplicates |
| TaskStore.CountsPartition | TOOL/add_manga_metadata.py:822-949 | every file has exactly one of the four statuses, so the four counts add up to the number of files |
| TaskStore.TranslationCountsPartition | TOOL/add_manga_metadata.py:951-972 | every file has exactly one translation status (pending when none is recorded), so the three counts add up to the number of files |
| TaskStore.StatisticsSumToTotal | TOOL/add_manga_metadata.py:822-840 | in a consistent task, pending + success + failed + skipped equals `total` |
| TaskStore.TranslationStatisticsSumToTotal | TOOL/add_manga_metadata.py:955-958 | once created, the three translation counters add up to the number of files |
| TaskStore.Select | TOOL/add_manga_metadata.py:985-989 | a query returns exactly a task's files whose record passes, in insertion order |
| TaskStore.SelectCounts | TOOL/add_manga_metadata.py:985-989 | the length of a query result is the number of files its test counts |
| TaskStore.PendingFiles | TOOL/add_manga_metadata.py:980-989 | `get_pending_files`: the files whose status is pending, in insertion order; empty for an unknown task |
| TaskStore.FailedFiles | TOOL/add_manga_metadata.py:992-1001 | `get_failed_files`: the files whose status is failed, in insertion order; empty for an unknown task |
| TaskStore.TranslationFailedFiles | TOOL/add_manga_metadata.py:1004-1014 | `get_translation_failed_files`: the files whose translation status is failed; empty for an unknown task |
| TaskStore.UntranslatedFiles | TOOL/add_manga_metadata.py:1017-1027 | `get_untranslated_files`: the files whose translation status is pending or was never recorded |
| TaskStore.QueriesMatchCounters | TOOL/add_manga_metadata.py:980-1027 | in a well-formed store each query returns as many names as the matching counter says |
| TaskStore.EnsureRecord | TOOL/add_manga_metadata.py:880-887 | a file its task does not hold gets a pending record; a held file leaves its task unchanged |
| TaskStore.SetStatus | TOOL/add_manga_metadata.py:878-895 | the file's record carries the new status and message |
| TaskStore.UpdateFileStatus | TOOL/add_manga_metadata.py:873-899 | an unknown task id changes nothing; otherwise only that task changes and the file ends with the given status and message |
| TaskStore.DecStatus | TOOL/add_manga_metadata.py:930-940 | no contract of its own: `TaskStore.StatusCounterMoves` states that leaving a status takes one file off the sum of the four status counters and keeps the total |
| TaskStore.IncStatus | TOOL/add_manga_metadata.py:942-949 | no contract of its own: `TaskStore.StatusCounterMoves` states that entering a status adds one file to that sum and keeps the total |
| TaskStore.StatusCounterMoves | TOOL/add_manga_metadata.py:930-949 | leaving a status takes one file off the counters' sum, entering one adds it, the total is untouched, and entering the status just left (or leaving the one just entered) restores every counter |
| TaskStore.DecTranslation | TOOL/add_manga_metadata.py:960-965 | no contract of its own: `TaskStore.TranslationCounterMoves` states that leaving a translation status takes one file off the sum of the three translation counters |
| TaskStore.IncTranslation | TOOL/add_manga_metadata.py:967-972 | no contract of its own: `TaskStore.TranslationCounterMoves` states that entering a translation status adds one file to that sum |
| TaskStore.TranslationCounterMoves | TOOL/add_manga_metadata.py:960-972 | the same for the translation counters: one file off the sum on leaving, one on entering, and leaving then re-entering a status restores every counter |
| TaskStore.SetStatusKeepsConsistent | TOOL/add_manga_metadata.py:889-949 | for a held file, one unit moves from the old status counter to the new one, so every counter still equals its count; names, translation counters and other records are unchanged |
| TaskStore.UpdateFileStatusKeepsWellFormed | TOOL/add_manga_metadata.py:873-899 | for a held file, the store stays well formed and no other record of the task changes |
| TaskStore.UnknownFilenameBreaksCounters | TOOL/add_manga_metadata.py:880-895 | on a consistent task with no files, marking an unheld name as a success adds a record but leaves `pending` at -1 and `total` at 0: the counters no longer describe the files |
| TaskStore.SetTranslation | TOOL/add_manga_metadata.py:906-923 | the file's record carries the new translation status and message, and the translation counters exist afterwards |
| TaskStore.UpdateTranslationStatus | TOOL/add_manga_metadata.py:901-928 | an unknown task id changes nothing; otherwise only that task changes and the file ends with the given translation status and message |
| TaskStore.SetTranslationKeepsConsistent | TOOL/add_manga_metadata.py:917-972 | for a held file, the counters created on first use (pending = number of files) and then moved by one unit stay equal to their counts; the status counters are untouched |
| TaskStore.UpdateTranslationStatusKeepsWellFormed | TOOL/add_manga_metadata.py:901-928 | for a held file, the store stays well formed and no other record of the task changes |
| TaskStore.MoveRecord | TOOL/add_manga_metadata.py:1600-1602 | the moved record appears under the new key, the old key is gone, and the counters are untouched |
| TaskStore.MoveRecordKeepsConsistent | TOOL/add_manga_metadata.py:1599-1603 | a move onto a key its task does not hold loses and duplicates nothing: every count and counter is the same afterwards |
| TaskStore.MoveOntoExistingKeyBreaksCounters | TOOL/add_manga_metadata.py:1600-1602 | a move onto a key its task already holds drops a record while `total` stays, so the counters no longer describe the files |
| TaskStore.RenameFile | TOOL/add_manga_metadata.py:1599-1603 | only the one task changes, and a held record moves to the new name |
| TaskStore.RenameFileKeepsWellFormed | TOOL/add_manga_metadata.py:1599-1603 | a rename onto a name its task does not hold keeps the store well formed, swaps the one name, and keeps every other record |
| TaskStore.ArchiveNames | TOOL/add_manga_metadata.py:833 | the seeded names are sorted, unique, and exactly the names of the listing ending in `.zip` or `.cbz` (case-sensitive), names with a leading dot included |
| TaskStore.DotNamesListed | TOOL/add_manga_metadata.py:833 | `glob('*.zip')` lists a name with a leading dot like any other: the listing `.h.zip`, `a.zip` seeds both, in that order |
| TaskStore.CandidateInjective | TOOL/add_manga_metadata.py:809-814 | different suffix counters give different candidate ids |
| TaskStore.FreshId | TOOL/add_manga_metadata.py:809-814 | the suffix loop ends on an id no task has, and that id is one of the candidates |
| TaskStore.FindByFolder | TOOL/add_manga_metadata.py:804-807 | the record found is registered for the folder; when none is found, no task is |
| TaskStore.Take8 | TOOL/add_manga_metadata.py:809 | `[:8]` is a prefix of at most eight characters |
| TaskStore.CreateTask | TOOL/add_manga_metadata.py:801-846 | an already registered folder returns its task and changes nothing; otherwise a new, unused id starting with the hash prefix is appended, with one pending record per archive name, sorted, and `total = pending = number of files`; the new id is the first free one of the hash prefix, `prefix_1`, `prefix_2`, … (`FreshId`) |
| TaskStore.NewTask | TOOL/add_manga_metadata.py:816-840 | the new task has the given id, folder and listing; exactly the listed names have records, each pending with no translation status; total and pending equal the listing's length and there are no translation counters yet |
| TaskStore.NewTaskConsistent | TOOL/add_manga_metadata.py:833-840 | the seeded task's counters describe its files |
| TaskStore.Register | TOOL/add_manga_metadata.py:842 | the id is appended to the order and the task is stored under it; every other task is unchanged |
| TaskStore.RegisterKeepsWellFormed | TOOL/add_manga_metadata.py:842 | adding a consistent task under a new id keeps the store well formed |
| TaskStore.CreateTaskKeepsWellFormed | TOOL/add_manga_metadata.py:801-846 | task creation keeps the store well formed |
| TaskStore.DeleteTask | TOOL/add_manga_metadata.py:848-863 | true exactly for a known id; only that task's record goes |
| TaskStore.DeleteTaskKeepsWellFormed | TOOL/add_manga_metadata.py:848-863 | deletion keeps the store well formed |
| TaskStore.RetryFailedTranslations | TOOL/add_manga_metadata.py:1788-1818 | nothing changes when the folder is missing; the set of tasks is never changed |
| TaskStore.ResetTranslations | TOOL/add_manga_metadata.py:1814-1815 | the order and the set of tasks stay, and every other task is unchanged; `TaskStore.ResetTranslationsEffect` states the effect on the task itself |
| TaskStore.ResetTranslationsEffect | TOOL/add_manga_metadata.py:1814-1815 | each named file's translation status becomes pending; every other record and every processing status is as before; the store stays well formed |
| TaskStore.RetryClearsTranslationFailures | TOOL/add_manga_metadata.py:1788-1818 | after the reset no file of that task is translation-failed, and the status counters are as before |
| LfuCache.Key | TOOL/add_manga_metadata.py:306 | no contract of its own: `LfuCache.KeySplits` and `LfuCache.KeyCollides` state what the key determines |
| LfuCache.KeySplits | TOOL/add_manga_metadata.py:306 | the key is the path, a colon, then the entry name, so it splits back into the pair at the path's length |
| LfuCache.KeyCollides | TOOL/add_manga_metadata.py:306-315 | the concatenated key does not identify its (path, entry) pair when a path holds a colon |
| LfuCache.LeastUsed | TOOL/add_manga_metadata.py:330 | `min` over the count dict picks a key of minimal count, the first such in insertion order |
| LfuCache.Evict | TOOL/add_manga_metadata.py:324-334 | an empty cache is unchanged; otherwise exactly one entry goes, one of minimal count, and every other entry keeps its content and count |
| LfuCache.Get | TOOL/add_manga_metadata.py:304-311 | a hit returns the stored bytes and raises that key's count by exactly one; a miss returns nothing and changes nothing |
| LfuCache.Store | TOOL/add_manga_metadata.py:321-322 | the entry is set to the new content with access count 1, every other entry and count is unchanged, and the cache stays valid with the same limit |
| LfuCache.Put | TOOL/add_manga_metadata.py:313-322 | the new content is stored with count 1, and the two maps still hold the same keys |
| LfuCache.Forget | TOOL/add_manga_metadata.py:331-334 | one key leaves both maps and the order, and nothing else changes; the source deletes a key this way only for the least-used key on eviction, and the corrected pipeline alone uses it for other keys (see "## Findings") |
| LfuCache.Room | TOOL/add_manga_metadata.py:318-319 | at most one entry is dropped, only when the cache is full, and only one of minimal count |
| LfuCache.PutKeepsBound | TOOL/add_manga_metadata.py:313-322 | with a limit of at least one, a put never takes the cache past its limit |
| LfuCache.PutEvictsOnlyLeastUsed | TOOL/add_manga_metadata.py:313-334 | a put removes at most one other entry, only when full, and only one of minimal count; every other entry keeps its content and count |
| LfuCache.Clear | TOOL/add_manga_metadata.py:1644-1645 | clearing between batches leaves an empty cache with the same limit |
| LfuCache.PutFresh | TOOL/add_manga_metadata.py:313-322 | a put of a new key into a cache that is not full evicts nothing and appends the key to the insertion order with count 1 |
| LfuCache.PutThenGet | TOOL/add_manga_metadata.py:304-322 | a get after a put of the same entry returns what was put, with count 2 |
| LfuCache.OperationsKeepCountsPositive | TOOL/add_manga_metadata.py:309-322 | gets and puts keep every access count at least one |
| Zip.HasIsInNames | TOOL/add_manga_metadata.py:247 | a name is in `namelist()` exactly when some entry carries it |
| Zip.Read | TOOL/add_manga_metadata.py:1513 | `read(name)` returns the content of the last entry with that name |
| Zip.ReadUnique | TOOL/add_manga_metadata.py:1513 | when no name repeats, `read` returns each entry's own content |
| Zip.RootsOfIsRootSet | TOOL/add_manga_metadata.py:675-687 | the loop collects exactly the first path segments of the names that are not all slashes |
| Zip.FirstRoot | TOOL/add_manga_metadata.py:693 | a root exists exactly when some name is not all slashes, and it is one of the roots |
| Zip.SlashedNameHasTheRoot | TOOL/add_manga_metadata.py:695-696 | with a single root, the folder test holds exactly when some name still has a slash after stripping |
| Zip.Classify | TOOL/add_manga_metadata.py:665-706 | `unknown` exactly for no names; `nested` exactly when the names have one root and some name still has a slash after stripping, with that root as the folder; `flat` otherwise |
| Zip.FolderItselfNotMoved | TOOL/add_manga_metadata.py:735-737 | the folder's own entry is never moved |
| Zip.LoopTestIsInFolder | TOOL/add_manga_metadata.py:739-742 | within the folder prefix, the loop's test moves exactly the non-empty names that do not end in `/` |
| Zip.FlattenFrom | TOOL/add_manga_metadata.py:732-745 | every entry the loop writes is held by the source under its name with the folder prefix put back, and carries the bytes read under that full name |
| Zip.FlattenFromNames | TOOL/add_manga_metadata.py:732-745 | the loop writes exactly the folder's file entries, in order, with the prefix dropped |
| Zip.MovedNamesClean | TOOL/add_manga_metadata.py:740-742 | no moved name is empty or ends in `/` |
| Zip.Flatten | TOOL/add_manga_metadata.py:715-745 | an archive that is not nested, or whose folder name is empty, is unchanged; otherwise the output is exactly the folder's file entries in order, renamed without the prefix, each with the bytes the input held under the full name, and no output name ends in `/` |
| Zip.FlattenRoundTrip | TOOL/add_manga_metadata.py:729-745 | with unique names, putting the prefix back on the flattened entries gives exactly the folder's file entries of the input, byte for byte |
| Zip.CopyFrom | TOOL/add_manga_metadata.py:1508-1513 | the copy loop writes the kept names in order, each with what reading the source gives |
| Zip.CopyFromUnique | TOOL/add_manga_metadata.py:1437-1513 | with unique names the copy is exactly the kept entries of the input |
| Zip.CopyKeepsBytes | TOOL/add_manga_metadata.py:1437-1442 | copying an archive with unique names keeps every kept entry byte for byte |
| Zip.Rewrite | TOOL/add_manga_metadata.py:1434-1523 | the rewrite's names are the input's names without the two reserved ones, followed by `metadata.json` and `ComicInfo.xml` when given |
| Zip.ReadMetadataAfterRewrite | TOOL/add_manga_metadata.py:1446-1516 | reading `metadata.json` back gives what was written |
| Zip.ReadComicInfoAfterRewrite | TOOL/add_manga_metadata.py:1452-1522 | reading `ComicInfo.xml` back gives what was written |
| Zip.ReadOtherAfterRewrite | TOOL/add_manga_metadata.py:1437-1513 | every other name reads back as the input held it |
| Zip.RewriteOneMetadata | TOOL/add_manga_metadata.py:1508-1516 | the rewrite holds exactly one `metadata.json` |
| Zip.RewriteComicInfoPresence | TOOL/add_manga_metadata.py:1453-1523 | the rewrite holds `ComicInfo.xml` exactly when it was given one |
| Zip.HasExtension | TOOL/add_manga_metadata.py:1519 | no contract of its own: `Zip.HasExtensionSuffix` states what the test looks at |
| Zip.HasExtensionSuffix | TOOL/add_manga_metadata.py:1519 | the test depends only on the path's last `|ext|` characters, compared after lower-casing them, and fails for a path shorter than the extension |
| Zip.WantsComicInfo | TOOL/add_manga_metadata.py:1519 | no contract of its own: `Zip.InjectMetadata` and `Zip.InjectComicInfo` state that `ComicInfo.xml` is written exactly when conversion is asked for or the path ends in `.cbz` in any case, and the generated text is non-empty |
| Zip.InjectMetadata | TOOL/add_manga_metadata.py:1483-1533 | the output is the (flattened) input without the reserved names, then `metadata.json`, then `ComicInfo.xml` when a CBZ is wanted and the text is non-empty; a new name is returned exactly for a `.zip` with conversion asked for |
| Zip.CbzName | TOOL/add_manga_metadata.py:1530 | the new name has the same length and ends in `.cbz` |
| Zip.InjectMetadataOnce | TOOL/add_manga_metadata.py:1515-1516 | the injected archive holds exactly one `metadata.json`, and it reads as the serialised metadata |
| Zip.InjectComicInfo | TOOL/add_manga_metadata.py:1519-1523 | `ComicInfo.xml` is present exactly when the path is or becomes a CBZ and the generated text is non-empty, and it reads as generated |
| Zip.InjectKeepsOtherEntries | TOOL/add_manga_metadata.py:1508-1513 | every other entry of the flattened input reads back unchanged |
| Zip.ReplaceFrom | TOOL/add_manga_metadata.py:257-264 | the loop keeps every name in order, writes the new content under the target, and copies every other entry |
| Zip.UpdateEntry | TOOL/add_manga_metadata.py:240-278 | false and no change when the target is absent; otherwise the names are unchanged, the target reads as the new content, and every other name reads as before |
| Zip.UpdateEntryOnlyTarget | TOOL/add_manga_metadata.py:254-267 | with unique names, the update is the input with only the target's content replaced |
| Zip.ReplacedKeepsNames | TOOL/add_manga_metadata.py:254-267 | replacing content keeps names unique and the target present or absent, and replacing twice is replacing once |
| Zip.UpdateEntryIdempotent | TOOL/add_manga_metadata.py:240-268 | with unique names, updating twice with the same content is the same as updating once |
| ComicInfo.FormatField | TOOL/add_manga_metadata.py:512-515 | an absent value gives `''`, a string is kept, an empty list gives `''`, a one-item list gives its item, and a longer list gives its first item, `", "` and the formatting of the rest |
| ComicInfo.ContainsAcross | TOOL/add_manga_metadata.py:525-531 | a word none of whose characters is in the separator occurs in a joined text exactly when it occurs in one of the two sides |
| ComicInfo.ContainsJoin | TOOL/add_manga_metadata.py:525-531 | a word without commas or spaces occurs in the `', '`-joined list exactly when it occurs in one item |
| ComicInfo.MentionsItem | TOOL/add_manga_metadata.py:525-531 | for a list field, a flag word is found exactly when some lower-cased item contains it |
| ComicInfo.LanguageIso | TOOL/add_manga_metadata.py:528-532 | `zh` exactly when the languages mention `chinese`; `ja` exactly when they mention `japanese` and not `chinese`; `en` otherwise |
| ComicInfo.Mentions | TOOL/add_manga_metadata.py:525-531 | no contract of its own: `ComicInfo.MentionsMeaning` states that, for a word without commas or spaces, the test holds exactly when the text, or some item of the list, contains the word once lower-cased, and never for an absent value |
| ComicInfo.MentionsMeaning | TOOL/add_manga_metadata.py:525-531 | for a word without commas or spaces, the substring test on the formatted, lower-cased field holds exactly when the field mentions it item by item: never for an absent value, in the lower-cased text of a string, in some lower-cased item of a list |
| ComicInfo.Derive | TOOL/add_manga_metadata.py:498-556 | Title, Summary, Genre, Series, Characters, Tags and Writer are well-formed escaped texts that unescape to the title, the subtitle and the formatted categories, parodies, characters, tags and artists; black-and-white exactly when some tag mentions `greyscale`; translated exactly when some language mentions `translated`; the code is `zh` exactly when a language mentions `chinese`, `ja` exactly when none does and one mentions `japanese`, `en` otherwise |
| ComicInfo.DeriveFromItems | TOOL/add_manga_metadata.py:517-532 | with list metadata, each flag is set exactly when some item contains its word (ignoring case) |
| ComicInfo.ReplaceChar | TOOL/add_manga_metadata.py:567-571 | after `replace(c, rep)` with `c` not in `rep`, no `c` is left, and nothing new appears beyond `rep`'s characters |
| ComicInfo.EscapeXmlChar | TOOL/add_manga_metadata.py:567-571 | the chain of replacements maps each single character to its entity, or to itself |
| ComicInfo.EscapeXml | TOOL/add_manga_metadata.py:563-572 | an empty text escapes to the empty text; `ComicInfo.EscapeXmlIsEscapeEach` and `ComicInfo.EscapeXmlEscapes` state the rest: each character is escaped on its own, no raw `<`, `>`, `"` or `'` is left, every `&` opens an entity, and unescaping gives the text back |
| ComicInfo.EscapeXmlIsEscapeEach | TOOL/add_manga_metadata.py:563-572 | the five replacements, `&` first, are the same as escaping each character on its own |
| ComicInfo.EscapeXmlSafe | TOOL/add_manga_metadata.py:563-572 | the output holds no `<`, `>`, `"` or `'`, and every `&` in it starts one of the five predefined entities |
| ComicInfo.EscapeRoundTrip | TOOL/add_manga_metadata.py:563-572 | a left-to-right unescape gives the original text back |
| ComicInfo.EscapeXmlEscapes | TOOL/add_manga_metadata.py:563-572 | the output is a well-formed escaped text standing for the input |
| ComicInfo.EscapedUnique | TOOL/add_manga_metadata.py:563-572 | a well-formed escaped text standing for a string is exactly the escaping of that string, so `Derive`'s text fields are determined |
| Translation.TranslateTag | TOOL/add_manga_metadata.py:407-438 | found exactly when the tag is empty, its stripped form is already a translation, or the dictionary knows it; a found non-empty tag becomes a translation; an unfound one comes back stripped |
| Translation.TranslateTagSettles | TOOL/add_manga_metadata.py:407-438 | with non-empty, already stripped translations, translating a translated tag again gives it back, found |
| Translation.TranslateTagsList | TOOL/add_manga_metadata.py:440-454 | the result has the input's length, each item is that tag's translation, and `all_found` holds exactly when every tag was found |
| Translation.TranslateEach | TOOL/add_manga_metadata.py:445-454 | the loop collects one result per tag in order and reports whether every tag was found |
| Translation.SplitTags | TOOL/add_manga_metadata.py:1400-1415 | the tags are the comma pieces in order, each stripped, the empty ones dropped (the reference `KeptPieces`); a text is a tag exactly when it is a non-empty stripped piece |
| Translation.TranslateMetadataTags | TOOL/add_manga_metadata.py:1388-1407 | the `tags` value is replaced only when every tag was found; a list is translated item by item; a fully found string becomes its translated tags joined with `", "`; an absent value is left alone and counts as found |
| Translation.TranslateXmlTags | TOOL/add_manga_metadata.py:1410-1422 | the `<Tags>` text is replaced only when every tag was found, by the translations joined with `', '`; absent or empty text counts as found |
| Translation.TranslateContent | TOOL/add_manga_metadata.py:1383-1424 | the overall flag is the conjunction of the two fields' flags; each field takes its own translation's value, so it changes only when its own tags were all found |
| Translation.TranslatedListIsFound | TOOL/add_manga_metadata.py:407-438 | a list of tags that are already translations is found, and comes back stripped |
| Pipeline.ExtractId | TOOL/add_manga_metadata.py:1259-1277 | an id is six ASCII digits, and the name starts with it in brackets |
| Pipeline.PatternId | TOOL/add_manga_metadata.py:1259 | a matching name carries six digits between its brackets |
| Pipeline.MatchesPattern | TOOL/add_manga_metadata.py:1259 | no contract of its own: `Pipeline.ArchiveFileNameMatches`, `Pipeline.ExtractIdFinds` and `Pipeline.ExtractIdOnlyFinds` state that it accepts exactly `[`, six ASCII digits, `]`, a title of at least one character and no newline, a dot, and `zip` or `cbz` in any case |
| Pipeline.ArchiveFileNameMatches | TOOL/add_manga_metadata.py:1259 | every well-formed `[id]title.ext` name matches the pattern |
| Pipeline.ExtractIdFinds | TOOL/add_manga_metadata.py:1259-1277 | every well-formed `[id]title.ext` name yields its id, also with one trailing newline; `ext` is `zip` or `cbz` in any case, the `i` also written `İ` or `ı` |
| Pipeline.PatternParts | TOOL/add_manga_metadata.py:1259 | a matching name splits into a six-digit id, a non-empty title without newline, and a `zip`/`cbz` extension |
| Pipeline.ExtractIdOnlyFinds | TOOL/add_manga_metadata.py:1259-1277 | every name that yields an id is a well-formed name, possibly followed by one newline |
| Pipeline.ExtractIdRejects | TOOL/add_manga_metadata.py:1259-1277 | five-digit and seven-digit ids, an empty title and other extensions are rejected; the extension is matched ignoring case, so `CbZ`, `zıp` and `ZİP` are accepted |
| Pipeline.Chunks | TOOL/add_manga_metadata.py:1633-1634 | the slices put back together give the list; each is non-empty and at most the batch size, and all but the last are full |
| Pipeline.Batches | TOOL/add_manga_metadata.py:1633-1634 | with a batch size of at least one the batches cover the list in order; otherwise there is none |
| Pipeline.KeyInjective | TOOL/add_manga_metadata.py:306 | for the two reserved names the cache key does identify its path and entry |
| Pipeline.PutAgrees | TOOL/add_manga_metadata.py:1659-1662 | caching what the archive holds keeps the cache in agreement with the archives |
| Pipeline.ForgetArchive | TOOL/add_manga_metadata.py:1525-1526 | not in the source, which rewrites the archive here and leaves its cached entries in place: this is the correction of "## Findings". Neither reserved entry of the path is cached afterwards, and everything left was cached before |
| Pipeline.CachedRead | TOOL/add_manga_metadata.py:1289-1315 | a cached entry is returned from the cache; on a miss the archive must be there, and an entry it holds is read and cached |
| Pipeline.CachedReadAgrees | TOOL/add_manga_metadata.py:1289-1315 | with an agreeing cache, a cached read gives what the archive holds, hit or miss, and the cache keeps agreeing |
| Pipeline.ParsedTags | TOOL/add_manga_metadata.py:1299-1304 | a missing or empty `metadata.json` is never parsed; a non-empty one gives what the parse gives |
| Pipeline.ParsedXml | TOOL/add_manga_metadata.py:1317-1327 | a missing or empty `ComicInfo.xml` is never parsed; a non-empty one gives what the parse gives |
| Pipeline.TranslateEntries | TOOL/add_manga_metadata.py:1299-1367 | nothing parsed gives `未找到元数据文件`; a success carries no message; only a success outside a dry run writes, and only to an archive that is there |
| Pipeline.TranslateEntriesSpec | TOOL/add_manga_metadata.py:1330-1367 | success exactly when something parsed, both fields were fully found, and the archive is there unless this is a dry run; the rewrite holds each parsed document with its tags translated, and no other copy of either reserved entry |
| Pipeline.RewriteWithoutMetadata | TOOL/add_manga_metadata.py:1447-1449 | a rewrite without metadata holds no `metadata.json` |
| Pipeline.TranslateArchive | TOOL/add_manga_metadata.py:1279-1381 | a success carries no message and needs the archive to be there (or a dry run); a write needs both |
| Pipeline.TranslateArchiveAgrees | TOOL/add_manga_metadata.py:1279-1381 | with an agreeing cache, translation works on what the archive holds, and the cache still agrees |
| Pipeline.CbzNameDiffers | TOOL/add_manga_metadata.py:1529-1530 | the `.cbz` name of a `.zip` differs from it |
| Pipeline.Place | TOOL/add_manga_metadata.py:1525-1533 | the rewritten archive replaces the original, under the new name after a rename; no other archive changes |
| Pipeline.ProcessZip | TOOL/add_manga_metadata.py:1476-1550 | success exactly in a dry run or when the archive is there; a dry run or a failure changes nothing; a rename happens exactly for a `.zip` with conversion asked for, and only the archive itself moves |
| Pipeline.ProcessZipInjects | TOOL/add_manga_metadata.py:1497-1538 | after a real run the archive left behind holds the fetched metadata, exactly once, and the generated ComicInfo exactly when a CBZ is wanted and it is non-empty |
| Pipeline.Settle | TOOL/add_manga_metadata.py:1586-1610 | the final update touches only the one task |
| Pipeline.SettleSpec | TOOL/add_manga_metadata.py:1588-1610 | success is recorded with no message (under the new name after a rename); failure with `处理文件失败` or `翻译失败`; the translation status survives |
| Pipeline.TranslationTarget | TOOL/add_manga_metadata.py:1578 | the archive translated is the file itself unless `process_zip_file` returned a new path, and then that path |
| Pipeline.Finish | TOOL/add_manga_metadata.py:1576-1612 | success needs the archive to translate to be there (or a dry run); the folder only changes on a real successful run |
| Pipeline.FinishSettles | TOOL/add_manga_metadata.py:1576-1612 | after translation the file's status, message and translation status all agree with the result |
| Pipeline.ProcessFile | TOOL/add_manga_metadata.py:1552-1612 | success needs a matching name, fetched metadata and (outside a dry run) the archive; a dry run never changes the folder; only the one task changes |
| Pipeline.ProcessFileSettles | TOOL/add_manga_metadata.py:1552-1612 | the file always leaves pending: skipped with `文件名格式不符合` for a bad name, failed with `获取元数据失败`, `处理文件失败` or `翻译失败` at the step that failed, success (under the `.cbz` name after a conversion) exactly when the result is true; once processed, the translation status agrees |
| Pipeline.EarlyExitSettles | TOOL/add_manga_metadata.py:1553-1610 | a bad name, no metadata or a missing archive each record their own status and message |
| Pipeline.ProcessedSettles | TOOL/add_manga_metadata.py:1573-1612 | a processed file ends with status, message and translation status agreeing with the result |
| Pipeline.SettleKeepsWellFormed | TOOL/add_manga_metadata.py:1588-1610 | the final update keeps the store well formed, swapping at most the one name |
| Pipeline.FinishKeepsWellFormed | TOOL/add_manga_metadata.py:1576-1612 | the translation step keeps the store well formed, swapping at most the one name |
| Pipeline.ProcessFileKeepsWellFormed | TOOL/add_manga_metadata.py:1552-1612 | for a held file whose `.cbz` name is free, `process_file` keeps the store well formed; that task's names are the same but for the rename, and every other record is untouched |
| Pipeline.RefreshKeepsAgreement | TOOL/add_manga_metadata.py:1552-1612 | with the cache refreshed on every rewrite, the cache keeps agreeing with the archives on disk |
| Pipeline.RefreshTranslatesInjectedMetadata | TOOL/add_manga_metadata.py:1552-1612 | with the refresh, the tags translated are those of the metadata just fetched, and a `ComicInfo.xml` is only present when a CBZ is wanted |
| Pipeline.StaleRunKeepsCached | TOOL/add_manga_metadata.py:1289-1337 | as written, once both reserved entries are cached, a run writes the cached `metadata.json` back, and a `ComicInfo.xml` beside it, whatever was fetched |
| Pipeline.RefreshedRunKeepsFetched | TOOL/add_manga_metadata.py:1497-1533 | with the refresh, such a run keeps the fetched metadata and adds no `ComicInfo.xml` to a `.zip` |
| Pipeline.ExampleCacheIsPreloaded | TOOL/add_manga_metadata.py:1647-1665 | the example's cache is exactly what the batch preload puts into a fresh cache of size 50 (line 1271) |
| Pipeline.StaleCacheRestoresOldMetadata | TOOL/add_manga_metadata.py:1289-1337 | on a concrete `.zip` that already holds both entries, the source ends with the old metadata and a `ComicInfo.xml`; with the refresh it ends with the fetched metadata and none |
| Pipeline.CachedEntriesWin | TOOL/add_manga_metadata.py:1289-1315 | as written, once both entries are cached, translation works on the cached copies, not on what `process_zip_file` just wrote |
| Pipeline.PreloadEntry | TOOL/add_manga_metadata.py:1659-1662 | an entry the archive holds is cached with its content; an absent one changes nothing |
| Pipeline.Preload | TOOL/add_manga_metadata.py:1647-1665 | the preload keeps the cache valid and its limit |
| Pipeline.PreloadAgrees | TOOL/add_manga_metadata.py:1647-1665 | the preload caches only what the archives hold |
| Pipeline.RunBatch | TOOL/add_manga_metadata.py:1667-1701 | a batch run up to line 1701, as written (`refresh` false) or corrected, keeps the cache valid and the set of tasks unchanged |
| Pipeline.RunBatches | TOOL/add_manga_metadata.py:1633-1645 | after at least one batch the cache is empty |
| Pipeline.ProcessTaskBatch | TOOL/add_manga_metadata.py:1614-1645 | an unknown task, or one with no pending file, is left exactly as it was |
| Pipeline.RunBatchAgrees | TOOL/add_manga_metadata.py:1667-1701 | a property of the corrected run only, up to line 1701: with each rewritten archive's entries dropped, a batch run keeps the cache in agreement with the archives. The source's `_process_batch` breaks it (`Pipeline.StaleRunKeepsCached`, "## Findings") |
| Pipeline.ProcessFileSettlesOne | TOOL/add_manga_metadata.py:1552-1612 | without conversion, as written or corrected, one file leaves pending and no other record moves |
| Pipeline.RunBatchSettles | TOOL/add_manga_metadata.py:1667-1701 | `_process_batch` up to line 1701, without conversion, as written or corrected: a batch of held files keeps the store well formed, takes every one of them out of pending, and leaves every other record of the task as it was |
| Pipeline.RunBatchesSettles | TOOL/add_manga_metadata.py:1633-1645 | the same over all batches of a task, each batch run up to line 1701 |
| Pipeline.NoPendingLeft | TOOL/add_manga_metadata.py:980-989 | once every pending file has settled, the pending counter is zero |
| Pipeline.ProcessTaskBatchClearsPending | TOOL/add_manga_metadata.py:1614-1645 | without conversion and with a batch size of at least one, a run as written or corrected leaves no file of that task pending and keeps its files |

## Left out

- Logging, configuration and the interactive setup (`Logger`, `Config`, lines 46-231) are console and file I/O.
- Network fetching and HTML scraping (`NetClient`, `MetadataParser`) are outside the model. The fetched metadata is an opaque value given by `Env.fetch`, and an empty result counts as none.
- `DiskIOController` (wall-clock time, `sleep`, floating-point rates) is not modelled. The throttle calls change no data.
- Threads, the thread pool and its timeouts, the SIGINT handler and the shutdown flag are left out. A batch runs its files one after the other, so the lock only marks what is atomic.
- File operations are not modelled: temporary and backup files, `os.rename` / `os.remove` / `os.replace`, and whether each step is atomic. The only I/O failure modelled is opening an archive that is not there. Other exceptions (corrupt archives, disk errors, read failures in `analyze_zip_structure` that give `unknown`) are not modelled.
- Persisting tasks (`_save_task`, loading task files) and time stamps (`updated_at`, `created_at`) are not modelled, because they hold no logic beyond writing the in-memory record.
- `json.dumps`, `json.loads`, BeautifulSoup parsing and re-serialisation, `.encode('utf-8')`, filling the ComicInfo template and md5 are opaque. They are `Env` fields or function parameters.
- `ComicInfo.Derive`: the date fields (`fromisoformat` parsing), page count, id and favourites go straight into the template and are left to `Env.renderXml`. `generate_comic_info` returning `None` after an exception is not modelled.
- `ComicInfo.FormatField` only knows strings and lists of strings. `str()` of numbers and other values is not modelled.
- `Common.Lower` folds only ASCII letters. Python's `str.lower` folds other letters too. For the four flag words (`greyscale`, `translated`, `chinese`, `japanese`) the tests agree: the only non-ASCII letters that lower to ASCII are `İ` (to `i` and a combining dot) and the Kelvin sign (to `k`), and neither can complete one of these words. `Zip.HasExtension` also uses `Common.Lower`, for `zip_path.lower().endswith('.cbz')` and `.endswith('.zip')`; the same argument shows the two agree there, because the last four characters of Python's lower-cased path can be `.zip` or `.cbz` only when the path's last four characters are these letters in either case. The file-name pattern does not use `Common.Lower`: `Pipeline.LetterMatches` also accepts `İ` and `ı` for the `i` of `zip`, as Python's `IGNORECASE` does.
- `Pipeline.ExtractId` accepts only ASCII digits. Python's `\d` also accepts other Unicode decimal digits. The trailing-newline behaviour of `$` and the case-insensitive extension (`İ` and `ı` included) are modelled.
- Task folder paths are taken as already absolute (`os.path.abspath` is not modelled). The archive listing is a parameter. A file's path inside the folder is its name.
- `Pipeline.Batches`: a batch size below one gives no batch. In the source, `range` raises on a step of zero.
- `process_translation_only` is called (lines 1818 and 2225) but is not defined as a method. The code written as its body (lines 1702-1786) is indented as part of `_process_batch`, after its `finally`, so it runs at the end of every batch (see the `Pipeline.RunBatch` line below). `TaskStore.RetryFailedTranslations` stops at the reset before the call at line 1818, which has no method to reach.
- `ZipInPlaceModifier.append_file` is never called, and is left out.
- The debugging, summary, export and CLI code (`ZipDebugger`, `print_*`, `export_*`, `display_*`, `main`) formats reports and handles arguments.
- `TaskStore.UpdateFileStatusKeepsWellFormed` requires the file to be held by its task. For an unknown file name the counters break, as `TaskStore.UnknownFilenameBreaksCounters` shows.
- `TaskStore.UpdateTranslationStatusKeepsWellFormed` requires the file to be held by its task, for the same reason.
- `TaskStore.RenameFileKeepsWellFormed` requires the new name to be free. A move onto a held name loses a record, as `TaskStore.MoveOntoExistingKeyBreaksCounters` shows.
- `Pipeline.ProcessFileKeepsWellFormed` requires the file to be held and its `.cbz` name to be free, for the two reasons above.
- `Pipeline.RunBatch` stops at the end of `_process_batch`'s `finally` (line 1701). The code after it (lines 1702-1786) runs after every batch, before the cache is cleared (lines 1644-1645), and is not modelled. When the task and its folder exist, it translates every file of the task whose translation status is pending (`TaskStore.UntranslatedFiles`, line 1716), through the batch's cache (line 1825). Each such file gets a new translation status, and its archive may be rewritten. So "every other record as it was" in `Pipeline.RunBatchSettles` and `Pipeline.RunBatchesSettles`, and the cache agreement of `Pipeline.RunBatchAgrees`, describe `_process_batch` up to line 1701 only.
- `Pipeline.RunBatchSettles` covers only runs without `.cbz` conversion. After a conversion the record moves, and the batch's names no longer match the task's.
- `Pipeline.RunBatchesSettles` covers only runs without `.cbz` conversion, for the same reason.
- `Pipeline.ProcessTaskBatchClearsPending` covers only runs without `.cbz` conversion and with a batch size of at least one.

## Findings

| source | as written | input that shows it | evidently intended | confidence | as-written member | corrected member |
|---|---|---|---|---|---|---|
| TOOL/add_manga_metadata.py:1289-1337 | The batch preload caches an archive's existing `metadata.json` and `ComicInfo.xml` (lines 1647-1665). `process_zip_file` then replaces them on disk (lines 1497-1533). The translation step still reads the cached copies, and when every tag is found it rewrites the archive from them (lines 1426-1456). | A `.zip`, without conversion, that already holds `metadata.json` and `ComicInfo.xml` whose tags are all translatable. The run ends with the old metadata (translated) in place of the fetched one, and with a `ComicInfo.xml` in a plain `.zip`. | The translation works on the metadata just written: a rewrite of an archive drops its cached entries. | not executed | Pipeline.StaleCacheRestoresOldMetadata | Pipeline.RefreshTranslatesInjectedMetadata |

=== FILE: archive.dfy ===
/** Archives as ordered entry lists. `zipfile.namelist()` is the list of
    entry names in order (duplicates included) and `read(name)` returns the
    content of the LAST entry carrying that name. Every rewrite in the tool
    walks `namelist()` of the source archive and `writestr`s into a fresh
    one, so each rewrite is a function from one entry list to another. */
module Zip {
  import opened Common

  type Entry = (string, Bytes)
  type Archive = seq<Entry>

  /** `namelist()`. */
  function Names(a: Archive): seq<string> {
    seq(|a|, i requires 0 <= i < |a| => a[i].0)
  }

  /** Some entry carries the name (`name in namelist()`). */
  predicate Has(a: Archive, n: string) {
    exists i :: 0 <= i < |a| && a[i].0 == n
  }

  lemma HasIsInNames(a: Archive, n: string)
    ensures Has(a, n) <==> n in Names(a)
  {
    if n in Names(a) {
      var i :| 0 <= i < |a| && Names(a)[i] == n;
    }
    if Has(a, n) {
      var i :| 0 <= i < |a| && a[i].0 == n;
      assert Names(a)[i] == n;
    }
  }

  /** No two entries share a name. */
  predicate UniqueNames(a: Archive) {
    forall i, j :: 0 <= i < j < |a| ==> a[i].0 != a[j].0
  }

  /** `read(name)`: the content of the last entry with that name. */
  function Read(a: Archive, n: string): (r: Bytes)
    requires Has(a, n)
    ensures exists i :: 0 <= i < |a| && a[i] == (n, r) && forall j :: i < j < |a| ==> a[j].0 != n
  {
    var last := |a| - 1;
    if a[last].0 == n then a[last].1
    else
      var k :| 0 <= k < |a| && a[k].0 == n;
      assert a[..last][k].0 == n;
      var r := Read(a[..last], n);
      assert forall i :: 0 <= i < last ==> a[..last][i] == a[i];
      r
  }

  /** When no name repeats, `read` returns each entry's own content. */
  lemma ReadUnique(a: Archive, i: int)
    requires UniqueNames(a) && 0 <= i < |a|
    ensures Has(a, a[i].0) && Read(a, a[i].0) == a[i].1
  {
    var r := Read(a, a[i].0);
    var k :| 0 <= k < |a| && a[k] == (a[i].0, r) && forall j :: k < j < |a| ==> a[j].0 != a[i].0;
    assert k == i;
  }

  lemma NamesAppend(a: Archive, b: Archive)
    ensures Names(a + b) == Names(a) + Names(b)
  {
  }

  // ------------------------------------------------------------ structure

  datatype Structure = Unknown | Flat | Nested(folder: string)

  /** The first path segment of a name with its trailing slashes removed
      (`item.rstrip('/').split('/')[0]`, which is the whole name when it
      holds no slash). */
  function Root(n: string): string {
    Before(RStripSlash(n), '/')
  }

  /** `root_level_items`, built the way the loop builds it. */
  function RootsOf(names: seq<string>): (r: set<string>)
    decreases |names|
  {
    if |names| == 0 then {}
    else
      var rest := RootsOf(names[..|names| - 1]);
      var n := names[|names| - 1];
      if RStripSlash(n) == "" then rest else rest + {Root(n)}
  }

  /** The same set, stated declaratively. */
  ghost function RootSet(names: seq<string>): set<string> {
    set n | n in names && RStripSlash(n) != "" :: Root(n)
  }

  lemma {:induction false} RootsOfIsRootSet(names: seq<string>)
    ensures RootsOf(names) == RootSet(names)
    decreases |names|
  {
    if |names| > 0 {
      var init := names[..|names| - 1];
      RootsOfIsRootSet(init);
      assert names == init + [names[|names| - 1]];
      forall x | x in RootSet(names) ensures x in RootsOf(names) {
        var n :| n in names && RStripSlash(n) != "" && Root(n) == x;
        if n in init {
          assert x in RootSet(init);
        }
      }
    }
  }

  /** The root of the first name that is not all slashes. */
  function FirstRoot(names: seq<string>): (r: Option<string>)
    ensures r.None? <==> forall n :: n in names ==> RStripSlash(n) == ""
    ensures r.Some? ==> r.value in RootSet(names)
  {
    if |names| == 0 then None
    else if RStripSlash(names[0]) != "" then
      assert names[0] in names;
      Some(Root(names[0]))
    else
      var r := FirstRoot(names[1..]);
      assert forall n :: n in names ==> n == names[0] || n in names[1..];
      assert forall n :: n in names[1..] ==> n in names;
      r
  }

  /** `any('/' in item.rstrip('/') and item.rstrip('/').split('/')[0] == single
      for item in file_list if '/' in item)`. */
  predicate HasFolder(names: seq<string>, single: string) {
    exists i :: 0 <= i < |names| && '/' in names[i] && '/' in RStripSlash(names[i]) && Root(names[i]) == single
  }

  /** `analyze_zip_structure` (read failures, which also give `unknown`,
      are not modelled). */
  function Classify(names: seq<string>): (r: Structure)
    ensures r == Unknown <==> |names| == 0
    ensures r.Nested? <==>
      && |names| > 0
      && |RootSet(names)| == 1
      && exists n :: n in names && '/' in RStripSlash(n)
    ensures r.Nested? ==> RootSet(names) == {r.folder}
  {
    if |names| == 0 then Unknown
    else
      var roots := RootsOf(names);
      RootsOfIsRootSet(names);
      if |roots| == 1 then
        var first := FirstRoot(names);
        assert first.Some? by {
          var x :| x in roots;
          var n :| n in names && RStripSlash(n) != "" && Root(n) == x;
        }
        var single := first.value;
        OnlyElement(roots, single);
        SlashedNameHasTheRoot(names, single);
        if HasFolder(names, single) then Nested(single) else Flat
      else
        Flat
  }

  lemma OnlyElement(s: set<string>, x: string)
    requires |s| == 1 && x in s
    ensures s == {x}
  {
    var y :| y in s;
    assert |s - {x}| == 0;
  }

  /** With a single root, every name that still has a slash lies under it. */
  lemma SlashedNameHasTheRoot(names: seq<string>, single: string)
    requires RootSet(names) == {single}
    ensures HasFolder(names, single) <==> exists n :: n in names && '/' in RStripSlash(n)
  {
    if exists n :: n in names && '/' in RStripSlash(n) {
      var n :| n in names && '/' in RStripSlash(n);
      var i :| 0 <= i < |names| && names[i] == n;
      assert Root(n) in RootSet(names);
      var k :| 0 <= k < |RStripSlash(n)| && RStripSlash(n)[k] == '/';
      assert n[k] == '/';
    }
  }

  // ------------------------------------------------------------- flatten

  /** An entry that `convert_nested_to_flat` moves out of folder `f`. */
  predicate InFolder(n: string, f: string) {
    StartsWith(n, f + "/") && !EndsWith(n, "/")
  }

  function InFolderOf(f: string): string -> bool {
    (n: string) => InFolder(n, f)
  }

  /** `item[len(folder_prefix):]`. */
  function Unprefix(n: string, f: string): string
    requires StartsWith(n, f + "/")
  {
    n[|f| + 1..]
  }

  /** Names under the folder with the `f/` prefix dropped. */
  function DropFolder(names: seq<string>, f: string): seq<string>
    requires forall i :: 0 <= i < |names| ==> StartsWith(names[i], f + "/")
  {
    seq(|names|, i requires 0 <= i < |names| => Unprefix(names[i], f))
  }

  lemma DropFolderCons(n: string, rest: seq<string>, f: string)
    requires StartsWith(n, f + "/")
    requires forall i :: 0 <= i < |rest| ==> StartsWith(rest[i], f + "/")
    ensures forall i :: 0 <= i < |[n] + rest| ==> StartsWith(([n] + rest)[i], f + "/")
    ensures DropFolder([n] + rest, f) == [Unprefix(n, f)] + DropFolder(rest, f)
  {
    assert forall i :: 0 <= i < |[n] + rest| ==> ([n] + rest)[i] == if i == 0 then n else rest[i - 1];
  }

  lemma FilterCons(n: string, rest: seq<string>, keep: string -> bool)
    ensures Filter([n] + rest, keep) == if keep(n) then [n] + Filter(rest, keep) else Filter(rest, keep)
  {
    assert ([n] + rest)[1..] == rest;
  }

  /** A name that equals the folder once trailing slashes are removed is
      never moved: either it lacks the prefix or it ends in a slash. */
  lemma FolderItselfNotMoved(n: string, f: string)
    requires RStripSlash(n) == f
    ensures !InFolder(n, f)
  {
    if StartsWith(n, f + "/") {
      assert n[|n| - 1] == '/';
    }
  }

  /** Within the prefix, the loop's test `new_name and not item.endswith('/')`
      is `InFolder`. */
  lemma LoopTestIsInFolder(n: string, f: string)
    requires StartsWith(n, f + "/")
    ensures (n[|f| + 1..] != "" && !EndsWith(n, "/")) <==> InFolder(n, f)
  {
    if n[|f| + 1..] == "" {
      assert n == f + "/";
      assert EndsWith(n, "/");
    }
  }

  /** The loop of `convert_nested_to_flat` over `items`, reading from `src`:
      each moved entry carries the content `read` returns for its old name. */
  function FlattenFrom(src: Archive, items: Archive, f: string): (r: Archive)
    requires forall i :: 0 <= i < |items| ==> Has(src, items[i].0)
    ensures forall i :: 0 <= i < |r| ==>
      && Has(src, f + "/" + r[i].0)
      && r[i].1 == Read(src, f + "/" + r[i].0)
  {
    if |items| == 0 then []
    else
      var item := items[0].0;
      var rest := FlattenFrom(src, items[1..], f);
      if RStripSlash(item) == f then rest
      else if StartsWith(item, f + "/") then
        var newName := item[|f| + 1..];
        if newName != "" && !EndsWith(item, "/") then
          assert f + "/" + newName == item;
          [(newName, Read(src, item))] + rest
        else
          rest
      else
        rest
  }

  lemma FilterInFolderPrefixed(names: seq<string>, f: string)
    ensures forall i :: 0 <= i < |Filter(names, InFolderOf(f))| ==>
      StartsWith(Filter(names, InFolderOf(f))[i], f + "/")
  {
    var m := Filter(names, InFolderOf(f));
    forall i | 0 <= i < |m| ensures StartsWith(m[i], f + "/") {
      assert m[i] in m;
    }
  }

  /** The names `FlattenFrom` writes are exactly the names under the folder,
      in order, with the prefix dropped. */
  lemma {:induction false} FlattenFromNames(src: Archive, items: Archive, f: string)
    requires forall i :: 0 <= i < |items| ==> Has(src, items[i].0)
    ensures forall i :: 0 <= i < |Filter(Names(items), InFolderOf(f))| ==>
      StartsWith(Filter(Names(items), InFolderOf(f))[i], f + "/")
    ensures Names(FlattenFrom(src, items, f)) == DropFolder(Filter(Names(items), InFolderOf(f)), f)
    decreases |items|
  {
    FilterInFolderPrefixed(Names(items), f);
    if |items| > 0 {
      var item := items[0].0;
      var tail := items[1..];
      FlattenFromNames(src, tail, f);
      FilterInFolderPrefixed(Names(tail), f);
      assert Names(items) == [item] + Names(tail);
      FilterCons(item, Names(tail), InFolderOf(f));
      var rest := FlattenFrom(src, tail, f);
      var moved := Filter(Names(tail), InFolderOf(f));
      FlattenFromCons(src, items, f);
      if InFolder(item, f) {
        DropFolderCons(item, moved, f);
        NamesAppend([(Unprefix(item, f), Read(src, item))], rest);
      }
    }
  }

  /** One step of the flatten loop: an entry under the folder is moved,
      any other entry is skipped. */
  lemma FlattenFromCons(src: Archive, items: Archive, f: string)
    requires |items| > 0
    requires forall i :: 0 <= i < |items| ==> Has(src, items[i].0)
    ensures InFolder(items[0].0, f) ==>
      FlattenFrom(src, items, f) == [(Unprefix(items[0].0, f), Read(src, items[0].0))] + FlattenFrom(src, items[1..], f)
    ensures !InFolder(items[0].0, f) ==> FlattenFrom(src, items, f) == FlattenFrom(src, items[1..], f)
  {
    var item := items[0].0;
    if InFolder(item, f) {
      LoopTestIsInFolder(item, f);
      if RStripSlash(item) == f {
        FolderItselfNotMoved(item, f);
      }
    } else if StartsWith(item, f + "/") {
      LoopTestIsInFolder(item, f);
    }
  }

  /** Every name moved out of the folder is non-empty and names a file. */
  lemma MovedNamesClean(moved: seq<string>, f: string)
    requires forall i :: 0 <= i < |moved| ==> StartsWith(moved[i], f + "/")
    requires forall i :: 0 <= i < |moved| ==> !EndsWith(moved[i], "/")
    ensures forall i :: 0 <= i < |DropFolder(moved, f)| ==>
      DropFolder(moved, f)[i] != "" && !EndsWith(DropFolder(moved, f)[i], "/")
  {
    forall i | 0 <= i < |moved|
      ensures DropFolder(moved, f)[i] != "" && !EndsWith(DropFolder(moved, f)[i], "/")
    {
      LoopTestIsInFolder(moved[i], f);
      assert InFolder(moved[i], f);
    }
  }

  /** `convert_nested_to_flat`: only a nested archive with a non-empty
      folder name is rewritten; any other archive is left as it is. */
  function Flatten(a: Archive): (r: Archive)
    ensures !Classify(Names(a)).Nested? || Classify(Names(a)).folder == "" ==> r == a
    ensures Classify(Names(a)).Nested? && Classify(Names(a)).folder != "" ==>
      var f := Classify(Names(a)).folder;
      && (forall i :: 0 <= i < |Filter(Names(a), InFolderOf(f))| ==>
            StartsWith(Filter(Names(a), InFolderOf(f))[i], f + "/"))
      && Names(r) == DropFolder(Filter(Names(a), InFolderOf(f)), f)
      && forall i :: 0 <= i < |r| ==>
           && r[i].0 != "" && !EndsWith(r[i].0, "/")
           && Has(a, f + "/" + r[i].0)
           && r[i].1 == Read(a, f + "/" + r[i].0)
  {
    match Classify(Names(a))
    case Nested(f) =>
      if f == "" then a
      else
        AllPresent(a);
        FlattenWhole(a, f);
        FlattenFrom(a, a, f)
    case _ => a
  }

  lemma AllPresent(a: Archive)
    ensures forall i :: 0 <= i < |a| ==> Has(a, a[i].0)
  {
  }

  /** What the flatten loop writes when run over a whole archive. */
  lemma FlattenWhole(a: Archive, f: string)
    requires forall i :: 0 <= i < |a| ==> Has(a, a[i].0)
    ensures forall i :: 0 <= i < |Filter(Names(a), InFolderOf(f))| ==>
      StartsWith(Filter(Names(a), InFolderOf(f))[i], f + "/")
    ensures Names(FlattenFrom(a, a, f)) == DropFolder(Filter(Names(a), InFolderOf(f)), f)
    ensures forall i :: 0 <= i < |FlattenFrom(a, a, f)| ==>
      FlattenFrom(a, a, f)[i].0 != "" && !EndsWith(FlattenFrom(a, a, f)[i].0, "/")
  {
    var r := FlattenFrom(a, a, f);
    FlattenFromNames(a, a, f);
    var moved := Filter(Names(a), InFolderOf(f));
    assert forall i :: 0 <= i < |moved| ==> !EndsWith(moved[i], "/") by {
      forall i | 0 <= i < |moved| ensures !EndsWith(moved[i], "/") {
        assert moved[i] in moved;
      }
    }
    MovedNamesClean(moved, f);
    assert forall i :: 0 <= i < |r| ==> r[i].0 == Names(r)[i];
  }

  /** The entries `Flatten` moves, put back under the folder. */
  function Unflatten(r: Archive, f: string): Archive {
    seq(|r|, i requires 0 <= i < |r| => (f + "/" + r[i].0, r[i].1))
  }

  function InFolderEntryOf(f: string): Entry -> bool {
    (e: Entry) => InFolder(e.0, f)
  }

  lemma MembersPresent(src: Archive, items: Archive)
    requires forall i :: 0 <= i < |items| ==> items[i] in src
    ensures forall i :: 0 <= i < |items| ==> Has(src, items[i].0)
  {
    forall i | 0 <= i < |items| ensures Has(src, items[i].0) {
      var k :| 0 <= k < |src| && src[k] == items[i];
    }
  }

  lemma UnflattenCons(e: Entry, rest: Archive, f: string)
    ensures Unflatten([e] + rest, f) == [(f + "/" + e.0, e.1)] + Unflatten(rest, f)
  {
    assert forall i :: 0 <= i < |rest| ==> ([e] + rest)[i + 1] == rest[i];
  }

  lemma FilterEntryCons(e: Entry, rest: Archive, keep: Entry -> bool)
    ensures Filter([e] + rest, keep) == if keep(e) then [e] + Filter(rest, keep) else Filter(rest, keep)
  {
    assert ([e] + rest)[1..] == rest;
  }

  /** One step of the flatten loop on an entry that is present in `src`. */
  lemma FlattenStep(src: Archive, e: Entry, tail: Archive, f: string)
    requires UniqueNames(src) && e in src
    requires forall i :: 0 <= i < |tail| ==> Has(src, tail[i].0)
    ensures Has(src, e.0)
    ensures InFolder(e.0, f) ==>
      Unflatten(FlattenFrom(src, [e] + tail, f), f) == [e] + Unflatten(FlattenFrom(src, tail, f), f)
    ensures !InFolder(e.0, f) ==> FlattenFrom(src, [e] + tail, f) == FlattenFrom(src, tail, f)
  {
    var k :| 0 <= k < |src| && src[k] == e;
    ReadUnique(src, k);
    var items := [e] + tail;
    assert items[0] == e && items[1..] == tail;
    var rest := FlattenFrom(src, tail, f);
    if StartsWith(e.0, f + "/") {
      LoopTestIsInFolder(e.0, f);
    }
    if InFolder(e.0, f) {
      if RStripSlash(e.0) == f {
        FolderItselfNotMoved(e.0, f);
      }
      var moved := (Unprefix(e.0, f), Read(src, e.0));
      assert FlattenFrom(src, items, f) == [moved] + rest;
      assert f + "/" + Unprefix(e.0, f) == e.0;
      UnflattenCons(moved, rest, f);
    }
  }

  lemma {:induction false} FlattenFromUnflatten(src: Archive, items: Archive, f: string)
    requires UniqueNames(src)
    requires forall i :: 0 <= i < |items| ==> items[i] in src
    ensures forall i :: 0 <= i < |items| ==> Has(src, items[i].0)
    ensures Unflatten(FlattenFrom(src, items, f), f) == Filter(items, InFolderEntryOf(f))
    decreases |items|
  {
    MembersPresent(src, items);
    if |items| > 0 {
      var e := items[0];
      var tail := items[1..];
      assert forall i :: 0 <= i < |tail| ==> tail[i] == items[i + 1];
      assert items == [e] + tail;
      assert e in src;
      FlattenFromUnflatten(src, tail, f);
      FilterEntryCons(e, tail, InFolderEntryOf(f));
      FlattenStep(src, e, tail, f);
    }
  }

  /** When no name repeats, putting the moved entries back under the folder
      gives exactly the input entries under it, in order and byte for byte. */
  lemma FlattenRoundTrip(a: Archive)
    requires UniqueNames(a)
    requires Classify(Names(a)).Nested? && Classify(Names(a)).folder != ""
    ensures Unflatten(Flatten(a), Classify(Names(a)).folder)
         == Filter(a, InFolderEntryOf(Classify(Names(a)).folder))
  {
    var f := Classify(Names(a)).folder;
    assert forall i :: 0 <= i < |a| ==> a[i] in a;
    FlattenFromUnflatten(a, a, f);
  }

  // ------------------------------------------------------- copy and append

  const MetadataName := "metadata.json"
  const ComicInfoName := "ComicInfo.xml"

  /** The two names every metadata rewrite drops and re-adds. */
  function NotReserved(): string -> bool {
    (n: string) => n != MetadataName && n != ComicInfoName
  }

  function EntryNotReserved(): Entry -> bool {
    (e: Entry) => e.0 != MetadataName && e.0 != ComicInfoName
  }

  /** The copy loop the rewrites share: each entry of `items` whose name
      passes `keep` is written again with the content `read` returns. */
  function CopyFrom(src: Archive, items: Archive, keep: string -> bool): (r: Archive)
    requires forall i :: 0 <= i < |items| ==> Has(src, items[i].0)
    ensures Names(r) == Filter(Names(items), keep)
    ensures forall i :: 0 <= i < |r| ==> Has(src, r[i].0) && r[i].1 == Read(src, r[i].0)
  {
    if |items| == 0 then []
    else
      var item := items[0].0;
      var rest := CopyFrom(src, items[1..], keep);
      assert Names(items) == [item] + Names(items[1..]);
      FilterCons(item, Names(items[1..]), keep);
      if keep(item) then
        var r := [(item, Read(src, item))] + rest;
        NamesAppend([(item, Read(src, item))], rest);
        r
      else rest
  }

  lemma {:induction false} CopyFromUnique(src: Archive, items: Archive, keep: string -> bool)
    requires UniqueNames(src)
    requires forall i :: 0 <= i < |items| ==> items[i] in src
    ensures forall i :: 0 <= i < |items| ==> Has(src, items[i].0)
    ensures CopyFrom(src, items, keep) == Filter(items, (e: Entry) => keep(e.0))
    decreases |items|
  {
    assert forall i :: 0 <= i < |items| ==> Has(src, items[i].0) by {
      forall i | 0 <= i < |items| ensures Has(src, items[i].0) {
        var k :| 0 <= k < |src| && src[k] == items[i];
      }
    }
    if |items| > 0 {
      var e := items[0];
      var tail := items[1..];
      assert forall i :: 0 <= i < |tail| ==> tail[i] == items[i + 1];
      CopyFromUnique(src, tail, keep);
      assert items == [e] + tail;
      if keep(e.0) {
        var k :| 0 <= k < |src| && src[k] == e;
        ReadUnique(src, k);
      }
    }
  }

  /** Copying an archive whose names are unique keeps every kept entry
      byte for byte and in order. */
  lemma CopyKeepsBytes(a: Archive, keep: string -> bool)
    requires UniqueNames(a)
    ensures forall i :: 0 <= i < |a| ==> Has(a, a[i].0)
    ensures CopyFrom(a, a, keep) == Filter(a, (e: Entry) => keep(e.0))
  {
    assert forall i :: 0 <= i < |a| ==> a[i] in a;
    CopyFromUnique(a, a, keep);
  }

  lemma AllNamesPresent(a: Archive)
    ensures forall i :: 0 <= i < |a| ==> Has(a, a[i].0)
  {
  }

  /** The shared shape of `process_zip_file` steps 3-5 and
      `_update_cbz_content`: every entry except the two reserved names,
      then `metadata.json`, then `ComicInfo.xml`, each only when given. */
  function Rewrite(a: Archive, metadata: Option<Bytes>, comicInfo: Option<Bytes>): (r: Archive)
    ensures Names(r) == Filter(Names(a), NotReserved())
      + (if metadata.Some? then [MetadataName] else [])
      + (if comicInfo.Some? then [ComicInfoName] else [])
  {
    AllNamesPresent(a);
    var kept := CopyFrom(a, a, NotReserved());
    var m: Archive := if metadata.Some? then [(MetadataName, metadata.value)] else [];
    var c: Archive := if comicInfo.Some? then [(ComicInfoName, comicInfo.value)] else [];
    NamesAppend(kept, m);
    NamesAppend(kept + m, c);
    kept + m + c
  }

  /** Reading an entry that a later part does not mention looks only at
      the earlier part. */
  lemma ReadAppend(x: Archive, y: Archive, n: string)
    requires Has(x, n) && !Has(y, n)
    ensures Has(x + y, n) && Read(x + y, n) == Read(x, n)
    decreases |y|
  {
    assert (x + y)[..|x|] == x;
    if |y| > 0 {
      var last := |x + y| - 1;
      assert (x + y)[last] == y[|y| - 1];
      assert (x + y)[..last] == x + y[..|y| - 1];
      ReadAppend(x, y[..|y| - 1], n);
    }
  }

  lemma ReadLast(x: Archive, n: string, c: Bytes)
    ensures Has(x + [(n, c)], n) && Read(x + [(n, c)], n) == c
  {
    assert (x + [(n, c)])[|x|] == (n, c);
  }

  /** Reading `metadata.json` back from a rewrite gives what was appended. */
  lemma ReadMetadataAfterRewrite(a: Archive, metadata: Bytes, comicInfo: Option<Bytes>)
    ensures Has(Rewrite(a, Some(metadata), comicInfo), MetadataName)
    ensures Read(Rewrite(a, Some(metadata), comicInfo), MetadataName) == metadata
  {
    AllNamesPresent(a);
    var kept := CopyFrom(a, a, NotReserved());
    var m: Archive := [(MetadataName, metadata)];
    ReadLast(kept, MetadataName, metadata);
    if comicInfo.Some? {
      var c: Archive := [(ComicInfoName, comicInfo.value)];
      assert Rewrite(a, Some(metadata), comicInfo) == kept + m + c;
      ReadAppend(kept + m, c, MetadataName);
    } else {
      assert Rewrite(a, Some(metadata), comicInfo) == kept + m;
    }
  }

  /** Reading `ComicInfo.xml` back from a rewrite gives what was appended. */
  lemma ReadComicInfoAfterRewrite(a: Archive, metadata: Option<Bytes>, comicInfo: Bytes)
    ensures Has(Rewrite(a, metadata, Some(comicInfo)), ComicInfoName)
    ensures Read(Rewrite(a, metadata, Some(comicInfo)), ComicInfoName) == comicInfo
  {
    AllNamesPresent(a);
    var kept := CopyFrom(a, a, NotReserved());
    var m: Archive := if metadata.Some? then [(MetadataName, metadata.value)] else [];
    assert Rewrite(a, metadata, Some(comicInfo)) == (kept + m) + [(ComicInfoName, comicInfo)];
    ReadLast(kept + m, ComicInfoName, comicInfo);
  }

  /** Every other name reads back as the source held it. */
  lemma ReadOtherAfterRewrite(a: Archive, metadata: Option<Bytes>, comicInfo: Option<Bytes>, n: string)
    requires Has(a, n) && n != MetadataName && n != ComicInfoName
    ensures Has(Rewrite(a, metadata, comicInfo), n)
    ensures Read(Rewrite(a, metadata, comicInfo), n) == Read(a, n)
  {
    AllNamesPresent(a);
    var kept := CopyFrom(a, a, NotReserved());
    var m: Archive := if metadata.Some? then [(MetadataName, metadata.value)] else [];
    var c: Archive := if comicInfo.Some? then [(ComicInfoName, comicInfo.value)] else [];
    assert Rewrite(a, metadata, comicInfo) == kept + (m + c);
    HasIsInNames(a, n);
    HasIsInNames(kept, n);
    assert n in Filter(Names(a), NotReserved());
    ReadAppend(kept, m + c, n);
  }

  // ---------------------------------------------------- metadata injection

  /** `zip_path.lower().endswith(ext)`: only the last `|ext|` characters
      matter, compared without ASCII case (`HasExtensionSuffix`). */
  predicate HasExtension(path: string, ext: string) {
    EndsWith(Lower(path), ext)
  }

  lemma HasExtensionSuffix(path: string, ext: string)
    ensures HasExtension(path, ext) <==> |ext| <= |path| && Lower(path[|path| - |ext|..]) == ext
  {
    if |ext| <= |path| {
      var k := |path| - |ext|;
      var tail, lowered := Lower(path)[k..], Lower(path[k..]);
      assert |tail| == |lowered|;
      forall i | 0 <= i < |tail| ensures tail[i] == lowered[i] {
        assert tail[i] == LowerChar(path[k + i]);
      }
    }
  }

  /** Whether `ComicInfo.xml` is generated: the archive is, or becomes, a CBZ. */
  predicate WantsComicInfo(path: string, toCbz: bool) {
    toCbz || HasExtension(path, ".cbz")
  }

  /** `process_zip_file` steps 1-5 on the entry list, given the serialised
      metadata and the generated ComicInfo text (already encoded). Returns
      the new archive and the renamed path, if any. */
  function InjectMetadata(path: string, a: Archive, toCbz: bool,
                          metadataJson: Bytes, comicInfo: Bytes): (r: (Archive, Option<string>))
    ensures
      var flat := if Classify(Names(a)).Nested? then Flatten(a) else a;
      && Names(r.0) == Filter(Names(flat), NotReserved()) + [MetadataName]
                       + (if WantsComicInfo(path, toCbz) && |comicInfo| > 0 then [ComicInfoName] else [])
      && (r.1.Some? <==> toCbz && HasExtension(path, ".zip"))
      && (r.1.Some? ==> |path| >= 4 && r.1.value == CbzName(path))
  {
    var flat := if Classify(Names(a)).Nested? then Flatten(a) else a;
    var ci := if WantsComicInfo(path, toCbz) && |comicInfo| > 0 then Some(comicInfo) else None;
    (Rewrite(flat, Some(metadataJson), ci), if toCbz && HasExtension(path, ".zip") then Some(CbzName(path)) else None)
  }

  /** Step 5's new name: the last four characters replaced by `.cbz`. */
  function CbzName(path: string): (r: string)
    requires |path| >= 4
    ensures |r| == |path| && HasExtension(r, ".cbz")
  {
    LowerAppend(path[..|path| - 4], ".cbz");
    assert Lower(".cbz") == ".cbz";
    path[..|path| - 4] + ".cbz"
  }

  function IsMetadataName(): string -> bool {
    (m: string) => m == MetadataName
  }

  /** A rewrite that appends `metadata.json` holds exactly one entry of that name. */
  lemma RewriteOneMetadata(a: Archive, metadata: Bytes, comicInfo: Option<Bytes>)
    ensures |Filter(Names(Rewrite(a, Some(metadata), comicInfo)), IsMetadataName())| == 1
  {
    var kept := Filter(Names(a), NotReserved());
    var tailNames: seq<string> := if comicInfo.Some? then [ComicInfoName] else [];
    assert Names(Rewrite(a, Some(metadata), comicInfo)) == kept + [MetadataName] + tailNames;
    FilterAppend(kept + [MetadataName], tailNames, IsMetadataName());
    FilterAppend(kept, [MetadataName], IsMetadataName());
    NoneKept(kept, IsMetadataName());
    assert Filter(tailNames, IsMetadataName()) == [] by {
      if comicInfo.Some? {
        assert Filter(tailNames, IsMetadataName()) == [] + Filter(tailNames[1..], IsMetadataName());
      }
    }
    assert Filter([MetadataName], IsMetadataName()) == [MetadataName] + Filter([MetadataName][1..], IsMetadataName());
  }

  /** A rewrite holds `ComicInfo.xml` exactly when it was given one. */
  lemma RewriteComicInfoPresence(a: Archive, metadata: Option<Bytes>, comicInfo: Option<Bytes>)
    ensures Has(Rewrite(a, metadata, comicInfo), ComicInfoName) <==> comicInfo.Some?
  {
    if comicInfo.Some? {
      ReadComicInfoAfterRewrite(a, metadata, comicInfo.value);
    } else {
      var out := Rewrite(a, metadata, comicInfo);
      HasIsInNames(out, ComicInfoName);
      var kept := Filter(Names(a), NotReserved());
      assert ComicInfoName !in kept;
    }
  }

  /** The injected archive holds exactly one `metadata.json`, and reading it
      gives the serialised metadata. */
  lemma InjectMetadataOnce(path: string, a: Archive, toCbz: bool, metadataJson: Bytes, comicInfo: Bytes)
    ensures var out := InjectMetadata(path, a, toCbz, metadataJson, comicInfo).0;
      && |Filter(Names(out), IsMetadataName())| == 1
      && Has(out, MetadataName) && Read(out, MetadataName) == metadataJson
  {
    var flat := if Classify(Names(a)).Nested? then Flatten(a) else a;
    var ci := if WantsComicInfo(path, toCbz) && |comicInfo| > 0 then Some(comicInfo) else None;
    assert InjectMetadata(path, a, toCbz, metadataJson, comicInfo).0 == Rewrite(flat, Some(metadataJson), ci);
    RewriteOneMetadata(flat, metadataJson, ci);
    ReadMetadataAfterRewrite(flat, metadataJson, ci);
  }

  /** `ComicInfo.xml` is present exactly when a CBZ is wanted and the
      generated text is non-empty, and then it reads as generated. */
  lemma InjectComicInfo(path: string, a: Archive, toCbz: bool, metadataJson: Bytes, comicInfo: Bytes)
    ensures var out := InjectMetadata(path, a, toCbz, metadataJson, comicInfo).0;
      && (Has(out, ComicInfoName) <==> WantsComicInfo(path, toCbz) && |comicInfo| > 0)
      && (Has(out, ComicInfoName) ==> Read(out, ComicInfoName) == comicInfo)
  {
    var flat := if Classify(Names(a)).Nested? then Flatten(a) else a;
    var ci := if WantsComicInfo(path, toCbz) && |comicInfo| > 0 then Some(comicInfo) else None;
    assert InjectMetadata(path, a, toCbz, metadataJson, comicInfo).0 == Rewrite(flat, Some(metadataJson), ci);
    RewriteComicInfoPresence(flat, Some(metadataJson), ci);
    if ci.Some? {
      ReadComicInfoAfterRewrite(flat, Some(metadataJson), comicInfo);
    }
  }

  /** Every other entry of the (flattened) input reads back unchanged. */
  lemma InjectKeepsOtherEntries(path: string, a: Archive, toCbz: bool, metadataJson: Bytes, comicInfo: Bytes, n: string)
    requires n != MetadataName && n != ComicInfoName
    ensures var flat := if Classify(Names(a)).Nested? then Flatten(a) else a;
      var out := InjectMetadata(path, a, toCbz, metadataJson, comicInfo).0;
      Has(flat, n) ==> Has(out, n) && Read(out, n) == Read(flat, n)
  {
    var flat := if Classify(Names(a)).Nested? then Flatten(a) else a;
    var ci := if WantsComicInfo(path, toCbz) && |comicInfo| > 0 then Some(comicInfo) else None;
    assert InjectMetadata(path, a, toCbz, metadataJson, comicInfo).0 == Rewrite(flat, Some(metadataJson), ci);
    if Has(flat, n) {
      ReadOtherAfterRewrite(flat, Some(metadataJson), ci, n);
    }
  }

  lemma NoneKept(kept: seq<string>, p: string -> bool)
    requires forall n :: n in kept ==> !p(n)
    ensures Filter(kept, p) == []
  {
    if Filter(kept, p) != [] {
      assert Filter(kept, p)[0] in Filter(kept, p);
    }
  }

  // ----------------------------------------------------- in-place update

  /** The loop of `update_file_content`: every entry named `target` gets the
      new content, every other entry is copied as `read` returns it. */
  function ReplaceFrom(src: Archive, items: Archive, target: string, content: Bytes): (r: Archive)
    requires forall i :: 0 <= i < |items| ==> Has(src, items[i].0)
    ensures Names(r) == Names(items)
    ensures forall i :: 0 <= i < |r| ==>
      Has(src, r[i].0) && r[i].1 == if r[i].0 == target then content else Read(src, r[i].0)
  {
    if |items| == 0 then []
    else
      var item := items[0].0;
      var e: Entry := (item, if item == target then content else Read(src, item));
      var rest := ReplaceFrom(src, items[1..], target, content);
      assert Names(items) == [item] + Names(items[1..]);
      NamesAppend([e], rest);
      [e] + rest
  }

  /** `ZipInPlaceModifier.update_file_content`: `false` and no change when
      the target is absent; otherwise the same names in the same order, the
      target holding the new content and every other name reading as before. */
  function UpdateEntry(a: Archive, target: string, content: Bytes): (r: (bool, Archive))
    ensures r.0 <==> Has(a, target)
    ensures !r.0 ==> r.1 == a
    ensures Names(r.1) == Names(a)
    ensures r.0 ==> Has(r.1, target) && Read(r.1, target) == content
    ensures forall n :: n != target && Has(a, n) ==> Has(r.1, n) && Read(r.1, n) == Read(a, n)
  {
    if !Has(a, target) then (false, a)
    else
      AllNamesPresent(a);
      var r := ReplaceFrom(a, a, target, content);
      forall n | Has(a, n) ensures Has(r, n) && Read(r, n) == if n == target then content else Read(a, n) {
        HasIsInNames(a, n);
        HasIsInNames(r, n);
      }
      (true, r)
  }

  /** The target's entries hold the new content; every other entry is kept. */
  function Replaced(a: Archive, target: string, content: Bytes): Archive {
    seq(|a|, i requires 0 <= i < |a| => if a[i].0 == target then (target, content) else a[i])
  }

  /** With unique names, the update changes only the target's entry. */
  lemma UpdateEntryOnlyTarget(a: Archive, target: string, content: Bytes)
    requires UniqueNames(a)
    ensures UpdateEntry(a, target, content).1 == Replaced(a, target, content)
  {
    var u := UpdateEntry(a, target, content);
    if u.0 {
      var r := u.1;
      assert |r| == |Names(r)|;
      forall i | 0 <= i < |a| ensures r[i] == Replaced(a, target, content)[i] {
        assert r[i].0 == Names(r)[i] == Names(a)[i] == a[i].0;
        if a[i].0 != target {
          ReadUnique(a, i);
        }
      }
    } else {
      assert forall i :: 0 <= i < |a| ==> a[i].0 != target;
    }
  }

  lemma ReplacedKeepsNames(a: Archive, target: string, content: Bytes)
    ensures UniqueNames(a) ==> UniqueNames(Replaced(a, target, content))
    ensures Has(Replaced(a, target, content), target) == Has(a, target)
    ensures Replaced(Replaced(a, target, content), target, content) == Replaced(a, target, content)
  {
    var r := Replaced(a, target, content);
    assert forall i :: 0 <= i < |a| ==> r[i].0 == a[i].0;
  }

  /** Updating twice with the same content is the same as updating once. */
  lemma UpdateEntryIdempotent(a: Archive, target: string, content: Bytes)
    requires UniqueNames(a)
    ensures UpdateEntry(UpdateEntry(a, target, content).1, target, content) == UpdateEntry(a, target, content)
  {
    var u1 := UpdateEntry(a, target, content);
    UpdateEntryOnlyTarget(a, target, content);
    ReplacedKeepsNames(a, target, content);
    var u2 := UpdateEntry(u1.1, target, content);
    UpdateEntryOnlyTarget(u1.1, target, content);
    assert u2.1 == u1.1;
    assert u2.0 == u1.0;
  }
}

=== FILE: cache.dfy ===
/** The bounded least-frequently-used cache (`MemoryCacheManager`): one map
    from key to content, one from key to access count, and a size limit.
    `min` over `access_count.keys()` scans that dict in insertion order, so
    the model keeps that order (`order`) beside the two maps. */
module LfuCache {
  import opened Common

  /** `f"{file_path}:{inner_path}"`: the path, a colon, the entry name. The
      key splits back at the path's length (`KeySplits`), but not at its
      first colon (`KeyCollides`). */
  function Key(path: string, inner: string): string {
    path + ":" + inner
  }

  lemma KeySplits(path: string, inner: string)
    ensures |Key(path, inner)| == |path| + 1 + |inner|
    ensures Key(path, inner)[..|path|] == path && Key(path, inner)[|path|] == ':'
    ensures Key(path, inner)[|path| + 1..] == inner
  {
  }

  /** Two different (path, entry) pairs can share a key when a path holds a colon. */
  lemma KeyCollides()
    ensures Key("a:b", "c") == Key("a", "b:c")
  {
  }

  datatype Cache = Cache(
    order: seq<string>,
    entries: map<string, Bytes>,
    counts: map<string, int>,
    maxSize: int)

  /** The two maps always hold the same keys, and `order` lists them once each. */
  ghost predicate Valid(c: Cache) {
    && Distinct(c.order)
    && (forall k :: k in c.counts <==> k in c.order)
    && c.entries.Keys == c.counts.Keys
  }

  function Empty(maxSize: int): (c: Cache)
    ensures Valid(c) && |c.entries| == 0
  {
    Cache([], map[], map[], maxSize)
  }

  /** `min(access_count.keys(), key=...)`: the first key, in dict order,
      whose count is minimal (a later key only wins with a strictly
      smaller count). */
  function LeastUsed(order: seq<string>, counts: map<string, int>): (r: string)
    requires |order| > 0 && forall k :: k in order ==> k in counts
    ensures r in order
    ensures forall k :: k in order ==> counts[r] <= counts[k]
    ensures exists j :: 0 <= j < |order| && order[j] == r
                        && forall i :: 0 <= i < j ==> counts[order[i]] > counts[r]
  {
    if |order| == 1 then
      assert order[0] == order[0];
      order[0]
    else
      var m := LeastUsed(order[1..], counts);
      if counts[order[0]] <= counts[m] then order[0]
      else
        var j :| 0 <= j < |order[1..]| && order[1..][j] == m
                 && forall i :: 0 <= i < j ==> counts[order[1..][i]] > counts[m];
        assert order[j + 1] == m;
        assert forall i :: 1 <= i < j + 1 ==> counts[order[i]] > counts[m] by {
          forall i | 1 <= i < j + 1 ensures counts[order[i]] > counts[m] {
            assert order[i] == order[1..][i - 1];
          }
        }
        m
  }

  /** `_evict_least_used`: nothing happens on an empty cache. */
  function Evict(c: Cache): (r: Cache)
    requires Valid(c)
    ensures Valid(r) && r.maxSize == c.maxSize
    ensures |c.entries| == 0 ==> r == c
    ensures |c.entries| > 0 ==> |r.entries| == |c.entries| - 1
    ensures r.entries.Keys <= c.entries.Keys
    ensures forall k :: k in r.entries ==> r.entries[k] == c.entries[k] && r.counts[k] == c.counts[k]
    ensures forall k :: k in c.entries && k !in r.entries ==>
              forall other :: other in c.counts ==> c.counts[k] <= c.counts[other]
  {
    if |c.counts| == 0 then c
    else
      assert |c.order| > 0 by {
        var k :| k in c.counts;
        assert k in c.order;
      }
      var victim := LeastUsed(c.order, c.counts);
      Cache(Remove(c.order, victim), c.entries - {victim}, c.counts - {victim}, c.maxSize)
  }

  /** `get_cached_content`. */
  function Get(c: Cache, path: string, inner: string): (r: (Option<Bytes>, Cache))
    requires Valid(c)
    ensures Valid(r.1)
    ensures Key(path, inner) !in c.entries ==> r.0 == None && r.1 == c
    ensures Key(path, inner) in c.entries ==>
      && r.0 == Some(c.entries[Key(path, inner)])
      && r.1.entries == c.entries && r.1.order == c.order && r.1.maxSize == c.maxSize
      && r.1.counts == c.counts[Key(path, inner) := c.counts[Key(path, inner)] + 1]
  {
    var k := Key(path, inner);
    if k !in c.entries then (None, c)
    else (Some(c.entries[k]), c.(counts := c.counts[k := c.counts[k] + 1]))
  }

  /** `cache_content`: when full, evict first; the new entry starts at count 1. */
  function Put(c: Cache, path: string, inner: string, content: Bytes): (r: Cache)
    requires Valid(c)
    ensures Valid(r) && r.maxSize == c.maxSize
    ensures Key(path, inner) in r.entries && r.entries[Key(path, inner)] == content
    ensures r.counts[Key(path, inner)] == 1
  {
    var k := Key(path, inner);
    Store(Room(c), k, content)
  }

  /** The assignments `cache[key] = content; access_count[key] = 1`. */
  function Store(c: Cache, k: string, content: Bytes): (r: Cache)
    requires Valid(c)
    ensures Valid(r) && r.maxSize == c.maxSize
    ensures r.entries == c.entries[k := content] && r.counts == c.counts[k := 1]
  {
    if k in c.counts then
      Cache(c.order, c.entries[k := content], c.counts[k := 1], c.maxSize)
    else
      var order := c.order + [k];
      assert Distinct(order) by {
        forall i, j | 0 <= i < j < |order| ensures order[i] != order[j] {
          assert order[i] == c.order[i];
          if j < |c.order| {
            assert order[j] == c.order[j];
          }
        }
      }
      Cache(order, c.entries[k := content], c.counts[k := 1], c.maxSize)
  }

  /** With a limit of at least one, a put never takes the cache past it. */
  lemma PutKeepsBound(c: Cache, path: string, inner: string, content: Bytes)
    requires Valid(c) && c.maxSize >= 1 && |c.entries| <= c.maxSize
    ensures |Put(c, path, inner, content).entries| <= c.maxSize
  {
    var k := Key(path, inner);
    var c1 := Room(c);
    assert |c1.entries| < c.maxSize || k in c1.entries;
    assert Put(c, path, inner, content).entries.Keys == c1.entries.Keys + {k};
  }

  /** The cache a put stores into: the evicted one when full. */
  function Room(c: Cache): (r: Cache)
    requires Valid(c)
    ensures Valid(r) && r.maxSize == c.maxSize
    ensures r.entries.Keys <= c.entries.Keys
    ensures |c.entries.Keys - r.entries.Keys| <= 1
    ensures forall k :: k in r.entries ==> r.entries[k] == c.entries[k] && r.counts[k] == c.counts[k]
    ensures forall k :: k in c.entries && k !in r.entries ==>
      && |c.entries| >= c.maxSize
      && forall other :: other in c.counts ==> c.counts[k] <= c.counts[other]
  {
    if |c.entries| >= c.maxSize then
      var r := Evict(c);
      CardinalityOfRemoved(c.entries.Keys, r.entries.Keys);
      r
    else
      assert c.entries.Keys - c.entries.Keys == {};
      c
  }

  lemma CardinalityOfRemoved(a: set<string>, b: set<string>)
    requires b <= a && (|a| == 0 ==> a == b) && (|a| > 0 ==> |b| == |a| - 1)
    ensures |a - b| <= 1
  {
    assert a == b + (a - b);
  }

  lemma PutIsStoreIntoRoom(c: Cache, path: string, inner: string, content: Bytes)
    requires Valid(c)
    ensures Put(c, path, inner, content) == Store(Room(c), Key(path, inner), content)
  {
  }

  /** A put removes at most one other entry, only when the cache is full,
      and only one whose access count is minimal; every other entry keeps
      its content and count. */
  lemma PutEvictsOnlyLeastUsed(c: Cache, path: string, inner: string, content: Bytes)
    requires Valid(c)
    ensures Put(c, path, inner, content).entries.Keys <= c.entries.Keys + {Key(path, inner)}
    ensures |c.entries.Keys - Put(c, path, inner, content).entries.Keys| <= 1
    ensures forall k :: k in c.entries && k !in Put(c, path, inner, content).entries ==>
      && |c.entries| >= c.maxSize
      && forall other :: other in c.counts ==> c.counts[k] <= c.counts[other]
    ensures forall k :: k in Put(c, path, inner, content).entries && k != Key(path, inner) ==>
      && Put(c, path, inner, content).entries[k] == c.entries[k]
      && Put(c, path, inner, content).counts[k] == c.counts[k]
  {
    var k := Key(path, inner);
    var c1 := Room(c);
    PutIsStoreIntoRoom(c, path, inner, content);
    var r := Store(c1, k, content);
    assert c.entries.Keys - r.entries.Keys <= c.entries.Keys - c1.entries.Keys;
    SubsetCardinality(c.entries.Keys - r.entries.Keys, c.entries.Keys - c1.entries.Keys);
  }

  lemma SubsetCardinality(a: set<string>, b: set<string>)
    requires a <= b
    ensures |a| <= |b|
  {
    assert b == a + (b - a);
  }

  /** Batch boundary: `cache.clear()` and `access_count.clear()`. */
  function Clear(c: Cache): (r: Cache)
    ensures Valid(r) && |r.entries| == 0 && r.maxSize == c.maxSize
  {
    Empty(c.maxSize)
  }

  /** Dropping one entry from both maps and the order. The source never
      does this; the corrected pipeline does it whenever it rewrites an
      archive whose entries may be cached. */
  function Forget(c: Cache, path: string, inner: string): (r: Cache)
    requires Valid(c)
    ensures Valid(r) && r.maxSize == c.maxSize
    ensures r.entries == c.entries - {Key(path, inner)}
    ensures r.counts == c.counts - {Key(path, inner)}
  {
    var k := Key(path, inner);
    Cache(Remove(c.order, k), c.entries - {k}, c.counts - {k}, c.maxSize)
  }

  /** Every count starts at one and only grows. */
  ghost predicate CountsPositive(c: Cache) {
    forall k :: k in c.counts ==> c.counts[k] >= 1
  }

  /** A put of a new key into a cache with room appends the key in
      insertion order and evicts nothing. */
  lemma PutFresh(c: Cache, path: string, inner: string, content: Bytes)
    requires Valid(c) && |c.entries| < c.maxSize && Key(path, inner) !in c.entries
    ensures Put(c, path, inner, content) ==
      Cache(c.order + [Key(path, inner)], c.entries[Key(path, inner) := content],
            c.counts[Key(path, inner) := 1], c.maxSize)
  {
    assert Room(c) == c;
  }

  /** A put followed by a get of the same entry returns what was put. */
  lemma PutThenGet(c: Cache, path: string, inner: string, content: Bytes)
    requires Valid(c)
    ensures Get(Put(c, path, inner, content), path, inner).0 == Some(content)
    ensures Get(Put(c, path, inner, content), path, inner).1.counts[Key(path, inner)] == 2
  {
  }

  /** Gets and puts keep every count positive. */
  lemma OperationsKeepCountsPositive(c: Cache, path: string, inner: string, content: Bytes)
    requires Valid(c) && CountsPositive(c)
    ensures CountsPositive(Get(c, path, inner).1)
    ensures CountsPositive(Put(c, path, inner, content))
  {
    PutIsStoreIntoRoom(c, path, inner, content);
    assert CountsPositive(Room(c));
  }
}

=== FILE: comicinfo.dfy ===
/** What `ComicInfoGenerator` derives from the scraped metadata: the list
    fields joined with `", "`, the two flags found by substring tests, the
    language code, and the predefined-entity escaping of section 4.6 of
    XML 1.0 applied to every text field. */
module ComicInfo {
  import opened Common

  /** A metadata value as the generator sees it: absent, a string, or a
      list of strings. */
  datatype Value = Missing | Text(text: string) | Items(items: seq<string>)

  /** The metadata fields the generator reads. */
  datatype Metadata = Metadata(
    title: string,
    subtitle: string,
    tags: Value,
    characters: Value,
    parodies: Value,
    artists: Value,
    categories: Value,
    languages: Value)

  const Separator := ", "

  /** `format_field`: a list is joined with `", "`, a string is kept, and an
      absent value gives `''`. */
  function FormatField(v: Value): (r: string)
    ensures v.Missing? ==> r == ""
    ensures v.Text? ==> r == v.text
    ensures v.Items? && |v.items| == 0 ==> r == ""
    ensures v.Items? && |v.items| == 1 ==> r == v.items[0]
    ensures v.Items? && |v.items| >= 2 ==>
      r == v.items[0] + Separator + FormatField(Items(v.items[1..]))
    decreases if v.Items? then |v.items| else 0
  {
    match v
    case Missing => ""
    case Text(s) => s
    case Items(xs) => Join(xs, Separator)
  }

  // ------------------------------------------------------- substring tests

  /** An occurrence of `p` lying inside the first part is an occurrence in
      the whole. */
  lemma ContainsExtend(x: string, y: string, p: string)
    ensures Contains(x, p) ==> Contains(x + y, p)
    ensures Contains(y, p) ==> Contains(x + y, p)
  {
    ContainsAt(x, p);
    ContainsAt(y, p);
    ContainsAt(x + y, p);
    if Contains(x, p) {
      var i :| 0 <= i <= |x| && StartsWith(x[i..], p);
      assert (x + y)[i..][..|p|] == x[i..][..|p|];
    }
    if Contains(y, p) {
      var i :| 0 <= i <= |y| && StartsWith(y[i..], p);
      assert (x + y)[|x| + i..] == y[i..];
    }
  }

  /** An occurrence in the joined text lies on one side of the separator. */
  lemma ContainsSplitsAt(x: string, sep: string, y: string, p: string)
    requires |p| > 0 && |sep| > 0
    requires forall k :: 0 <= k < |p| ==> p[k] !in sep
    requires Contains(x + sep + y, p)
    ensures Contains(x, p) || Contains(y, p)
  {
    var s := x + sep + y;
    ContainsAt(s, p);
    var i :| 0 <= i <= |s| && StartsWith(s[i..], p);
    if i + |p| <= |x| {
      assert x[i..][..|p|] == s[i..][..|p|];
      ContainsAt(x, p);
    } else if i >= |x| + |sep| {
      assert y[i - |x| - |sep|..] == s[i..];
      ContainsAt(y, p);
    } else {
      Straddle(x, sep, y, p, i);
    }
  }

  /** A non-empty pattern none of whose characters occurs in a non-empty
      separator cannot straddle it: it occurs in the joined text exactly
      when it occurs on one side. */
  lemma ContainsAcross(x: string, sep: string, y: string, p: string)
    requires |p| > 0 && |sep| > 0
    requires forall k :: 0 <= k < |p| ==> p[k] !in sep
    ensures Contains(x + sep + y, p) <==> Contains(x, p) || Contains(y, p)
  {
    ContainsExtend(x, sep + y, p);
    ContainsExtend(x + sep, y, p);
    assert x + sep + y == x + (sep + y);
    if Contains(x + sep + y, p) {
      ContainsSplitsAt(x, sep, y, p);
    }
  }

  /** An occurrence that overlaps the separator shares a character with it. */
  lemma Straddle(x: string, sep: string, y: string, p: string, i: int)
    requires 0 <= i < |x| + |sep| && i + |p| > |x| && |p| > 0 && |sep| > 0
    requires StartsWith((x + sep + y)[i..], p)
    ensures exists k :: 0 <= k < |p| && p[k] in sep
  {
    var s := x + sep + y;
    var j := if i < |x| then |x| else i;
    assert s[j] == sep[j - |x|];
    assert s[i..][j - i] == p[j - i];
    assert p[j - i] in sep;
  }

  /** `Lower` of a joined list is the join of the lowered items. */
  lemma {:induction false} LowerJoin(xs: seq<string>)
    ensures Lower(Join(xs, Separator)) == Join(LowerAll(xs), Separator)
    decreases |xs|
  {
    if |xs| > 1 {
      LowerJoin(xs[1..]);
      LowerAppend(xs[0] + Separator, Join(xs[1..], Separator));
      LowerAppend(xs[0], Separator);
      assert Lower(Separator) == Separator;
      assert LowerAll(xs)[1..] == LowerAll(xs[1..]);
    }
  }

  function LowerAll(xs: seq<string>): (r: seq<string>)
    ensures |r| == |xs|
    ensures forall i :: 0 <= i < |xs| ==> r[i] == Lower(xs[i])
  {
    seq(|xs|, i requires 0 <= i < |xs| => Lower(xs[i]))
  }

  /** A pattern without commas or spaces occurs in the joined list exactly
      when it occurs in one of the items. */
  lemma {:induction false} ContainsJoin(xs: seq<string>, p: string)
    requires |p| > 0 && forall k :: 0 <= k < |p| ==> p[k] != ',' && p[k] != ' '
    ensures Contains(Join(xs, Separator), p) <==> exists i :: 0 <= i < |xs| && Contains(xs[i], p)
    decreases |xs|
  {
    if |xs| == 0 {
      ContainsAt("", p);
    } else if |xs| > 1 {
      ContainsJoin(xs[1..], p);
      ContainsAcross(xs[0], Separator, Join(xs[1..], Separator), p);
      if exists i :: 0 <= i < |xs| && Contains(xs[i], p) {
        var i :| 0 <= i < |xs| && Contains(xs[i], p);
        if i > 0 {
          assert xs[1..][i - 1] == xs[i];
        }
      }
      if exists i :: 0 <= i < |xs[1..]| && Contains(xs[1..][i], p) {
        var i :| 0 <= i < |xs[1..]| && Contains(xs[1..][i], p);
        assert xs[i + 1] == xs[1..][i];
      }
    }
  }

  /** `'word' in (field.lower() if field else '')`. */
  predicate Mentions(v: Value, word: string) {
    Contains(Lower(FormatField(v)), word)
  }

  /** A non-empty word without commas or spaces. */
  predicate PlainWord(word: string) {
    |word| > 0 && forall k :: 0 <= k < |word| ==> word[k] != ',' && word[k] != ' '
  }

  lemma FlagWordsPlain()
    ensures PlainWord("greyscale") && PlainWord("translated")
    ensures PlainWord("chinese") && PlainWord("japanese")
  {
    assert PlainWord("greyscale");
    assert PlainWord("translated");
    assert PlainWord("chinese");
    assert PlainWord("japanese");
  }

  /** The reference reading of a flag test: an absent value mentions
      nothing, a string mentions the word when its lower-cased text holds
      it, and a list when one of its lower-cased items does. */
  predicate MentionedIn(v: Value, word: string) {
    match v
    case Missing => false
    case Text(s) => Contains(Lower(s), word)
    case Items(xs) => exists i :: 0 <= i < |xs| && Contains(Lower(xs[i]), word)
  }

  /** The substring test on the formatted field agrees with the reference
      reading for every word without commas or spaces. */
  lemma MentionsMeaning(v: Value, word: string)
    requires PlainWord(word)
    ensures Mentions(v, word) <==> MentionedIn(v, word)
  {
    match v
    case Missing => ContainsAt("", word);
    case Text(_) =>
    case Items(xs) => MentionsItem(xs, word);
  }

  /** For a list field, a flag word without commas or spaces is found
      exactly when one item mentions it. */
  lemma MentionsItem(xs: seq<string>, word: string)
    requires PlainWord(word)
    ensures Mentions(Items(xs), word) <==> exists i :: 0 <= i < |xs| && Contains(Lower(xs[i]), word)
  {
    LowerJoin(xs);
    ContainsJoin(LowerAll(xs), word);
  }

  /** `language_iso`: Chinese wins over Japanese; English by default. */
  function LanguageIso(languages: Value): (r: string)
    ensures r in {"zh", "ja", "en"}
    ensures r == "zh" <==> Mentions(languages, "chinese")
    ensures r == "ja" <==> !Mentions(languages, "chinese") && Mentions(languages, "japanese")
  {
    if Mentions(languages, "chinese") then "zh"
    else if Mentions(languages, "japanese") then "ja"
    else "en"
  }

  /** The derived fields of the generated document. */
  datatype Fields = Fields(
    title: string,
    summary: string,
    genre: string,
    series: string,
    characters: string,
    tags: string,
    writer: string,
    blackAndWhite: bool,
    translated: bool,
    languageIso: string)

  /** `generate_comic_info` up to the XML template: each text field escaped,
      the flags and the language code derived from the formatted fields. */
  function Derive(m: Metadata): (r: Fields)
    ensures EscapedFrom(r.title, m.title)
    ensures EscapedFrom(r.summary, m.subtitle)
    ensures EscapedFrom(r.genre, FormatField(m.categories))
    ensures EscapedFrom(r.series, FormatField(m.parodies))
    ensures EscapedFrom(r.characters, FormatField(m.characters))
    ensures EscapedFrom(r.tags, FormatField(m.tags))
    ensures EscapedFrom(r.writer, FormatField(m.artists))
    ensures r.blackAndWhite <==> MentionedIn(m.tags, "greyscale")
    ensures r.translated <==> MentionedIn(m.languages, "translated")
    ensures r.languageIso in {"zh", "ja", "en"}
    ensures r.languageIso == "zh" <==> MentionedIn(m.languages, "chinese")
    ensures r.languageIso == "ja" <==>
      !MentionedIn(m.languages, "chinese") && MentionedIn(m.languages, "japanese")
  {
    EscapeXmlEscapes(m.title);
    EscapeXmlEscapes(m.subtitle);
    EscapeXmlEscapes(FormatField(m.categories));
    EscapeXmlEscapes(FormatField(m.parodies));
    EscapeXmlEscapes(FormatField(m.characters));
    EscapeXmlEscapes(FormatField(m.tags));
    EscapeXmlEscapes(FormatField(m.artists));
    FlagWordsPlain();
    MentionsMeaning(m.tags, "greyscale");
    MentionsMeaning(m.languages, "translated");
    MentionsMeaning(m.languages, "chinese");
    MentionsMeaning(m.languages, "japanese");
    Fields(
      EscapeXml(m.title),
      EscapeXml(m.subtitle),
      EscapeXml(FormatField(m.categories)),
      EscapeXml(FormatField(m.parodies)),
      EscapeXml(FormatField(m.characters)),
      EscapeXml(FormatField(m.tags)),
      EscapeXml(FormatField(m.artists)),
      Mentions(m.tags, "greyscale"),
      Mentions(m.languages, "translated"),
      LanguageIso(m.languages))
  }

  /** With list-valued metadata, the flags and the language code depend on
      the items one at a time: a flag is set exactly when some item
      mentions its word. */
  lemma DeriveFromItems(m: Metadata)
    requires m.tags.Items? && m.languages.Items?
    ensures Derive(m).blackAndWhite <==>
      exists i :: 0 <= i < |m.tags.items| && Contains(Lower(m.tags.items[i]), "greyscale")
    ensures Derive(m).translated <==>
      exists i :: 0 <= i < |m.languages.items| && Contains(Lower(m.languages.items[i]), "translated")
    ensures Derive(m).languageIso == "zh" <==>
      exists i :: 0 <= i < |m.languages.items| && Contains(Lower(m.languages.items[i]), "chinese")
  {
    FlagWordsPlain();
    MentionsItem(m.tags.items, "greyscale");
    MentionsItem(m.languages.items, "translated");
    MentionsItem(m.languages.items, "chinese");
  }

  // -------------------------------------------------------------- escaping

  /** Python `s.replace(c, rep)` for a one-character pattern. */
  function ReplaceChar(s: string, c: char, rep: string): (r: string)
    ensures c !in rep ==> c !in r
    ensures forall x :: x in r ==> x in s || x in rep
  {
    if |s| == 0 then ""
    else (if s[0] == c then rep else [s[0]]) + ReplaceChar(s[1..], c, rep)
  }

  lemma {:induction false} ReplaceCharAppend(a: string, b: string, c: char, rep: string)
    ensures ReplaceChar(a + b, c, rep) == ReplaceChar(a, c, rep) + ReplaceChar(b, c, rep)
    decreases |a|
  {
    if |a| == 0 {
      assert a + b == b;
    } else {
      assert (a + b)[1..] == a[1..] + b;
      ReplaceCharAppend(a[1..], b, c, rep);
    }
  }

  /** `_escape_xml`: the five replacements in the source's order, `&`
      first. What the chain computes is stated by `EscapeXmlIsEscapeEach`
      (it equals escaping each character on its own, `EscapeEach`) and by
      `EscapeXmlEscapes` (no raw `<`, `>`, `"` or `'` survives, every `&` opens
      an entity, and unescaping gives back the original). */
  function EscapeXml(s: string): (r: string)
    ensures |s| == 0 ==> r == ""
  {
    if |s| == 0 then ""
    else
      var t1 := ReplaceChar(s, '&', "&amp;");
      var t2 := ReplaceChar(t1, '<', "&lt;");
      var t3 := ReplaceChar(t2, '>', "&gt;");
      var t4 := ReplaceChar(t3, '"', "&quot;");
      ReplaceChar(t4, '\'', "&apos;")
  }

  /** The entity that stands for one character. */
  function EscapeChar(c: char): string {
    match c
    case '&' => "&amp;"
    case '<' => "&lt;"
    case '>' => "&gt;"
    case '"' => "&quot;"
    case '\'' => "&apos;"
    case _ => [c]
  }

  /** The reference definition: escape one character at a time. */
  function EscapeEach(s: string): string {
    if |s| == 0 then "" else EscapeChar(s[0]) + EscapeEach(s[1..])
  }

  lemma {:induction false} EscapeXmlAppend(a: string, b: string)
    requires |a| > 0 && |b| > 0
    ensures EscapeXml(a + b) == EscapeXml(a) + EscapeXml(b)
  {
    var s := a + b;
    ReplaceCharAppend(a, b, '&', "&amp;");
    var a1, b1 := ReplaceChar(a, '&', "&amp;"), ReplaceChar(b, '&', "&amp;");
    ReplaceCharAppend(a1, b1, '<', "&lt;");
    var a2, b2 := ReplaceChar(a1, '<', "&lt;"), ReplaceChar(b1, '<', "&lt;");
    ReplaceCharAppend(a2, b2, '>', "&gt;");
    var a3, b3 := ReplaceChar(a2, '>', "&gt;"), ReplaceChar(b2, '>', "&gt;");
    ReplaceCharAppend(a3, b3, '"', "&quot;");
    var a4, b4 := ReplaceChar(a3, '"', "&quot;"), ReplaceChar(b3, '"', "&quot;");
    ReplaceCharAppend(a4, b4, '\'', "&apos;");
  }

  lemma ReplaceCharSingle(x: char, c: char, rep: string)
    ensures ReplaceChar([x], c, rep) == if x == c then rep else [x]
  {
    assert [x][1..] == "";
  }

  lemma {:induction false} ReplaceCharAbsent(s: string, c: char, rep: string)
    requires c !in s
    ensures ReplaceChar(s, c, rep) == s
    decreases |s|
  {
    if |s| > 0 {
      assert s[0] != c;
      assert c !in s[1..];
      ReplaceCharAbsent(s[1..], c, rep);
    }
  }

  lemma EscapeXmlAmp()
    ensures EscapeXml(['&']) == EscapeChar('&')
  {
    var amp := "&amp;";
    ReplaceCharSingle('&', '&', amp);
    assert '<' !in amp && '>' !in amp && '"' !in amp && '\'' !in amp;
    ReplaceCharAbsent(amp, '<', "&lt;");
    ReplaceCharAbsent(amp, '>', "&gt;");
    ReplaceCharAbsent(amp, '"', "&quot;");
    ReplaceCharAbsent(amp, '\'', "&apos;");
  }

  lemma EscapeXmlLt()
    ensures EscapeXml(['<']) == EscapeChar('<')
  {
    var lt := "&lt;";
    ReplaceCharSingle('<', '&', "&amp;");
    assert ReplaceChar(['<'], '&', "&amp;") == ['<'];
    ReplaceCharSingle('<', '<', lt);
    assert '>' !in lt && '"' !in lt && '\'' !in lt;
    ReplaceCharAbsent(lt, '>', "&gt;");
    ReplaceCharAbsent(lt, '"', "&quot;");
    ReplaceCharAbsent(lt, '\'', "&apos;");
  }

  lemma EscapeXmlGt()
    ensures EscapeXml(['>']) == EscapeChar('>')
  {
    ReplaceCharSingle('>', '&', "&amp;");
    ReplaceCharSingle('>', '<', "&lt;");
    ReplaceCharSingle('>', '>', "&gt;");
    ReplaceCharAbsent("&gt;", '"', "&quot;");
    ReplaceCharAbsent("&gt;", '\'', "&apos;");
  }

  lemma EscapeXmlQuot()
    ensures EscapeXml(['"']) == EscapeChar('"')
  {
    ReplaceCharSingle('"', '&', "&amp;");
    ReplaceCharSingle('"', '<', "&lt;");
    ReplaceCharSingle('"', '>', "&gt;");
    ReplaceCharSingle('"', '"', "&quot;");
    ReplaceCharAbsent("&quot;", '\'', "&apos;");
  }

  lemma EscapeXmlApos()
    ensures EscapeXml(['\'']) == EscapeChar('\'')
  {
    ReplaceCharSingle('\'', '&', "&amp;");
    ReplaceCharSingle('\'', '<', "&lt;");
    ReplaceCharSingle('\'', '>', "&gt;");
    ReplaceCharSingle('\'', '"', "&quot;");
    ReplaceCharSingle('\'', '\'', "&apos;");
  }

  lemma EscapeXmlOrdinary(c: char)
    requires c !in "&<>\"'"
    ensures EscapeXml([c]) == [c]
  {
    ReplaceCharSingle(c, '&', "&amp;");
    ReplaceCharSingle(c, '<', "&lt;");
    ReplaceCharSingle(c, '>', "&gt;");
    ReplaceCharSingle(c, '"', "&quot;");
    ReplaceCharSingle(c, '\'', "&apos;");
  }

  lemma EscapeXmlChar(c: char)
    ensures EscapeXml([c]) == EscapeChar(c)
  {
    if c == '&' { EscapeXmlAmp(); }
    else if c == '<' { EscapeXmlLt(); }
    else if c == '>' { EscapeXmlGt(); }
    else if c == '"' { EscapeXmlQuot(); }
    else if c == '\'' { EscapeXmlApos(); }
    else { EscapeXmlOrdinary(c); }
  }

  /** The chain of replacements is the same as escaping each character on
      its own: no replacement text holds a character a later step replaces. */
  lemma {:induction false} EscapeXmlIsEscapeEach(s: string)
    ensures EscapeXml(s) == EscapeEach(s)
    decreases |s|
  {
    if |s| > 0 {
      EscapeXmlChar(s[0]);
      if |s| > 1 {
        assert s == [s[0]] + s[1..];
        EscapeXmlAppend([s[0]], s[1..]);
        EscapeXmlIsEscapeEach(s[1..]);
      } else {
        assert s == [s[0]];
      }
    }
  }

  const Entities: set<string> := {"&amp;", "&lt;", "&gt;", "&quot;", "&apos;"}

  /** Every `&` in `s` opens one of the five predefined entities. */
  predicate AmpersandsOpenEntities(s: string) {
    forall i :: 0 <= i < |s| && s[i] == '&' ==>
      exists e :: e in Entities && StartsWith(s[i..], e)
  }

  lemma AmpersandsPrepend(x: string, y: string)
    requires AmpersandsOpenEntities(x) && AmpersandsOpenEntities(y)
    ensures AmpersandsOpenEntities(x + y)
  {
    var s := x + y;
    forall i | 0 <= i < |s| && s[i] == '&' ensures exists e :: e in Entities && StartsWith(s[i..], e) {
      if i < |x| {
        assert x[i] == '&';
        var e :| e in Entities && StartsWith(x[i..], e);
        assert s[i..][..|e|] == x[i..][..|e|];
      } else {
        assert y[i - |x|] == '&';
        var e :| e in Entities && StartsWith(y[i - |x|..], e);
        assert s[i..] == y[i - |x|..];
      }
    }
  }

  /** The characters escaping removes. */
  const Special := "<>\"'"

  predicate NoSpecial(s: string) {
    forall k :: 0 <= k < |s| ==> s[k] !in Special
  }

  lemma EscapeCharSafe(c: char)
    ensures AmpersandsOpenEntities(EscapeChar(c)) && NoSpecial(EscapeChar(c))
  {
    var h := EscapeChar(c);
    if h == [c] {
      assert c != '&' && c !in Special;
    } else {
      assert h in Entities;
      assert StartsWith(h[0..], h);
      EntityShape(h);
    }
  }

  /** An entity opens with its only `&` and holds none of the special characters. */
  lemma EntityShape(e: string)
    requires e in Entities
    ensures e[0] == '&' && forall i :: 1 <= i < |e| ==> e[i] != '&'
    ensures NoSpecial(e)
  {
  }

  lemma NoSpecialAppend(x: string, y: string)
    requires NoSpecial(x) && NoSpecial(y)
    ensures NoSpecial(x + y)
  {
    forall k | 0 <= k < |x + y| ensures (x + y)[k] !in Special {
      if k >= |x| {
        assert (x + y)[k] == y[k - |x|];
      }
    }
  }

  lemma {:induction false} EscapeEachSafe(s: string)
    ensures AmpersandsOpenEntities(EscapeEach(s)) && NoSpecial(EscapeEach(s))
    decreases |s|
  {
    if |s| > 0 {
      EscapeEachSafe(s[1..]);
      EscapeCharSafe(s[0]);
      AmpersandsPrepend(EscapeChar(s[0]), EscapeEach(s[1..]));
      NoSpecialAppend(EscapeChar(s[0]), EscapeEach(s[1..]));
    }
  }

  /** The escaped text holds no `<`, `>`, `"` or `'`, and every `&` in it
      opens a predefined entity. */
  lemma EscapeXmlSafe(s: string)
    ensures NoSpecial(EscapeXml(s))
    ensures AmpersandsOpenEntities(EscapeXml(s))
  {
    EscapeXmlIsEscapeEach(s);
    EscapeEachSafe(s);
  }

  /** Left-to-right replacement of the five entities by their characters. */
  function Unescape(s: string): string
    decreases |s|
  {
    if |s| == 0 then ""
    else if StartsWith(s, "&amp;") then "&" + Unescape(s[5..])
    else if StartsWith(s, "&lt;") then "<" + Unescape(s[4..])
    else if StartsWith(s, "&gt;") then ">" + Unescape(s[4..])
    else if StartsWith(s, "&quot;") then "\"" + Unescape(s[6..])
    else if StartsWith(s, "&apos;") then "'" + Unescape(s[6..])
    else [s[0]] + Unescape(s[1..])
  }

  lemma UnescapeEntity(e: string, c: char, rest: string)
    requires e == EscapeChar(c) && |e| > 1
    ensures Unescape(e + rest) == [c] + Unescape(rest)
  {
    var t := e + rest;
    assert t[..|e|] == e;
    assert t[|e|..] == rest;
    if c == '&' {
      assert e == "&amp;";
    } else if c == '<' {
      assert e == "&lt;" && t[1] == 'l';
      Differs(t, "&amp;", 1);
    } else if c == '>' {
      assert e == "&gt;" && t[1] == 'g';
      Differs(t, "&amp;", 1);
      Differs(t, "&lt;", 1);
    } else if c == '"' {
      assert e == "&quot;" && t[1] == 'q';
      Differs(t, "&amp;", 1);
      Differs(t, "&lt;", 1);
      Differs(t, "&gt;", 1);
    } else {
      assert e == "&apos;" && t[1] == 'a' && t[2] == 'p';
      Differs(t, "&amp;", 2);
      Differs(t, "&lt;", 1);
      Differs(t, "&gt;", 1);
      Differs(t, "&quot;", 1);
    }
  }

  /** A text that differs from a prefix at one position does not start with it. */
  lemma Differs(t: string, p: string, i: nat)
    requires i < |p| && i < |t| && t[i] != p[i]
    ensures !StartsWith(t, p)
  {
    if |p| <= |t| {
      assert t[..|p|][i] == t[i];
    }
  }

  lemma UnescapeStep(c: char, rest: string)
    ensures Unescape(EscapeChar(c) + rest) == [c] + Unescape(rest)
  {
    if c in "&<>\"'" {
      UnescapeEntity(EscapeChar(c), c, rest);
    } else {
      var t := [c] + rest;
      assert EscapeChar(c) == [c];
      assert t[0] == c && t[1..] == rest;
      assert !StartsWith(t, "&amp;") && !StartsWith(t, "&lt;") && !StartsWith(t, "&gt;");
      assert !StartsWith(t, "&quot;") && !StartsWith(t, "&apos;");
    }
  }

  /** Unescaping the escaped text gives the original back. */
  lemma {:induction false} EscapeRoundTrip(s: string)
    ensures Unescape(EscapeXml(s)) == s
    decreases |s|
  {
    EscapeXmlIsEscapeEach(s);
    if |s| > 0 {
      EscapeRoundTrip(s[1..]);
      EscapeXmlIsEscapeEach(s[1..]);
      UnescapeStep(s[0], EscapeEach(s[1..]));
      assert s == [s[0]] + s[1..];
    }
  }

  /** `e` is a well-formed escaped text standing for `s`: no raw `<`, `>`,
      `"` or `'`, every `&` opens a predefined entity, and unescaping gives
      `s`. */
  predicate EscapedFrom(e: string, s: string) {
    Unescape(e) == s && NoSpecial(e) && AmpersandsOpenEntities(e)
  }

  lemma EscapeXmlEscapes(s: string)
    ensures EscapedFrom(EscapeXml(s), s)
  {
    EscapeRoundTrip(s);
    EscapeXmlSafe(s);
  }

  lemma AmpersandsSuffix(s: string, n: nat)
    requires n <= |s| && AmpersandsOpenEntities(s)
    ensures AmpersandsOpenEntities(s[n..])
  {
    var t := s[n..];
    forall i | 0 <= i < |t| && t[i] == '&' ensures exists e :: e in Entities && StartsWith(t[i..], e) {
      assert s[n + i] == '&';
      var e :| e in Entities && StartsWith(s[n + i..], e);
      assert t[i..] == s[n + i..];
    }
  }

  /** The character an entity stands for. */
  lemma EntityOf(e: string) returns (c: char)
    requires e in Entities
    ensures EscapeChar(c) == e && |e| > 1
  {
    if e == "&amp;" { c := '&'; }
    else if e == "&lt;" { c := '<'; }
    else if e == "&gt;" { c := '>'; }
    else if e == "&quot;" { c := '"'; }
    else { c := '\''; }
  }

  /** The first character or entity of a non-empty escaped text. */
  lemma EscapedHead(e: string) returns (c: char, n: nat)
    requires |e| > 0 && NoSpecial(e) && AmpersandsOpenEntities(e)
    ensures 0 < n <= |e| && e == EscapeChar(c) + e[n..]
  {
    if e[0] == '&' {
      var ent :| ent in Entities && StartsWith(e[0..], ent);
      assert e[0..] == e;
      c := EntityOf(ent);
      n := |ent|;
      assert e == ent + e[n..];
    } else {
      c := e[0];
      assert c !in Special;
      assert EscapeChar(c) == [c];
      n := 1;
      assert e == [c] + e[1..];
    }
  }

  /** What is left after the first character or entity is still well formed. */
  lemma EscapedTail(e: string, n: nat)
    requires n <= |e| && NoSpecial(e) && AmpersandsOpenEntities(e)
    ensures NoSpecial(e[n..]) && AmpersandsOpenEntities(e[n..])
  {
    AmpersandsSuffix(e, n);
    var rest := e[n..];
    forall k | 0 <= k < |rest| ensures rest[k] !in Special {
      assert rest[k] == e[n + k];
    }
  }

  /** Escaping is the only well-formed escaped text for a string: any text
      meeting `EscapedFrom` is exactly what `_escape_xml` produces. */
  lemma {:induction false} EscapedUnique(e: string, s: string)
    requires EscapedFrom(e, s)
    ensures e == EscapeXml(s)
    decreases |e|
  {
    EscapeXmlIsEscapeEach(s);
    if |e| > 0 {
      var c, n := EscapedHead(e);
      var rest := e[n..];
      UnescapeStep(c, rest);
      EscapedTail(e, n);
      EscapedUnique(rest, s[1..]);
      EscapeXmlIsEscapeEach(s[1..]);
    }
  }

}

=== FILE: common.dfy ===
/** Shared vocabulary: bytes, an Option type, and the handful of Python
    string and sequence operations the tool relies on (`startswith`,
    `endswith`, `in`, `lower`, `strip`, `rstrip('/')`, `split`, `join`,
    decimal formatting of an int, dict-key insertion order). */
module Common {

  newtype byte = x: int | 0 <= x < 256
  type Bytes = seq<byte>

  datatype Option<+T> = None | Some(value: T)

  // ---------------------------------------------------------------- prefixes

  predicate StartsWith(s: string, p: string) {
    |p| <= |s| && s[..|p|] == p
  }

  predicate EndsWith(s: string, p: string) {
    |p| <= |s| && s[|s| - |p|..] == p
  }

  /** Python `sub in s` for strings. */
  predicate Contains(s: string, sub: string)
    decreases |s|
  {
    StartsWith(s, sub) || (|s| > 0 && Contains(s[1..], sub))
  }

  /** `Contains` holds exactly when some position starts an occurrence. */
  lemma {:induction false} ContainsAt(s: string, sub: string)
    ensures Contains(s, sub) <==> exists i :: 0 <= i <= |s| && StartsWith(s[i..], sub)
    decreases |s|
  {
    assert s[0..] == s;
    if |s| > 0 {
      ContainsAt(s[1..], sub);
      if Contains(s[1..], sub) {
        var i :| 0 <= i <= |s[1..]| && StartsWith(s[1..][i..], sub);
        assert s[1..][i..] == s[i + 1..];
      }
      if exists i :: 0 <= i <= |s| && StartsWith(s[i..], sub) {
        var i :| 0 <= i <= |s| && StartsWith(s[i..], sub);
        if i > 0 {
          assert s[1..][i - 1..] == s[i..];
        }
      }
    }
  }

  // ------------------------------------------------------------- lower-case

  /** `str.lower` restricted to ASCII letters. */
  function LowerChar(c: char): char {
    if 'A' <= c <= 'Z' then (c as int + 32) as char else c
  }

  function Lower(s: string): (r: string)
    ensures |r| == |s|
    ensures forall i :: 0 <= i < |s| ==> r[i] == LowerChar(s[i])
  {
    if |s| == 0 then "" else [LowerChar(s[0])] + Lower(s[1..])
  }

  lemma {:induction false} LowerAppend(a: string, b: string)
    ensures Lower(a + b) == Lower(a) + Lower(b)
    decreases |a|
  {
    if |a| == 0 {
      assert a + b == b;
    } else {
      assert (a + b)[1..] == a[1..] + b;
      LowerAppend(a[1..], b);
    }
  }

  // --------------------------------------------------------------- stripping

  /** Python's `str.isspace` (bidirectional classes WS, B, S and category Zs). */
  predicate IsSpace(c: char) {
    var n := c as int;
    (9 <= n <= 13) || (28 <= n <= 32) || n == 0x85 || n == 0xA0 || n == 0x1680
    || (0x2000 <= n <= 0x200A) || n == 0x2028 || n == 0x2029 || n == 0x202F
    || n == 0x205F || n == 0x3000
  }

  function LStrip(s: string): (r: string)
    ensures EndsWith(s, r)
    ensures |r| == 0 || !IsSpace(r[0])
    ensures forall i :: 0 <= i < |s| - |r| ==> IsSpace(s[i])
  {
    if |s| > 0 && IsSpace(s[0]) then LStrip(s[1..]) else s
  }

  function RStrip(s: string): (r: string)
    ensures StartsWith(s, r)
    ensures |r| == 0 || !IsSpace(r[|r| - 1])
    ensures forall i :: |r| <= i < |s| ==> IsSpace(s[i])
  {
    if |s| > 0 && IsSpace(s[|s| - 1]) then RStrip(s[..|s| - 1]) else s
  }

  /** Python `str.strip()`. */
  function Strip(s: string): (r: string)
    ensures |r| == 0 || (!IsSpace(r[0]) && !IsSpace(r[|r| - 1]))
  {
    LStrip(RStrip(s))
  }

  /** `r` sits at offset `i` of `s` with only white space around it. */
  predicate Framed(s: string, r: string, i: int) {
    && 0 <= i <= |s| - |r|
    && s[i..i + |r|] == r
    && (forall k :: 0 <= k < i ==> IsSpace(s[k]))
    && (forall k :: i + |r| <= k < |s| ==> IsSpace(s[k]))
  }

  /** `strip()` removes white space from both ends and nothing else: the
      result is a slice of the text with only white space around it. */
  lemma StripIsMiddle(s: string)
    ensures exists i :: Framed(s, Strip(s), i)
  {
    var m := RStrip(s);
    var r := LStrip(m);
    var i := |m| - |r|;
    assert s[..|m|] == m;
    assert m[i..] == r;
    assert s[i..i + |r|] == r;
    assert Strip(s) == r;
    assert Framed(s, Strip(s), i);
  }

  /** Python `s.rstrip('/')`: every trailing slash removed. */
  function RStripSlash(s: string): (r: string)
    ensures StartsWith(s, r)
    ensures |r| == 0 || r[|r| - 1] != '/'
    ensures forall i :: |r| <= i < |s| ==> s[i] == '/'
  {
    if |s| > 0 && s[|s| - 1] == '/' then RStripSlash(s[..|s| - 1]) else s
  }

  // -------------------------------------------------------- split and join

  /** Python `s.split(c)[0]`: the text before the first `c`. */
  function Before(s: string, c: char): (r: string)
    ensures StartsWith(s, r) && c !in r
    ensures |r| < |s| ==> s[|r|] == c
    ensures c !in s ==> r == s
  {
    if |s| == 0 || s[0] == c then "" else [s[0]] + Before(s[1..], c)
  }

  /** Python `s.split(c)` for a one-character separator. */
  function Split(s: string, c: char): (r: seq<string>)
    ensures |r| >= 1
    ensures forall i :: 0 <= i < |r| ==> c !in r[i]
    decreases |s|
  {
    var h := Before(s, c);
    if |h| == |s| then [s] else [h] + Split(s[|h| + 1..], c)
  }

  /** Python `sep.join(parts)`. */
  function Join(parts: seq<string>, sep: string): string {
    if |parts| == 0 then ""
    else if |parts| == 1 then parts[0]
    else parts[0] + sep + Join(parts[1..], sep)
  }

  /** Splitting on `c` and joining with `c` gives the text back. */
  lemma {:induction false} SplitJoin(s: string, c: char)
    ensures Join(Split(s, c), [c]) == s
    decreases |s|
  {
    var h := Before(s, c);
    if |h| < |s| {
      var rest := s[|h| + 1..];
      SplitJoin(rest, c);
      SplitStep(s, c);
      JoinCons(h, Split(rest, c), [c]);
    }
  }

  /** One step of `Split`: the text before the first `c`, then the rest. */
  lemma SplitStep(s: string, c: char)
    requires |Before(s, c)| < |s|
    ensures var h := Before(s, c);
      && Split(s, c) == [h] + Split(s[|h| + 1..], c)
      && s == h + [c] + s[|h| + 1..]
  {
    BeforeSplits(s, c, Before(s, c));
  }

  lemma BeforeSplits(s: string, c: char, h: string)
    requires StartsWith(s, h) && |h| < |s| && s[|h|] == c
    ensures s == h + [c] + s[|h| + 1..]
  {
    assert s[..|h|] == h && s[|h|..] == [c] + s[|h| + 1..];
    assert s == s[..|h|] + s[|h|..];
  }

  lemma JoinCons(h: string, parts: seq<string>, sep: string)
    requires |parts| >= 1
    ensures Join([h] + parts, sep) == h + sep + Join(parts, sep)
  {
    assert ([h] + parts)[1..] == parts;
  }

  // ----------------------------------------------------- decimal formatting

  function Digit(d: nat): char
    requires d < 10
  {
    "0123456789"[d]
  }

  /** Python `str(n)` for a non-negative int. */
  function NatToString(n: nat): (r: string)
    ensures |r| >= 1
    ensures n >= 10 ==> |r| >= 2
  {
    if n < 10 then [Digit(n)] else NatToString(n / 10) + [Digit(n % 10)]
  }

  lemma {:induction false} NatToStringInjective(a: nat, b: nat)
    requires NatToString(a) == NatToString(b)
    ensures a == b
    decreases a
  {
    if a < 10 && b < 10 {
      assert Digit(a) == NatToString(a)[0] == NatToString(b)[0] == Digit(b);
    } else if a >= 10 && b >= 10 {
      var sa, sb := NatToString(a), NatToString(b);
      assert sa[|sa| - 1] == Digit(a % 10) && sb[|sb| - 1] == Digit(b % 10);
      assert NatToString(a / 10) == sa[..|sa| - 1] == sb[..|sb| - 1] == NatToString(b / 10);
      NatToStringInjective(a / 10, b / 10);
    }
  }

  // ------------------------------------------------------ sequence helpers

  predicate Distinct<T(==)>(s: seq<T>) {
    forall i, j :: 0 <= i < j < |s| ==> s[i] != s[j]
  }

  /** `sub` is `s` with some elements dropped, order kept. */
  predicate Subsequence<T(==)>(sub: seq<T>, s: seq<T>)
    decreases |s|
  {
    if |sub| == 0 then true
    else if |s| == 0 then false
    else if sub[0] == s[0] then Subsequence(sub[1..], s[1..])
    else Subsequence(sub, s[1..])
  }

  /** Order-preserving selection of the elements that satisfy `keep`. */
  function Filter<T(!new)>(s: seq<T>, keep: T -> bool): (r: seq<T>)
    ensures |r| <= |s|
    ensures forall x :: x in r <==> x in s && keep(x)
    ensures Subsequence(r, s)
  {
    if |s| == 0 then []
    else
      var rest := Filter(s[1..], keep);
      assert s == [s[0]] + s[1..];
      SubsequenceWiden(rest, s[1..], s[0]);
      if keep(s[0]) then [s[0]] + rest else rest
  }

  lemma {:induction false} FilterAppend<T(!new)>(a: seq<T>, b: seq<T>, keep: T -> bool)
    ensures Filter(a + b, keep) == Filter(a, keep) + Filter(b, keep)
    decreases |a|
  {
    if |a| > 0 {
      assert (a + b)[1..] == a[1..] + b;
      FilterAppend(a[1..], b, keep);
    } else {
      assert a + b == b;
    }
  }

  lemma {:induction false} SubsequenceDropFirst<T>(sub: seq<T>, s: seq<T>)
    requires |sub| > 0 && Subsequence(sub, s)
    ensures Subsequence(sub[1..], s)
    decreases |s|, 0
  {
    assert s == [s[0]] + s[1..];
    if sub[0] == s[0] {
      SubsequenceWiden(sub[1..], s[1..], s[0]);
    } else {
      SubsequenceDropFirst(sub, s[1..]);
      SubsequenceWiden(sub[1..], s[1..], s[0]);
    }
  }

  lemma {:induction false} SubsequenceWiden<T>(sub: seq<T>, s: seq<T>, x: T)
    requires Subsequence(sub, s)
    ensures Subsequence(sub, [x] + s)
    decreases |s|, 1
  {
    assert ([x] + s)[1..] == s;
    if |sub| > 0 && sub[0] == x {
      SubsequenceDropFirst(sub, s);
    }
  }

  /** Python `list.remove` on a list without duplicates / `dict.pop` on the key order. */
  function Remove<T(==,!new)>(s: seq<T>, x: T): (r: seq<T>)
    ensures forall y :: y in r <==> y in s && y != x
    ensures Distinct(s) ==> Distinct(r)
    ensures x in s && Distinct(s) ==> |r| == |s| - 1
    ensures x !in s ==> r == s
  {
    if |s| == 0 then []
    else if s[0] == x then Remove(s[1..], x)
    else
      var rest := Remove(s[1..], x);
      assert Distinct(s) ==> s[0] !in s[1..];
      [s[0]] + rest
  }

  // ------------------------------------------------- code-point ordering

  /** Python's `<=` on `str`: lexicographic by code point. */
  predicate LessEq(a: string, b: string)
    decreases |a|
  {
    |a| == 0 || (|b| > 0 && (a[0] < b[0] || (a[0] == b[0] && LessEq(a[1..], b[1..]))))
  }

  lemma {:induction false} LessEqTotal(a: string, b: string)
    ensures LessEq(a, b) || LessEq(b, a)
    decreases |a|
  {
    if |a| > 0 && |b| > 0 && a[0] == b[0] {
      LessEqTotal(a[1..], b[1..]);
    }
  }

  lemma {:induction false} LessEqTransitive(a: string, b: string, c: string)
    requires LessEq(a, b) && LessEq(b, c)
    ensures LessEq(a, c)
    decreases |a|
  {
    if |a| > 0 && a[0] == b[0] && b[0] == c[0] {
      LessEqTransitive(a[1..], b[1..], c[1..]);
    }
  }

  lemma {:induction false} LessEqAntisymmetric(a: string, b: string)
    requires LessEq(a, b) && LessEq(b, a)
    ensures a == b
    decreases |a|
  {
    if |a| > 0 {
      LessEqAntisymmetric(a[1..], b[1..]);
      assert a == [a[0]] + a[1..] && b == [b[0]] + b[1..];
    }
  }

  predicate Sorted(s: seq<string>) {
    forall i, j :: 0 <= i < j < |s| ==> LessEq(s[i], s[j])
  }

  lemma ConsSorted(h: string, t: seq<string>)
    requires Sorted(t)
    requires forall y :: y in t ==> LessEq(h, y)
    ensures Sorted([h] + t)
  {
    forall i, j | 0 <= i < j < |[h] + t| ensures LessEq(([h] + t)[i], ([h] + t)[j]) {
      if i > 0 {
        assert ([h] + t)[i] == t[i - 1];
      }
      assert ([h] + t)[j] == t[j - 1];
    }
  }

  function Insert(x: string, s: seq<string>): (r: seq<string>)
    requires Sorted(s)
    ensures Sorted(r)
    ensures multiset(r) == multiset(s) + multiset{x}
    ensures forall y :: y in r <==> y == x || y in s
  {
    if |s| == 0 then [x]
    else if LessEq(x, s[0]) then
      assert forall y :: y in s ==> LessEq(x, y) by {
        forall y | y in s ensures LessEq(x, y) {
          var k :| 0 <= k < |s| && s[k] == y;
          if k > 0 { LessEqTransitive(x, s[0], y); }
        }
      }
      ConsSorted(x, s);
      [x] + s
    else
      LessEqTotal(x, s[0]);
      var rest := Insert(x, s[1..]);
      assert forall y :: y in rest ==> LessEq(s[0], y) by {
        forall y | y in rest ensures LessEq(s[0], y) {
          if y != x {
            var k :| 0 <= k < |s[1..]| && s[1..][k] == y;
            assert s[k + 1] == y;
          }
        }
      }
      ConsSorted(s[0], rest);
      assert s == [s[0]] + s[1..];
      [s[0]] + rest
  }

  /** Python `sorted` on a list of names. */
  function Sort(s: seq<string>): (r: seq<string>)
    ensures Sorted(r)
    ensures multiset(r) == multiset(s)
  {
    if |s| == 0 then []
    else
      assert s == [s[0]] + s[1..];
      Insert(s[0], Sort(s[1..]))
  }

  /** The keys of a dict filled from a sorted list: equal names collapse. */
  function DedupSorted(s: seq<string>): (r: seq<string>)
    requires Sorted(s)
    ensures Sorted(r) && Distinct(r)
    ensures forall x :: x in r <==> x in s
  {
    if |s| <= 1 then s
    else if s[0] == s[1] then DedupSorted(s[1..])
    else
      var rest := DedupSorted(s[1..]);
      assert s[0] !in s[1..] by {
        forall k | 1 <= k < |s| ensures s[k] != s[0] {
          if s[k] == s[0] {
            assert LessEq(s[0], s[1]) && LessEq(s[1], s[k]);
            LessEqAntisymmetric(s[0], s[1]);
          }
        }
      }
      assert forall j :: 0 <= j < |rest| ==> rest[j] in s[1..];
      [s[0]] + rest
  }
}

=== FILE: pipeline.dfy ===
/** The per-file pipeline of `ZipMetadataAdder`: the file name gives the
    gallery id, the fetched metadata is written into the archive, the tags
    in the archive are translated, and the store of tasks records the outcome.
    A task's pending files are processed in batches whose metadata entries
    are first loaded into the cache.

    The folder of archives is a map from file name to entry list, and a
    file's path is its name: the folder prefix the source joins on is the
    same for every file of a task. Fetching, JSON and XML reading and
    writing, and the text of exceptions are parameters (`Env`). */
module Pipeline {
  import opened Common
  import opened TaskStore
  import opened Zip
  import opened ComicInfo
  import opened Translation
  import LfuCache

  // ------------------------------------------------------ the file name

  predicate IsAsciiDigit(c: char) {
    '0' <= c <= '9'
  }

  /** A character matches a lower-case pattern letter under `re.IGNORECASE`
      when it is that letter in either case; the letter `i` also matches the
      dotted capital `İ` (U+0130, whose lower-case form is `i`) and the
      dotless `ı` (U+0131, whose upper-case form is `I`). */
  predicate LetterMatches(c: char, p: char) {
    LowerChar(c) == p || (p == 'i' && (c == '\U{130}' || c == '\U{131}'))
  }

  /** The alternation `(zip|cbz)` matched ignoring case. */
  predicate ExtensionMatches(ext: string) {
    && |ext| == 3
    && ((LetterMatches(ext[0], 'z') && LetterMatches(ext[1], 'i') && LetterMatches(ext[2], 'p'))
        || (LetterMatches(ext[0], 'c') && LetterMatches(ext[1], 'b') && LetterMatches(ext[2], 'z')))
  }

  /** `re.match` of `^\[(\d{6})\](.+)\.(zip|cbz)$` (ignoring case) against a
      name that does not end in a newline: the bracketed id, a title of at
      least one character other than a newline, a dot and the extension. */
  predicate MatchesPattern(f: string) {
    && |f| >= 13
    && f[0] == '[' && f[7] == ']'
    && (forall i :: 1 <= i < 7 ==> IsAsciiDigit(f[i]))
    && (forall i :: 8 <= i < |f| - 4 ==> f[i] != '\n')
    && f[|f| - 4] == '.'
    && ExtensionMatches(f[|f| - 3..])
  }

  /** `extract_id`: `$` also matches just before a final newline, so a name
      with one trailing newline is matched without it. */
  function ExtractId(f: string): (r: Option<string>)
    ensures r.Some? ==> |r.value| == 6 && forall i :: 0 <= i < 6 ==> IsAsciiDigit(r.value[i])
    ensures r.Some? ==> StartsWith(f, "[" + r.value + "]")
  {
    if MatchesPattern(f) then
      PatternId(f);
      Some(f[1..7])
    else if |f| > 0 && f[|f| - 1] == '\n' && MatchesPattern(f[..|f| - 1]) then
      var g := f[..|f| - 1];
      PatternId(g);
      assert g[1..7] == f[1..7] && g[..8] == f[..8];
      Some(f[1..7])
    else None
  }

  /** The id a matching name carries: six digits between the brackets. */
  lemma PatternId(f: string)
    requires MatchesPattern(f)
    ensures |f[1..7]| == 6 && forall i :: 0 <= i < 6 ==> IsAsciiDigit(f[1..7][i])
    ensures StartsWith(f, "[" + f[1..7] + "]")
  {
    assert f[..8] == "[" + f[1..7] + "]";
  }

  /** The names the pattern is written for. */
  function ArchiveFileName(id: string, title: string, ext: string): string {
    "[" + id + "]" + title + "." + ext
  }

  predicate GoodParts(id: string, title: string, ext: string) {
    && |id| == 6 && (forall i :: 0 <= i < 6 ==> IsAsciiDigit(id[i]))
    && |title| > 0 && (forall i :: 0 <= i < |title| ==> title[i] != '\n')
    && ExtensionMatches(ext)
  }

  lemma ArchiveFileNameMatches(id: string, title: string, ext: string)
    requires GoodParts(id, title, ext)
    ensures MatchesPattern(ArchiveFileName(id, title, ext))
    ensures ArchiveFileName(id, title, ext)[1..7] == id
  {
    var f := ArchiveFileName(id, title, ext);
    assert f[1..7] == id;
    assert f[|f| - 3..] == ext;
    assert forall i :: 8 <= i < |f| - 4 ==> f[i] == title[i - 8];
  }

  /** Every well-formed name yields its id, with or without a final newline. */
  lemma ExtractIdFinds(id: string, title: string, ext: string)
    requires GoodParts(id, title, ext)
    ensures ExtractId(ArchiveFileName(id, title, ext)) == Some(id)
    ensures ExtractId(ArchiveFileName(id, title, ext) + "\n") == Some(id)
  {
    var f := ArchiveFileName(id, title, ext);
    ArchiveFileNameMatches(id, title, ext);
    var g := f + "\n";
    assert g[..|g| - 1] == f;
    assert g[1..7] == f[1..7];
    assert !MatchesPattern(g) by {
      assert g[|g| - 3..][2] == '\n';
    }
  }

  /** Every name that yields an id is a well-formed name, possibly followed
      by one newline. */
  lemma ExtractIdOnlyFinds(f: string)
    requires ExtractId(f).Some?
    ensures exists title, ext ::
      && GoodParts(ExtractId(f).value, title, ext)
      && (f == ArchiveFileName(ExtractId(f).value, title, ext)
          || f == ArchiveFileName(ExtractId(f).value, title, ext) + "\n")
  {
    var g := if MatchesPattern(f) then f else f[..|f| - 1];
    assert MatchesPattern(g) && g[1..7] == ExtractId(f).value;
    PatternParts(g);
    if !MatchesPattern(f) {
      assert f == g + "\n";
    }
  }

  /** A matching name splits into its id, title and extension. */
  lemma PatternParts(g: string)
    requires MatchesPattern(g)
    ensures GoodParts(g[1..7], g[8..|g| - 4], g[|g| - 3..])
    ensures g == ArchiveFileName(g[1..7], g[8..|g| - 4], g[|g| - 3..])
  {
    var id, title, ext := g[1..7], g[8..|g| - 4], g[|g| - 3..];
    assert forall i :: 0 <= i < |title| ==> title[i] == g[8 + i];
    assert forall i :: 0 <= i < 6 ==> id[i] == g[1 + i];
    assert g == g[..1] + g[1..7] + g[7..8] + g[8..|g| - 4] + g[|g| - 4..|g| - 3] + g[|g| - 3..];
    assert g[..1] == "[" && g[7..8] == "]" && g[|g| - 4..|g| - 3] == ".";
  }

  /** Names the pattern turns away: too short, the id not six digits, no
      title, another extension; and the extension matched ignoring case,
      the dotless and the dotted `i` included. */
  lemma ExtractIdRejects()
    ensures ExtractId("[12345]a.zip") == None
    ensures ExtractId("[1234567]a.zip") == None
    ensures ExtractId("[123456].zip") == None
    ensures ExtractId("[123456]a.rar") == None
    ensures ExtractId("[123456]a.CbZ") == Some("123456")
    ensures ExtractId("[123456]a.z\U{131}p") == Some("123456")
    ensures ExtractId("[123456]a.Z\U{130}P") == Some("123456")
  {
    var f := "[1234567]a.zip";
    assert f[7] == '7';
    var g := "[123456]a.rar";
    assert g[|g| - 3..][0] == 'r';
    var h := "[123456]a.CbZ";
    assert h[|h| - 3..] == "CbZ";
    assert h[1..7] == "123456";
    var d := "[123456]a.z\U{131}p";
    assert d[|d| - 3..] == "z\U{131}p";
    assert d[1..7] == "123456";
    var e := "[123456]a.Z\U{130}P";
    assert e[|e| - 3..] == "Z\U{130}P";
    assert e[1..7] == "123456";
  }

  // ------------------------------------------------------------ batching

  function Concat<T>(chunks: seq<seq<T>>): seq<T> {
    if |chunks| == 0 then [] else chunks[0] + Concat(chunks[1..])
  }

  /** `files[i:i + batch_size]` for `i` in `range(0, len(files), batch_size)`. */
  function Chunks<T>(xs: seq<T>, size: nat): (r: seq<seq<T>>)
    requires size >= 1
    ensures Concat(r) == xs
    ensures forall i :: 0 <= i < |r| ==> 0 < |r[i]| <= size
    ensures forall i :: 0 <= i < |r| - 1 ==> |r[i]| == size
    decreases |xs|
  {
    if |xs| == 0 then []
    else if |xs| <= size then
      assert Concat([xs]) == xs + Concat([xs][1..]);
      [xs]
    else
      var rest := Chunks(xs[size..], size);
      var r := [xs[..size]] + rest;
      assert r[1..] == rest;
      assert xs == xs[..size] + xs[size..];
      r
  }

  /** A batch size below one yields no batch (`range` with a negative step
      is empty). */
  function Batches<T>(xs: seq<T>, size: int): (r: seq<seq<T>>)
    ensures size >= 1 ==> Concat(r) == xs
    ensures size < 1 ==> r == []
  {
    if size < 1 then [] else Chunks(xs, size)
  }

  // -------------------------------------------------- the outside world

  /** What the pipeline takes from outside:
      - `fetch`: the metadata parser for a gallery id (None when it fails
        or gives an empty result);
      - `dumpJson`: `json.dumps` of the metadata, encoded;
      - `renderXml`: the ComicInfo template filled with the derived fields,
        encoded;
      - `readTags`: the `tags` value of a `metadata.json` (None when it
        does not parse or parses to an empty object; `Missing` when it has
        no list or string `tags`);
      - `readXmlTags`: the text of the `<Tags>` element of a
        `ComicInfo.xml` (None when it does not decode, Some(None) when
        there is no such element);
      - `writeJson`, `writeXml`: the same document with its tags replaced,
        serialised again;
      - `openError`: the message of the exception raised when an archive
        that is not there is opened;
      - the dictionary and the dry-run and to-CBZ flags. */
  datatype Env = Env(
    fetch: string -> Option<Metadata>,
    dumpJson: Metadata -> Bytes,
    renderXml: Fields -> Bytes,
    readTags: Bytes -> Option<Value>,
    readXmlTags: Bytes -> Option<Option<string>>,
    writeJson: (Bytes, Value) -> Bytes,
    writeXml: (Bytes, Option<string>) -> Bytes,
    openError: string -> string,
    dict: Dictionary,
    dryRun: bool,
    toCbz: bool)

  /** The archives of a task's folder, by file name. */
  type Folder = map<string, Archive>

  const BadName := "文件名格式不符合"
  const NoMetadata := "获取元数据失败"
  const ZipFailed := "处理文件失败"
  const TranslationFailedMessage := "翻译失败"
  const UntranslatedTags := "存在未翻译的标签"
  const NoMetadataFiles := "未找到元数据文件"

  // ------------------------------------------------ cache and archives

  /** The two entry names the pipeline caches. */
  predicate Reserved(inner: string) {
    inner == MetadataName || inner == ComicInfoName
  }

  /** For the two reserved names the cache key is unambiguous: both names
      have the same length, so the path ends at the same place. */
  lemma KeyInjective(p: string, i: string, q: string, j: string)
    requires Reserved(i) && Reserved(j) && LfuCache.Key(p, i) == LfuCache.Key(q, j)
    ensures p == q && i == j
  {
    assert |MetadataName| == 13 && |ComicInfoName| == 13;
    var k := LfuCache.Key(p, i);
    assert |p| == |q|;
    assert p == k[..|p|] && q == k[..|q|];
    assert i == k[|p| + 1..] && j == k[|q| + 1..];
  }

  /** Every cached reserved entry holds what the archive on disk holds. */
  ghost predicate Agrees(c: LfuCache.Cache, folder: Folder) {
    forall path, inner :: Reserved(inner) && LfuCache.Key(path, inner) in c.entries ==>
      && path in folder && Has(folder[path], inner)
      && c.entries[LfuCache.Key(path, inner)] == Read(folder[path], inner)
  }

  /** What opening the archive and reading the entry gives. */
  function Stored(folder: Folder, path: string, inner: string): Option<Bytes>
    requires path in folder
  {
    if Has(folder[path], inner) then Some(Read(folder[path], inner)) else None
  }

  /** Caching what the archive holds keeps the cache in agreement. */
  lemma PutAgrees(c: LfuCache.Cache, folder: Folder, path: string, inner: string)
    requires LfuCache.Valid(c) && Agrees(c, folder) && Reserved(inner)
    requires path in folder && Has(folder[path], inner)
    ensures Agrees(LfuCache.Put(c, path, inner, Read(folder[path], inner)), folder)
  {
    var content := Read(folder[path], inner);
    var r := LfuCache.Put(c, path, inner, content);
    LfuCache.PutEvictsOnlyLeastUsed(c, path, inner, content);
    forall p, i | Reserved(i) && LfuCache.Key(p, i) in r.entries
      ensures p in folder && Has(folder[p], i) && r.entries[LfuCache.Key(p, i)] == Read(folder[p], i)
    {
      if LfuCache.Key(p, i) == LfuCache.Key(path, inner) {
        KeyInjective(p, i, path, inner);
      }
    }
  }

  /** Dropping both reserved entries of one archive. The source never
      drops a cached entry this way; the corrected pipeline (`refresh`)
      does it whenever it rewrites an archive. */
  function ForgetArchive(c: LfuCache.Cache, path: string): (r: LfuCache.Cache)
    requires LfuCache.Valid(c)
    ensures LfuCache.Valid(r) && r.maxSize == c.maxSize
    ensures forall inner :: Reserved(inner) ==> LfuCache.Key(path, inner) !in r.entries
    ensures forall k :: k in r.entries ==> k in c.entries && r.entries[k] == c.entries[k]
  {
    LfuCache.Forget(LfuCache.Forget(c, path, MetadataName), path, ComicInfoName)
  }

  /** A cache with no entries for the archives that changed still agrees
      with the folder after the change. */
  lemma AgreesAfterChange(c: LfuCache.Cache, folder: Folder, folder': Folder, a: string, b: string)
    requires Agrees(c, folder)
    requires forall i :: Reserved(i) ==> LfuCache.Key(a, i) !in c.entries && LfuCache.Key(b, i) !in c.entries
    requires forall p :: p in folder && p != a && p != b ==> p in folder' && folder'[p] == folder[p]
    ensures Agrees(c, folder')
  {
  }

  /** Forgetting entries never breaks agreement. */
  lemma ForgetAgrees(c: LfuCache.Cache, folder: Folder, path: string)
    requires LfuCache.Valid(c) && Agrees(c, folder)
    ensures Agrees(ForgetArchive(c, path), folder)
  {
  }

  /** `get_cached_content`, and on a miss the archive is opened and the
      entry, when present, is read and cached. None: the archive had to be
      opened and is not there. */
  function CachedRead(c: LfuCache.Cache, folder: Folder, path: string, inner: string)
    : (r: Option<(Option<Bytes>, LfuCache.Cache)>)
    requires LfuCache.Valid(c)
    ensures r.Some? ==> LfuCache.Valid(r.value.1) && r.value.1.maxSize == c.maxSize
    ensures r.None? <==> LfuCache.Key(path, inner) !in c.entries && path !in folder
    ensures LfuCache.Key(path, inner) in c.entries ==>
      r.Some? && r.value.0 == Some(c.entries[LfuCache.Key(path, inner)])
  {
    var (hit, c1) := LfuCache.Get(c, path, inner);
    if hit.Some? then Some((hit, c1))
    else if path !in folder then None
    else if Has(folder[path], inner) then
      var content := Read(folder[path], inner);
      Some((Some(content), LfuCache.Put(c1, path, inner, content)))
    else Some((None, c1))
  }

  /** With an agreeing cache, a cached read gives what the archive holds,
      hit or miss, and the cache keeps agreeing. */
  lemma CachedReadAgrees(c: LfuCache.Cache, folder: Folder, path: string, inner: string)
    requires LfuCache.Valid(c) && Agrees(c, folder) && Reserved(inner)
    ensures var r := CachedRead(c, folder, path, inner);
      && (r.None? <==> path !in folder)
      && (r.Some? ==> r.value.0 == Stored(folder, path, inner) && Agrees(r.value.1, folder))
  {
    if LfuCache.Key(path, inner) !in c.entries && path in folder && Has(folder[path], inner) {
      PutAgrees(c, folder, path, inner);
    }
  }

  // --------------------------------------------------------- translation

  /** `if metadata_content:` followed by the parse: an empty entry counts as
      a missing one. */
  function ParsedTags(env: Env, content: Option<Bytes>): (r: Option<Value>)
    ensures content.None? || |content.value| == 0 ==> r.None?
    ensures content.Some? && |content.value| > 0 ==> r == env.readTags(content.value)
  {
    if content.Some? && |content.value| > 0 then env.readTags(content.value) else None
  }

  /** `if xml_content:` followed by the parse: an empty entry counts as a
      missing one. */
  function ParsedXml(env: Env, content: Option<Bytes>): (r: Option<Option<string>>)
    ensures content.None? || |content.value| == 0 ==> r.None?
    ensures content.Some? && |content.value| > 0 ==> r == env.readXmlTags(content.value)
  {
    if content.Some? && |content.value| > 0 then env.readXmlTags(content.value) else None
  }

  /** The outcome of translating one archive: whether it succeeded, the
      message recorded, and the rewritten archive when one was written. */
  datatype TranslationRun = TranslationRun(ok: bool, error: string, written: Option<Archive>)

  /** `translate_metadata_in_cbz` after both entries were read: translate
      whatever parsed; rewrite the archive only when every tag was found and
      this is no dry run. `archive` is None when the archive is not there. */
  function TranslateEntries(env: Env, path: string, archive: Option<Archive>,
                            md: Option<Bytes>, xml: Option<Bytes>): (r: TranslationRun)
    ensures r.ok ==> r.error == ""
    ensures !r.ok ==> r.written.None?
    ensures r.written.Some? ==> archive.Some? && !env.dryRun
    ensures ParsedTags(env, md).None? && ParsedXml(env, xml).None? ==> r == TranslationRun(false, NoMetadataFiles, None)
  {
    var meta := ParsedTags(env, md);
    var doc := ParsedXml(env, xml);
    if meta.None? && doc.None? then TranslationRun(false, NoMetadataFiles, None)
    else
      var t := TranslateContent(env.dict, if meta.Some? then meta.value else Missing,
                                if doc.Some? then doc.value else None);
      if t.2 && !env.dryRun then
        if archive.None? then TranslationRun(false, env.openError(path), None)
        else
          var newJson := if meta.Some? then Some(env.writeJson(md.value, t.0)) else None;
          var newXml := if doc.Some? then Some(env.writeXml(xml.value, t.1)) else None;
          TranslationRun(true, "", Some(Rewrite(archive.value, newJson, newXml)))
      else if !t.2 then TranslationRun(false, UntranslatedTags, None)
      else TranslationRun(true, "", None)
  }

  /** Success is exactly: something parsed, every tag in it was found, and
      the archive is there to be rewritten unless this is a dry run. The
      rewritten archive carries each parsed document with its tags
      translated, and no other copy of either reserved entry. */
  lemma TranslateEntriesSpec(env: Env, path: string, archive: Option<Archive>, md: Option<Bytes>, xml: Option<Bytes>)
    ensures var r := TranslateEntries(env, path, archive, md, xml);
      var meta := ParsedTags(env, md);
      var doc := ParsedXml(env, xml);
      var tags := if meta.Some? then meta.value else Missing;
      var text := if doc.Some? then doc.value else None;
      && (r.ok <==> (meta.Some? || doc.Some?)
                    && TranslateMetadataTags(env.dict, tags).found
                    && TranslateXmlTags(env.dict, text).found
                    && (env.dryRun || archive.Some?))
      && (r.written.Some? <==> r.ok && !env.dryRun)
      && (r.written.Some? ==>
            && (Has(r.written.value, MetadataName) <==> meta.Some?)
            && (meta.Some? ==> Read(r.written.value, MetadataName)
                                 == env.writeJson(md.value, TranslateMetadataTags(env.dict, tags).value))
            && (Has(r.written.value, ComicInfoName) <==> doc.Some?)
            && (doc.Some? ==> Read(r.written.value, ComicInfoName)
                                == env.writeXml(xml.value, TranslateXmlTags(env.dict, text).value)))
  {
    var r := TranslateEntries(env, path, archive, md, xml);
    var meta := ParsedTags(env, md);
    var doc := ParsedXml(env, xml);
    if r.written.Some? {
      var tags := if meta.Some? then meta.value else Missing;
      var text := if doc.Some? then doc.value else None;
      var newJson := if meta.Some? then Some(env.writeJson(md.value, TranslateMetadataTags(env.dict, tags).value)) else None;
      var newXml := if doc.Some? then Some(env.writeXml(xml.value, TranslateXmlTags(env.dict, text).value)) else None;
      assert r.written.value == Rewrite(archive.value, newJson, newXml);
      RewriteComicInfoPresence(archive.value, newJson, newXml);
      if meta.Some? {
        ReadMetadataAfterRewrite(archive.value, newJson.value, newXml);
      } else {
        RewriteWithoutMetadata(archive.value, newXml);
      }
      if doc.Some? {
        ReadComicInfoAfterRewrite(archive.value, newJson, newXml.value);
      }
    }
  }

  /** A rewrite that is not given `metadata.json` holds none. */
  lemma RewriteWithoutMetadata(a: Archive, comicInfo: Option<Bytes>)
    ensures !Has(Rewrite(a, None, comicInfo), MetadataName)
  {
    var out := Rewrite(a, None, comicInfo);
    HasIsInNames(out, MetadataName);
    assert MetadataName !in Filter(Names(a), NotReserved());
    assert MetadataName != ComicInfoName;
  }

  /** `translate_metadata_in_cbz` up to its status update: both entries
      read through the cache, then translated. Opening an archive that is
      not there raises, and the exception's message is recorded. */
  function TranslateArchive(env: Env, folder: Folder, c: LfuCache.Cache, path: string)
    : (r: (TranslationRun, LfuCache.Cache))
    requires LfuCache.Valid(c)
    ensures LfuCache.Valid(r.1) && r.1.maxSize == c.maxSize
    ensures r.0.ok ==> r.0.error == "" && (path in folder || env.dryRun)
    ensures r.0.written.Some? ==> r.0.ok && !env.dryRun && path in folder
  {
    match CachedRead(c, folder, path, MetadataName)
    case None => (TranslationRun(false, env.openError(path), None), c)
    case Some((md, c1)) =>
      match CachedRead(c1, folder, path, ComicInfoName)
      case None => (TranslationRun(false, env.openError(path), None), c1)
      case Some((xml, c2)) =>
        (TranslateEntries(env, path, if path in folder then Some(folder[path]) else None, md, xml), c2)
  }

  /** With an agreeing cache, translating an archive that is there works on
      what the archive holds, and the cache still agrees with the folder as
      it was before the rewrite. */
  lemma TranslateArchiveAgrees(env: Env, folder: Folder, c: LfuCache.Cache, path: string)
    requires LfuCache.Valid(c) && Agrees(c, folder)
    ensures var r := TranslateArchive(env, folder, c, path);
      && Agrees(r.1, folder)
      && (path in folder ==>
            r.0 == TranslateEntries(env, path, Some(folder[path]),
                                    Stored(folder, path, MetadataName), Stored(folder, path, ComicInfoName)))
  {
    CachedReadAgrees(c, folder, path, MetadataName);
    if path in folder {
      var c1 := CachedRead(c, folder, path, MetadataName).value.1;
      CachedReadAgrees(c1, folder, path, ComicInfoName);
    }
  }

  // ----------------------------------------------------- one archive

  /** The outcome of `process_zip_file`: success, the folder afterwards,
      and the new path after a `.zip` -> `.cbz` rename. */
  datatype Injected = Injected(ok: bool, folder: Folder, newPath: Option<string>)

  /** A `.zip` name and its `.cbz` rename differ. */
  lemma CbzNameDiffers(path: string)
    requires HasExtension(path, ".zip")
    ensures |path| >= 4 && CbzName(path) != path && HasExtension(CbzName(path), ".cbz")
  {
    var n := CbzName(path);
    LowerAppend(path[..|path| - 4], ".cbz");
    assert Lower(".cbz") == ".cbz";
    assert Lower(n)[|path| - 3] == 'c' && Lower(path)[|path| - 3] == 'z';
  }

  /** The rewritten archive put back into the folder, under the new name
      after a rename (which replaces any archive of that name). */
  function Place(folder: Folder, path: string, out: Archive, np: Option<string>): (r: Folder)
    ensures forall p :: p != path && np != Some(p) ==>
      (p in r <==> p in folder) && (p in folder ==> r[p] == folder[p])
    ensures np.Some? && np.value != path ==> path !in r && np.value in r && r[np.value] == out
    ensures np.None? ==> path in r && r[path] == out
  {
    if np.Some? then (folder - {path})[np.value := out] else folder[path := out]
  }

  /** `process_zip_file`: a dry run reports success and touches nothing; an
      archive that is not there fails; otherwise the metadata is injected
      and, when asked, the archive is renamed. */
  function ProcessZip(env: Env, folder: Folder, path: string, meta: Metadata): (r: Injected)
    ensures r.ok <==> env.dryRun || path in folder
    ensures !r.ok || env.dryRun ==> r.folder == folder && r.newPath.None?
    ensures r.newPath.Some? <==> r.ok && !env.dryRun && env.toCbz && HasExtension(path, ".zip")
    ensures r.newPath.Some? ==> |path| >= 4 && r.newPath.value == CbzName(path) && r.newPath.value != path
    ensures forall p :: p != path && r.newPath != Some(p) ==>
      (p in r.folder <==> p in folder) && (p in folder ==> r.folder[p] == folder[p])
    ensures r.newPath.Some? ==> path !in r.folder && r.newPath.value in r.folder
    ensures r.ok && !env.dryRun && r.newPath.None? ==> path in r.folder
  {
    if env.dryRun then Injected(true, folder, None)
    else if path !in folder then Injected(false, folder, None)
    else
      var inj := InjectMetadata(path, folder[path], env.toCbz, env.dumpJson(meta), env.renderXml(Derive(meta)));
      assert inj.1.Some? ==> CbzName(path) != path by {
        if inj.1.Some? {
          CbzNameDiffers(path);
        }
      }
      Injected(true, Place(folder, path, inj.0, inj.1), inj.1)
  }

  /** The file `process_zip_file` leaves behind: the renamed one, if any. */
  function Target(path: string, z: Injected): string {
    if z.newPath.Some? then z.newPath.value else path
  }

  /** After a real injection the archive holds the fetched metadata, once,
      and the generated ComicInfo exactly when a CBZ is wanted. */
  lemma ProcessZipInjects(env: Env, folder: Folder, path: string, meta: Metadata)
    requires !env.dryRun && path in folder
    ensures var z := ProcessZip(env, folder, path, meta);
      var out := z.folder[Target(path, z)];
      var xml := env.renderXml(Derive(meta));
      && Has(out, MetadataName) && Read(out, MetadataName) == env.dumpJson(meta)
      && |Filter(Names(out), IsMetadataName())| == 1
      && (Has(out, ComicInfoName) <==> WantsComicInfo(path, env.toCbz) && |xml| > 0)
      && (Has(out, ComicInfoName) ==> Read(out, ComicInfoName) == xml)
  {
    var xml := env.renderXml(Derive(meta));
    InjectMetadataOnce(path, folder[path], env.toCbz, env.dumpJson(meta), xml);
    InjectComicInfo(path, folder[path], env.toCbz, env.dumpJson(meta), xml);
  }

  // --------------------------------------------------------- one file

  /** The outcome of `process_file`. */
  datatype Outcome = Outcome(store: TaskStore.Store, folder: Folder, cache: LfuCache.Cache, ok: bool)

  /** The final status update of `process_file`: success, with the record
      moved to the new name after a rename, or failure with its reason. The
      contract says which records it leaves alone; `SettleSpec` states the
      status, message and name it gives the settled record. */
  function Settle(st: TaskStore.Store, id: string, filename: string, newPath: Option<string>,
                  zipOk: bool, ok: bool): (r: TaskStore.Store)
    ensures r.ids == st.ids && r.tasks.Keys == st.tasks.Keys
    ensures forall other :: other in st.tasks && other != id ==> r.tasks[other] == st.tasks[other]
  {
    if ok then
      var st1 := UpdateFileStatus(st, id, filename, Success, "");
      if newPath.Some? && newPath.value != filename then RenameFile(st1, id, filename, newPath.value) else st1
    else UpdateFileStatus(st, id, filename, Failed, if !zipOk then ZipFailed else TranslationFailedMessage)
  }

  /** The archive the translation opens: the renamed one, if any. */
  function TranslationTarget(filename: string, z: Injected): (r: string)
    ensures r == filename || z.newPath == Some(r)
    ensures z.newPath.None? ==> r == filename
  {
    if z.newPath.Some? && z.newPath.value != filename then z.newPath.value else filename
  }

  /** `process_file` after `process_zip_file` succeeded: translate the
      archive it left behind, record the translation status, settle. */
  function Finish(env: Env, st: TaskStore.Store, id: string, c: LfuCache.Cache,
                  filename: string, z: Injected, refresh: bool): (r: Outcome)
    requires LfuCache.Valid(c)
    ensures LfuCache.Valid(r.cache) && r.cache.maxSize == c.maxSize
    ensures r.store.ids == st.ids && r.store.tasks.Keys == st.tasks.Keys
    ensures forall other :: other in st.tasks && other != id ==> r.store.tasks[other] == st.tasks[other]
    ensures r.ok ==> TranslationTarget(filename, z) in z.folder || env.dryRun
    ensures r.folder != z.folder ==> r.ok && !env.dryRun
  {
    var target := TranslationTarget(filename, z);
    var c1 := if refresh then ForgetArchive(ForgetArchive(c, filename), target) else c;
    var run := TranslateArchive(env, z.folder, c1, target);
    var t, c2 := run.0, run.1;
    var folder2 := if t.written.Some? then z.folder[target := t.written.value] else z.folder;
    var c3 := if refresh && t.written.Some? then ForgetArchive(c2, target) else c2;
    var st1 := UpdateTranslationStatus(st, id, filename,
                                       if t.ok then TranslationSuccess else TranslationFailed, t.error);
    Outcome(Settle(st1, id, filename, z.newPath, true, t.ok), folder2, c3, t.ok)
  }

  /** `process_file`. With `refresh` false this is the source: the cache is
      left as it was when the archive is rewritten. With `refresh` true an
      archive's cached entries are dropped each time it is rewritten. */
  function ProcessFile(env: Env, st: TaskStore.Store, id: string, folder: Folder, c: LfuCache.Cache,
                       filename: string, refresh: bool): (r: Outcome)
    requires LfuCache.Valid(c)
    ensures LfuCache.Valid(r.cache) && r.cache.maxSize == c.maxSize
    ensures r.store.ids == st.ids && r.store.tasks.Keys == st.tasks.Keys
    ensures forall other :: other in st.tasks && other != id ==> r.store.tasks[other] == st.tasks[other]
    ensures r.ok ==> ExtractId(filename).Some? && env.fetch(ExtractId(filename).value).Some?
    ensures r.ok && !env.dryRun ==> filename in folder
    ensures env.dryRun ==> r.folder == folder
  {
    match ExtractId(filename)
    case None => Outcome(UpdateFileStatus(st, id, filename, Skipped, BadName), folder, c, false)
    case Some(galleryId) =>
      match env.fetch(galleryId)
      case None => Outcome(UpdateFileStatus(st, id, filename, Failed, NoMetadata), folder, c, false)
      case Some(meta) =>
        var z := ProcessZip(env, folder, filename, meta);
        if !z.ok then Outcome(Settle(st, id, filename, None, false, false), folder, c, false)
        else Finish(env, st, id, c, filename, z, refresh)
  }

  /** The name a file's record ends under: the `.cbz` name after a
      successful conversion, its own name otherwise. */
  function FinalName(env: Env, filename: string, ok: bool): string {
    if ok && !env.dryRun && env.toCbz && HasExtension(filename, ".zip") then CbzName(filename) else filename
  }

  /** The final update sets the status and message under the final name,
      and keeps the translation status already recorded. */
  lemma SettleSpec(st: TaskStore.Store, id: string, filename: string, newPath: Option<string>, zipOk: bool, ok: bool)
    requires id in st.tasks
    ensures var r := Settle(st, id, filename, newPath, zipOk, ok);
      var name := if ok && newPath.Some? && newPath.value != filename then newPath.value else filename;
      && name in r.tasks[id].files
      && r.tasks[id].files[name].status == (if ok then Success else Failed)
      && r.tasks[id].files[name].error == (if ok then "" else if !zipOk then ZipFailed else TranslationFailedMessage)
      && (filename in st.tasks[id].files ==>
            r.tasks[id].files[name].translation == st.tasks[id].files[filename].translation)
  {
  }

  /** The translation step settles the file: success exactly when the
      translation succeeded, recorded under the new name after a rename. */
  lemma FinishSettles(env: Env, st: TaskStore.Store, id: string, c: LfuCache.Cache,
                      filename: string, z: Injected, refresh: bool)
    requires LfuCache.Valid(c) && id in st.tasks
    ensures var r := Finish(env, st, id, c, filename, z, refresh);
      var name := if r.ok && z.newPath.Some? && z.newPath.value != filename then z.newPath.value else filename;
      && name in r.store.tasks[id].files
      && r.store.tasks[id].files[name].status == (if r.ok then Success else Failed)
      && r.store.tasks[id].files[name].error == (if r.ok then "" else TranslationFailedMessage)
      && r.store.tasks[id].files[name].translation == Some(if r.ok then TranslationSuccess else TranslationFailed)
  {
    var target := TranslationTarget(filename, z);
    var c1 := if refresh then ForgetArchive(ForgetArchive(c, filename), target) else c;
    var t := TranslateArchive(env, z.folder, c1, target).0;
    var st1 := UpdateTranslationStatus(st, id, filename,
                                       if t.ok then TranslationSuccess else TranslationFailed, t.error);
    assert Finish(env, st, id, c, filename, z, refresh).store == Settle(st1, id, filename, z.newPath, true, t.ok);
    SettleSpec(st1, id, filename, z.newPath, true, t.ok);
  }

  /** The final update keeps the store well formed when the file is held
      and its new name is not. */
  lemma SettleKeepsWellFormed(st: TaskStore.Store, id: string, filename: string, newPath: Option<string>,
                              zipOk: bool, ok: bool)
    requires WellFormed(st)
    requires id in st.tasks ==> filename in st.tasks[id].files
    requires id in st.tasks && newPath.Some? && newPath.value != filename ==> newPath.value !in st.tasks[id].files
    ensures var r := Settle(st, id, filename, newPath, zipOk, ok);
      && WellFormed(r)
      && (id in st.tasks ==>
            var name := if ok && newPath.Some? && newPath.value != filename then newPath.value else filename;
            && r.tasks[id].files.Keys == st.tasks[id].files.Keys - {filename} + {name}
            && forall n :: n in st.tasks[id].files && n != filename ==> r.tasks[id].files[n] == st.tasks[id].files[n])
  {
    if ok && newPath.Some? && newPath.value != filename {
      SettleRenamedKeepsWellFormed(st, id, filename, newPath.value);
    } else {
      var status := if ok then Success else Failed;
      var error := if ok then "" else if !zipOk then ZipFailed else TranslationFailedMessage;
      assert Settle(st, id, filename, newPath, zipOk, ok) == UpdateFileStatus(st, id, filename, status, error);
      SettleInPlaceKeepsWellFormed(st, id, filename, status, error);
    }
  }

  /** `SettleKeepsWellFormed` when the file keeps its name. */
  lemma SettleInPlaceKeepsWellFormed(st: TaskStore.Store, id: string, filename: string, status: Status, error: string)
    requires WellFormed(st)
    requires id in st.tasks ==> filename in st.tasks[id].files
    ensures var r := UpdateFileStatus(st, id, filename, status, error);
      && WellFormed(r)
      && (id in st.tasks ==>
            && r.tasks[id].files.Keys == st.tasks[id].files.Keys - {filename} + {filename}
            && forall n :: n in st.tasks[id].files && n != filename ==> r.tasks[id].files[n] == st.tasks[id].files[n])
  {
    UpdateFileStatusKeepsWellFormed(st, id, filename, status, error);
    if id in st.tasks {
      assert st.tasks[id].files.Keys - {filename} + {filename} == st.tasks[id].files.Keys;
    }
  }

  /** `SettleKeepsWellFormed` after a successful rename. */
  lemma SettleRenamedKeepsWellFormed(st: TaskStore.Store, id: string, filename: string, to: string)
    requires WellFormed(st) && to != filename
    requires id in st.tasks ==> filename in st.tasks[id].files && to !in st.tasks[id].files
    ensures var r := RenameFile(UpdateFileStatus(st, id, filename, Success, ""), id, filename, to);
      && WellFormed(r)
      && (id in st.tasks ==>
            && r.tasks[id].files.Keys == st.tasks[id].files.Keys - {filename} + {to}
            && forall n :: n in st.tasks[id].files && n != filename ==> r.tasks[id].files[n] == st.tasks[id].files[n])
  {
    UpdateFileStatusKeepsWellFormed(st, id, filename, Success, "");
    var st1 := UpdateFileStatus(st, id, filename, Success, "");
    RenameFileKeepsWellFormed(st1, id, filename, to);
  }

  /** The translation step keeps the store well formed when the file is
      held and its new name is not. */
  lemma FinishKeepsWellFormed(env: Env, st: TaskStore.Store, id: string, c: LfuCache.Cache,
                              filename: string, z: Injected, refresh: bool)
    requires LfuCache.Valid(c) && WellFormed(st)
    requires id in st.tasks ==> filename in st.tasks[id].files
    requires id in st.tasks && z.newPath.Some? && z.newPath.value != filename ==> z.newPath.value !in st.tasks[id].files
    ensures var r := Finish(env, st, id, c, filename, z, refresh);
      && WellFormed(r.store)
      && (id in st.tasks ==>
            var name := if r.ok && z.newPath.Some? && z.newPath.value != filename then z.newPath.value else filename;
            && r.store.tasks[id].files.Keys == st.tasks[id].files.Keys - {filename} + {name}
            && forall n :: n in st.tasks[id].files && n != filename ==>
                 r.store.tasks[id].files[n] == st.tasks[id].files[n])
  {
    var target := TranslationTarget(filename, z);
    var c1 := if refresh then ForgetArchive(ForgetArchive(c, filename), target) else c;
    var t := TranslateArchive(env, z.folder, c1, target).0;
    var status := if t.ok then TranslationSuccess else TranslationFailed;
    var st1 := UpdateTranslationStatus(st, id, filename, status, t.error);
    assert Finish(env, st, id, c, filename, z, refresh).store == Settle(st1, id, filename, z.newPath, true, t.ok);
    UpdateTranslationStatusKeepsWellFormed(st, id, filename, status, t.error);
    SettleKeepsWellFormed(st1, id, filename, z.newPath, true, t.ok);
  }

  /** `process_file` always takes the file out of pending: skipped for a
      name the pattern rejects, failed when no metadata was fetched, when
      the archive could not be processed or when its translation failed,
      and successful (under the `.cbz` name after a conversion) exactly
      when the result is true. Once the archive was processed, the
      translation status agrees with the result. */
  lemma ProcessFileSettles(env: Env, st: TaskStore.Store, id: string, folder: Folder, c: LfuCache.Cache,
                           filename: string, refresh: bool)
    requires LfuCache.Valid(c) && id in st.tasks
    ensures var r := ProcessFile(env, st, id, folder, c, filename, refresh);
      var name := FinalName(env, filename, r.ok);
      var fetched := ExtractId(filename).Some? && env.fetch(ExtractId(filename).value).Some?;
      var injected := fetched && (env.dryRun || filename in folder);
      && name in r.store.tasks[id].files
      && var rec := r.store.tasks[id].files[name];
      && rec.status != Pending
      && (rec.status == Success <==> r.ok)
      && (r.ok ==> rec.error == "")
      && (ExtractId(filename).None? ==> rec.status == Skipped && rec.error == BadName)
      && (ExtractId(filename).Some? && !fetched ==> rec.status == Failed && rec.error == NoMetadata)
      && (fetched && !injected ==> rec.status == Failed && rec.error == ZipFailed)
      && (injected && !r.ok ==> rec.status == Failed && rec.error == TranslationFailedMessage)
      && (injected ==> rec.translation == Some(if r.ok then TranslationSuccess else TranslationFailed))
  {
    if ExtractId(filename).Some? && env.fetch(ExtractId(filename).value).Some? && (env.dryRun || filename in folder) {
      ProcessedSettles(env, st, id, folder, c, filename, refresh);
    } else {
      EarlyExitSettles(env, st, id, folder, c, filename, refresh);
    }
  }

  /** The branches of `ProcessFileSettles` that stop before the archive is touched. */
  lemma EarlyExitSettles(env: Env, st: TaskStore.Store, id: string, folder: Folder, c: LfuCache.Cache,
                         filename: string, refresh: bool)
    requires LfuCache.Valid(c) && id in st.tasks
    requires ExtractId(filename).None? || env.fetch(ExtractId(filename).value).None?
             || !(env.dryRun || filename in folder)
    ensures var r := ProcessFile(env, st, id, folder, c, filename, refresh);
      && !r.ok && filename in r.store.tasks[id].files
      && var rec := r.store.tasks[id].files[filename];
      && (ExtractId(filename).None? ==> rec.status == Skipped && rec.error == BadName)
      && (ExtractId(filename).Some? && env.fetch(ExtractId(filename).value).None? ==>
            rec.status == Failed && rec.error == NoMetadata)
      && (ExtractId(filename).Some? && env.fetch(ExtractId(filename).value).Some? ==>
            rec.status == Failed && rec.error == ZipFailed)
  {
    match ExtractId(filename)
    case None =>
    case Some(galleryId) =>
      match env.fetch(galleryId)
      case None =>
      case Some(meta) =>
        assert !ProcessZip(env, folder, filename, meta).ok;
        SettleSpec(st, id, filename, None, false, false);
  }

  /** The branch of `ProcessFileSettles` that processes the archive. */
  lemma ProcessedSettles(env: Env, st: TaskStore.Store, id: string, folder: Folder, c: LfuCache.Cache,
                         filename: string, refresh: bool)
    requires LfuCache.Valid(c) && id in st.tasks
    requires ExtractId(filename).Some? && env.fetch(ExtractId(filename).value).Some?
    requires env.dryRun || filename in folder
    ensures var r := ProcessFile(env, st, id, folder, c, filename, refresh);
      var name := FinalName(env, filename, r.ok);
      && name in r.store.tasks[id].files
      && var rec := r.store.tasks[id].files[name];
      && rec.status == (if r.ok then Success else Failed)
      && rec.error == (if r.ok then "" else TranslationFailedMessage)
      && rec.translation == Some(if r.ok then TranslationSuccess else TranslationFailed)
  {
    var meta := env.fetch(ExtractId(filename).value).value;
    var z := ProcessZip(env, folder, filename, meta);
    var r := ProcessFile(env, st, id, folder, c, filename, refresh);
    assert r == Finish(env, st, id, c, filename, z, refresh);
    FinishSettles(env, st, id, c, filename, z, refresh);
    assert (if r.ok && z.newPath.Some? && z.newPath.value != filename then z.newPath.value else filename)
           == FinalName(env, filename, r.ok);
  }

  /** The form of `ProcessFileKeepsWellFormed`'s conclusion. */
  ghost predicate StepKeepsWellFormed(env: Env, st: TaskStore.Store, id: string, filename: string, r: Outcome) {
    && WellFormed(r.store)
    && r.store.tasks.Keys == st.tasks.Keys
    && (id in st.tasks ==>
          var name := FinalName(env, filename, r.ok);
          && r.store.tasks[id].files.Keys == st.tasks[id].files.Keys - {filename} + {name}
          && forall n :: n in st.tasks[id].files && n != filename ==>
               r.store.tasks[id].files[n] == st.tasks[id].files[n])
  }

  /** A failed step that only updated the file's status. */
  lemma StatusOnlyKeepsWellFormed(env: Env, st: TaskStore.Store, id: string, filename: string,
                                  status: Status, error: string, r: Outcome)
    requires WellFormed(st) && (id in st.tasks ==> filename in st.tasks[id].files)
    requires r.store == UpdateFileStatus(st, id, filename, status, error) && !r.ok
    ensures StepKeepsWellFormed(env, st, id, filename, r)
  {
    UpdateFileStatusKeepsWellFormed(st, id, filename, status, error);
    if id in st.tasks {
      assert st.tasks[id].files.Keys - {filename} + {filename} == st.tasks[id].files.Keys;
    }
  }

  /** The branches that stop before the archive is touched. */
  lemma EarlyExitKeepsWellFormed(env: Env, st: TaskStore.Store, id: string, folder: Folder, c: LfuCache.Cache,
                                 filename: string, refresh: bool)
    requires LfuCache.Valid(c) && WellFormed(st)
    requires id in st.tasks ==> filename in st.tasks[id].files
    requires ExtractId(filename).None? || env.fetch(ExtractId(filename).value).None?
             || !(env.dryRun || filename in folder)
    ensures StepKeepsWellFormed(env, st, id, filename, ProcessFile(env, st, id, folder, c, filename, refresh))
  {
    var r := ProcessFile(env, st, id, folder, c, filename, refresh);
    match ExtractId(filename)
    case None =>
      StatusOnlyKeepsWellFormed(env, st, id, filename, Skipped, BadName, r);
    case Some(galleryId) =>
      match env.fetch(galleryId)
      case None =>
        StatusOnlyKeepsWellFormed(env, st, id, filename, Failed, NoMetadata, r);
      case Some(meta) =>
        assert !ProcessZip(env, folder, filename, meta).ok;
        StatusOnlyKeepsWellFormed(env, st, id, filename, Failed, ZipFailed, r);
  }

  /** The branch that processes the archive. */
  lemma ProcessedKeepsWellFormed(env: Env, st: TaskStore.Store, id: string, folder: Folder, c: LfuCache.Cache,
                                 filename: string, refresh: bool)
    requires LfuCache.Valid(c) && WellFormed(st)
    requires id in st.tasks ==> filename in st.tasks[id].files
    requires id in st.tasks && env.toCbz && HasExtension(filename, ".zip") ==>
      |filename| >= 4 && CbzName(filename) !in st.tasks[id].files
    requires ExtractId(filename).Some? && env.fetch(ExtractId(filename).value).Some?
    requires env.dryRun || filename in folder
    ensures StepKeepsWellFormed(env, st, id, filename, ProcessFile(env, st, id, folder, c, filename, refresh))
  {
    var r := ProcessFile(env, st, id, folder, c, filename, refresh);
    var meta := env.fetch(ExtractId(filename).value).value;
    var z := ProcessZip(env, folder, filename, meta);
    assert r == Finish(env, st, id, c, filename, z, refresh);
    FinishKeepsWellFormed(env, st, id, c, filename, z, refresh);
    assert (if r.ok && z.newPath.Some? && z.newPath.value != filename then z.newPath.value else filename)
           == FinalName(env, filename, r.ok);
  }

  /** For a file the task holds, and no other file under its `.cbz` name,
      `process_file` keeps the store well formed; that task's files are the
      same, but for the rename, and every other record is untouched. */
  lemma ProcessFileKeepsWellFormed(env: Env, st: TaskStore.Store, id: string, folder: Folder, c: LfuCache.Cache,
                                   filename: string, refresh: bool)
    requires LfuCache.Valid(c) && WellFormed(st)
    requires id in st.tasks ==> filename in st.tasks[id].files
    requires id in st.tasks && env.toCbz && HasExtension(filename, ".zip") ==>
      |filename| >= 4 && CbzName(filename) !in st.tasks[id].files
    ensures var r := ProcessFile(env, st, id, folder, c, filename, refresh);
      && WellFormed(r.store)
      && (id in st.tasks ==>
            var name := FinalName(env, filename, r.ok);
            && r.store.tasks[id].files.Keys == st.tasks[id].files.Keys - {filename} + {name}
            && forall n :: n in st.tasks[id].files && n != filename ==>
                 r.store.tasks[id].files[n] == st.tasks[id].files[n])
  {
    if ExtractId(filename).None? || env.fetch(ExtractId(filename).value).None?
       || !(env.dryRun || filename in folder) {
      EarlyExitKeepsWellFormed(env, st, id, folder, c, filename, refresh);
    } else {
      ProcessedKeepsWellFormed(env, st, id, folder, c, filename, refresh);
    }
  }

  // ------------------------------------------------ the cache, refreshed

  /** Dropping the cached entries of both names `process_zip_file` may
      have written leaves a cache that agrees with the folder afterwards. */
  lemma ForgetBothAgrees(c: LfuCache.Cache, folder: Folder, folder': Folder, a: string, b: string)
    requires LfuCache.Valid(c) && Agrees(c, folder)
    requires forall p :: p in folder && p != a && p != b ==> p in folder' && folder'[p] == folder[p]
    ensures Agrees(ForgetArchive(ForgetArchive(c, a), b), folder')
  {
    ForgetAgrees(c, folder, a);
    var c0 := ForgetArchive(c, a);
    ForgetAgrees(c0, folder, b);
    AgreesAfterChange(ForgetArchive(c0, b), folder, folder', a, b);
  }

  /** With `refresh`, the translation step reads what the archive left by
      `process_zip_file` holds, and the cache agrees with the folder after
      the step as it did before it. */
  lemma FinishRefreshed(env: Env, st: TaskStore.Store, id: string, c: LfuCache.Cache,
                        filename: string, z: Injected, folder: Folder)
    requires LfuCache.Valid(c) && Agrees(c, folder)
    requires forall p :: p in folder && p != filename && p != TranslationTarget(filename, z) ==>
      p in z.folder && z.folder[p] == folder[p]
    ensures var r := Finish(env, st, id, c, filename, z, true);
      var target := TranslationTarget(filename, z);
      && Agrees(r.cache, r.folder)
      && (target in z.folder ==>
            var t := TranslateEntries(env, target, Some(z.folder[target]),
                                      Stored(z.folder, target, MetadataName), Stored(z.folder, target, ComicInfoName));
            && r.ok == t.ok
            && r.folder == if t.written.Some? then z.folder[target := t.written.value] else z.folder)
  {
    var target := TranslationTarget(filename, z);
    ForgetBothAgrees(c, folder, z.folder, filename, target);
    var c1 := ForgetArchive(ForgetArchive(c, filename), target);
    TranslateArchiveAgrees(env, z.folder, c1, target);
    var run := TranslateArchive(env, z.folder, c1, target);
    FinishRefreshedTail(env, st, id, c, filename, z, run);
  }

  /** The last part of `FinishRefreshed`: the rewrite after translation. */
  lemma FinishRefreshedTail(env: Env, st: TaskStore.Store, id: string, c: LfuCache.Cache,
                            filename: string, z: Injected, run: (TranslationRun, LfuCache.Cache))
    requires LfuCache.Valid(c)
    requires var target := TranslationTarget(filename, z);
      && run == TranslateArchive(env, z.folder, ForgetArchive(ForgetArchive(c, filename), target), target)
      && Agrees(run.1, z.folder)
    ensures var r := Finish(env, st, id, c, filename, z, true);
      var target := TranslationTarget(filename, z);
      && Agrees(r.cache, r.folder)
      && r.ok == run.0.ok
      && r.folder == if run.0.written.Some? then z.folder[target := run.0.written.value] else z.folder
  {
    var target := TranslationTarget(filename, z);
    var t, c2 := run.0, run.1;
    if t.written.Some? {
      ForgetAgrees(c2, z.folder, target);
      AgreesAfterChange(ForgetArchive(c2, target), z.folder, z.folder[target := t.written.value], target, target);
    }
  }

  /** With `refresh`, `process_file` keeps the cache in agreement with the
      archives on disk. */
  lemma RefreshKeepsAgreement(env: Env, st: TaskStore.Store, id: string, folder: Folder, c: LfuCache.Cache,
                              filename: string)
    requires LfuCache.Valid(c) && Agrees(c, folder)
    ensures var r := ProcessFile(env, st, id, folder, c, filename, true);
      Agrees(r.cache, r.folder)
  {
    if ExtractId(filename).Some? && env.fetch(ExtractId(filename).value).Some? {
      var meta := env.fetch(ExtractId(filename).value).value;
      var z := ProcessZip(env, folder, filename, meta);
      if z.ok {
        FinishRefreshed(env, st, id, c, filename, z, folder);
      }
    }
  }

  /** With `refresh`, the tags that get translated are those of the
      metadata just fetched: after a successful run `metadata.json` is the
      fetched metadata with its tags translated, after a failed
      translation it is the fetched metadata as injected, and a
      `ComicInfo.xml` is only ever present when a CBZ is wanted. */
  lemma RefreshTranslatesInjectedMetadata(env: Env, st: TaskStore.Store, id: string, folder: Folder,
                                          c: LfuCache.Cache, filename: string)
    requires LfuCache.Valid(c) && Agrees(c, folder) && !env.dryRun && filename in folder
    requires ExtractId(filename).Some? && env.fetch(ExtractId(filename).value).Some?
    ensures var json := env.dumpJson(env.fetch(ExtractId(filename).value).value);
      var r := ProcessFile(env, st, id, folder, c, filename, true);
      var name := FinalName(env, filename, true);
      && name in r.folder
      && (!r.ok ==> Has(r.folder[name], MetadataName) && Read(r.folder[name], MetadataName) == json)
      && (r.ok && ParsedTags(env, Some(json)).Some? ==>
            && Has(r.folder[name], MetadataName)
            && Read(r.folder[name], MetadataName)
               == env.writeJson(json, TranslateMetadataTags(env.dict, ParsedTags(env, Some(json)).value).value))
      && (Has(r.folder[name], ComicInfoName) ==> WantsComicInfo(filename, env.toCbz))
  {
    var meta := env.fetch(ExtractId(filename).value).value;
    var json := env.dumpJson(meta);
    var z := ProcessZip(env, folder, filename, meta);
    var target := TranslationTarget(filename, z);
    assert target == Target(filename, z) == FinalName(env, filename, true);
    ProcessZipInjects(env, folder, filename, meta);
    FinishRefreshed(env, st, id, c, filename, z, folder);
    var md := Stored(z.folder, target, MetadataName);
    var xml := Stored(z.folder, target, ComicInfoName);
    assert md == Some(json);
    TranslateEntriesSpec(env, target, Some(z.folder[target]), md, xml);
  }

  // ------------------------------------------------- the cache, as written

  /** As written, once both reserved entries of an archive are cached and
      parse with nothing to translate, a successful run leaves the cached
      `metadata.json` (re-serialised) in the archive, and a `ComicInfo.xml`
      beside it, whatever was just fetched and injected. */
  lemma StaleRunKeepsCached(env: Env, st: TaskStore.Store, id: string, folder: Folder, c: LfuCache.Cache,
                            filename: string)
    requires LfuCache.Valid(c) && !env.dryRun && !env.toCbz && filename in folder
    requires ExtractId(filename).Some? && env.fetch(ExtractId(filename).value).Some?
    requires var k1, k2 := LfuCache.Key(filename, MetadataName), LfuCache.Key(filename, ComicInfoName);
      && k1 in c.entries && k2 in c.entries
      && |c.entries[k1]| > 0 && env.readTags(c.entries[k1]) == Some(Missing)
      && |c.entries[k2]| > 0 && env.readXmlTags(c.entries[k2]) == Some(None)
    ensures var r := ProcessFile(env, st, id, folder, c, filename, false);
      && r.ok && filename in r.folder
      && Has(r.folder[filename], MetadataName)
      && Read(r.folder[filename], MetadataName)
         == env.writeJson(c.entries[LfuCache.Key(filename, MetadataName)], Missing)
      && Has(r.folder[filename], ComicInfoName)
  {
    var k1, k2 := LfuCache.Key(filename, MetadataName), LfuCache.Key(filename, ComicInfoName);
    var meta := env.fetch(ExtractId(filename).value).value;
    var z := ProcessZip(env, folder, filename, meta);
    CachedEntriesWin(env, st, id, folder, c, filename);
    TranslateEntriesSpec(env, filename, Some(z.folder[filename]), Some(c.entries[k1]), Some(c.entries[k2]));
    assert TranslateMetadataTags(env.dict, Missing).value == Missing;
  }

  /** With `refresh`, a run whose fetched metadata parses with nothing to
      translate leaves that metadata in the archive, and no `ComicInfo.xml`
      in a `.zip`. */
  lemma RefreshedRunKeepsFetched(env: Env, st: TaskStore.Store, id: string, folder: Folder, c: LfuCache.Cache,
                                 filename: string)
    requires LfuCache.Valid(c) && Agrees(c, folder) && !env.dryRun && !env.toCbz && filename in folder
    requires ExtractId(filename).Some? && env.fetch(ExtractId(filename).value).Some?
    requires var json := env.dumpJson(env.fetch(ExtractId(filename).value).value);
      |json| > 0 && env.readTags(json) == Some(Missing) && env.writeJson(json, Missing) == json
    requires !WantsComicInfo(filename, false)
    ensures var r := ProcessFile(env, st, id, folder, c, filename, true);
      && filename in r.folder
      && Has(r.folder[filename], MetadataName)
      && Read(r.folder[filename], MetadataName) == env.dumpJson(env.fetch(ExtractId(filename).value).value)
      && !Has(r.folder[filename], ComicInfoName)
  {
    RefreshTranslatesInjectedMetadata(env, st, id, folder, c, filename);
    assert TranslateMetadataTags(env.dict, Missing).value == Missing;
  }

  /** The example: one `.zip` archive that already holds a `metadata.json`
      ([1]) and a `ComicInfo.xml` ([3]), both in the cache as the batch
      preload leaves them (`ExampleCacheIsPreloaded`); the fetched metadata
      serialises to [2]; no tags to translate. */
  function ExampleName(): string {
    ArchiveFileName("123456", "a", "zip")
  }

  function ExampleEnv(meta: Metadata): Env {
    Env((g: string) => Some(meta), (m: Metadata) => [2], (f: Fields) => [4],
        (b: Bytes) => Some(Missing), (b: Bytes) => Some(None),
        (b: Bytes, v: Value) => b, (b: Bytes, t: Option<string>) => b,
        (p: string) => "", map[], false, false)
  }

  function ExampleFolder(): Folder {
    map[ExampleName() := [(MetadataName, [1]), (ComicInfoName, [3])]]
  }

  /** The example's cache, written out: both entries of the archive, each
      used once, at the source's size bound of 50. */
  function ExampleCache(): LfuCache.Cache {
    var k1, k2 := LfuCache.Key(ExampleName(), MetadataName), LfuCache.Key(ExampleName(), ComicInfoName);
    LfuCache.Cache([k1, k2], map[k1 := [1], k2 := [3]], map[k1 := 1, k2 := 1], 50)
  }

  /** The example's cache is what preloading the example batch into a
      fresh cache of size 50 gives. */
  lemma ExampleCacheIsPreloaded()
    ensures ExampleCache() == Preload(LfuCache.Empty(50), ExampleFolder(), [ExampleName()])
  {
    var name, folder := ExampleName(), ExampleFolder();
    var c2 := ExamplePreloadEntries();
    assert [name][1..] == [];
    assert Preload(LfuCache.Empty(50), folder, [name]) == Preload(c2, folder, []);
  }

  /** The two entries of the example's archive. */
  lemma ExampleArchive()
    ensures ExampleName() in ExampleFolder()
    ensures Has(ExampleFolder()[ExampleName()], MetadataName)
    ensures Read(ExampleFolder()[ExampleName()], MetadataName) == [1]
    ensures Has(ExampleFolder()[ExampleName()], ComicInfoName)
    ensures Read(ExampleFolder()[ExampleName()], ComicInfoName) == [3]
  {
    var a := ExampleFolder()[ExampleName()];
    assert a[0].0 == MetadataName && a[1].0 == ComicInfoName;
  }

  /** Preloading the example's two entries, one after the other. */
  lemma ExamplePreloadEntries() returns (c2: LfuCache.Cache)
    ensures c2 == ExampleCache()
    ensures c2 == PreloadEntry(PreloadEntry(LfuCache.Empty(50), ExampleFolder(), ExampleName(), MetadataName),
                               ExampleFolder(), ExampleName(), ComicInfoName)
  {
    var c1 := ExampleFirstEntry();
    ExampleSecondEntry(c1);
    c2 := ExampleCache();
  }

  function ExampleFirstCache(): LfuCache.Cache {
    var k1 := LfuCache.Key(ExampleName(), MetadataName);
    LfuCache.Cache([k1], map[k1 := [1]], map[k1 := 1], 50)
  }

  lemma ExampleFirstEntry() returns (c1: LfuCache.Cache)
    ensures c1 == ExampleFirstCache() && LfuCache.Valid(c1)
    ensures c1 == PreloadEntry(LfuCache.Empty(50), ExampleFolder(), ExampleName(), MetadataName)
  {
    ExampleArchive();
    LfuCache.PutFresh(LfuCache.Empty(50), ExampleName(), MetadataName, [1]);
    c1 := ExampleFirstCache();
  }

  lemma ExampleSecondEntry(c1: LfuCache.Cache)
    requires c1 == ExampleFirstCache() && LfuCache.Valid(c1)
    ensures PreloadEntry(c1, ExampleFolder(), ExampleName(), ComicInfoName) == ExampleCache()
  {
    var name := ExampleName();
    var k1, k2 := LfuCache.Key(name, MetadataName), LfuCache.Key(name, ComicInfoName);
    assert k1 != k2 by {
      assert k1[|name| + 1] == 'm' && k2[|name| + 1] == 'C';
    }
    ExampleArchive();
    LfuCache.PutFresh(c1, name, ComicInfoName, [3]);
    assert [k1] + [k2] == [k1, k2];
  }

  /** On the example, the source ends with the old `metadata.json` instead
      of the fetched one, and with a `ComicInfo.xml` although a plain
      `.zip` gets none; with `refresh` it ends with the fetched metadata
      and no `ComicInfo.xml`. */
  lemma StaleCacheRestoresOldMetadata(st: TaskStore.Store, id: string, meta: Metadata)
    ensures LfuCache.Valid(ExampleCache()) && Agrees(ExampleCache(), ExampleFolder())
    ensures var stale := ProcessFile(ExampleEnv(meta), st, id, ExampleFolder(), ExampleCache(), ExampleName(), false);
      && stale.ok && ExampleName() in stale.folder && Has(stale.folder[ExampleName()], MetadataName)
      && Read(stale.folder[ExampleName()], MetadataName) == [1] != ExampleEnv(meta).dumpJson(meta)
      && Has(stale.folder[ExampleName()], ComicInfoName)
      && !WantsComicInfo(ExampleName(), ExampleEnv(meta).toCbz)
    ensures var cured := ProcessFile(ExampleEnv(meta), st, id, ExampleFolder(), ExampleCache(), ExampleName(), true);
      && ExampleName() in cured.folder && Has(cured.folder[ExampleName()], MetadataName)
      && Read(cured.folder[ExampleName()], MetadataName) == ExampleEnv(meta).dumpJson(meta)
      && !Has(cured.folder[ExampleName()], ComicInfoName)
  {
    var name, env, folder, c := ExampleName(), ExampleEnv(meta), ExampleFolder(), ExampleCache();
    StaleSetup(name, folder, c);
    ExampleNameFound();
    assert env.fetch("123456") == Some(meta);
    StaleRunKeepsCached(env, st, id, folder, c, name);
    RefreshedRunKeepsFetched(env, st, id, folder, c, name);
  }

  lemma ExampleNameFound()
    ensures ExtractId(ExampleName()) == Some("123456")
  {
    var id := "123456";
    assert forall i :: 0 <= i < 6 ==> IsAsciiDigit(id[i]);
    assert ExtensionMatches("zip");
    ExtractIdFinds(id, "a", "zip");
  }

  /** The facts about the example's name, archive and cache. */
  lemma StaleSetup(name: string, folder: Folder, c: LfuCache.Cache)
    requires name == ArchiveFileName("123456", "a", "zip")
    requires folder == map[name := [(MetadataName, [1]), (ComicInfoName, [3])]]
    requires var k1, k2 := LfuCache.Key(name, MetadataName), LfuCache.Key(name, ComicInfoName);
      c == LfuCache.Cache([k1, k2], map[k1 := [1], k2 := [3]], map[k1 := 1, k2 := 1], 50)
    ensures LfuCache.Valid(c) && Agrees(c, folder) && !WantsComicInfo(name, false)
    ensures c.entries[LfuCache.Key(name, MetadataName)] == [1]
    ensures c.entries[LfuCache.Key(name, ComicInfoName)] == [3]
  {
    var k1, k2 := LfuCache.Key(name, MetadataName), LfuCache.Key(name, ComicInfoName);
    assert k1 != k2 by {
      assert k1[|name| + 1] == 'm' && k2[|name| + 1] == 'C';
    }
    var a: Archive := [(MetadataName, [1]), (ComicInfoName, [3])];
    assert a[0].0 == MetadataName && a[1].0 == ComicInfoName;
    assert Has(a, MetadataName) && Read(a, MetadataName) == [1];
    assert Has(a, ComicInfoName) && Read(a, ComicInfoName) == [3];
    forall path, inner | Reserved(inner) && LfuCache.Key(path, inner) in c.entries
      ensures path in folder && Has(folder[path], inner)
              && c.entries[LfuCache.Key(path, inner)] == Read(folder[path], inner)
    {
      if LfuCache.Key(path, inner) == k1 {
        KeyInjective(path, inner, name, MetadataName);
      } else {
        KeyInjective(path, inner, name, ComicInfoName);
      }
    }
    assert Lower(name)[|name| - 1] == 'p';
  }

  /** As written, once both reserved entries of an archive are cached,
      the translation step works on the cached copies, whatever
      `process_zip_file` has just written. */
  lemma CachedEntriesWin(env: Env, st: TaskStore.Store, id: string, folder: Folder, c: LfuCache.Cache,
                         filename: string)
    requires LfuCache.Valid(c) && !env.dryRun && !env.toCbz && filename in folder
    requires ExtractId(filename).Some? && env.fetch(ExtractId(filename).value).Some?
    requires LfuCache.Key(filename, MetadataName) in c.entries && LfuCache.Key(filename, ComicInfoName) in c.entries
    ensures var z := ProcessZip(env, folder, filename, env.fetch(ExtractId(filename).value).value);
      var r := ProcessFile(env, st, id, folder, c, filename, false);
      var t := TranslateEntries(env, filename, Some(z.folder[filename]),
                                Some(c.entries[LfuCache.Key(filename, MetadataName)]),
                                Some(c.entries[LfuCache.Key(filename, ComicInfoName)]));
      && filename in z.folder
      && r.ok == t.ok
      && r.folder == if t.written.Some? then z.folder[filename := t.written.value] else z.folder
  {
    var meta := env.fetch(ExtractId(filename).value).value;
    var z := ProcessZip(env, folder, filename, meta);
    assert TranslationTarget(filename, z) == filename;
    assert ProcessFile(env, st, id, folder, c, filename, false) == Finish(env, st, id, c, filename, z, false);
    var read1 := CachedRead(c, z.folder, filename, MetadataName);
    var read2 := CachedRead(read1.value.1, z.folder, filename, ComicInfoName);
    assert read2.value.0 == Some(c.entries[LfuCache.Key(filename, ComicInfoName)]);
  }

  // ------------------------------------------------------------ batches

  /** One entry of `_preload_batch_to_cache`: cached when the archive holds it. */
  function PreloadEntry(c: LfuCache.Cache, folder: Folder, f: string, inner: string): (r: LfuCache.Cache)
    requires LfuCache.Valid(c) && f in folder
    ensures LfuCache.Valid(r) && r.maxSize == c.maxSize
    ensures Has(folder[f], inner) ==>
      LfuCache.Key(f, inner) in r.entries && r.entries[LfuCache.Key(f, inner)] == Read(folder[f], inner)
    ensures !Has(folder[f], inner) ==> r == c
  {
    if Has(folder[f], inner) then LfuCache.Put(c, f, inner, Read(folder[f], inner)) else c
  }

  /** `_preload_batch_to_cache`: both reserved entries of every archive of
      the batch that is there. The contract keeps only the cache's shape;
      what the entries hold is stated by `PreloadEntry` for one entry and by
      `PreloadAgrees` for the whole batch (a cache that agrees with the
      archives still agrees after the preload). */
  function Preload(c: LfuCache.Cache, folder: Folder, batch: seq<string>): (r: LfuCache.Cache)
    requires LfuCache.Valid(c)
    ensures LfuCache.Valid(r) && r.maxSize == c.maxSize
    decreases |batch|
  {
    if |batch| == 0 then c
    else
      var f := batch[0];
      var c1 := if f in folder then PreloadEntry(PreloadEntry(c, folder, f, MetadataName), folder, f, ComicInfoName) else c;
      Preload(c1, folder, batch[1..])
  }

  /** The preload only caches what the archives hold. */
  lemma {:induction false} PreloadAgrees(c: LfuCache.Cache, folder: Folder, batch: seq<string>)
    requires LfuCache.Valid(c) && Agrees(c, folder)
    ensures Agrees(Preload(c, folder, batch), folder)
    decreases |batch|
  {
    if |batch| > 0 {
      var f := batch[0];
      var c1 := c;
      if f in folder {
        if Has(folder[f], MetadataName) {
          PutAgrees(c, folder, f, MetadataName);
        }
        var c0 := PreloadEntry(c, folder, f, MetadataName);
        if Has(folder[f], ComicInfoName) {
          PutAgrees(c0, folder, f, ComicInfoName);
        }
        c1 := PreloadEntry(c0, folder, f, ComicInfoName);
      }
      PreloadAgrees(c1, folder, batch[1..]);
    }
  }

  /** The state a run leaves: the store of tasks, the archives and the cache. */
  datatype Progress = Progress(store: TaskStore.Store, folder: Folder, cache: LfuCache.Cache)

  /** `_process_batch` up to the end of its `finally`, one file after the
      other; `refresh` false is the program as written, true the corrected
      one of "## Findings". The translation pass written after the `finally`
      is not part of this function. */
  function RunBatch(env: Env, st: TaskStore.Store, id: string, folder: Folder, c: LfuCache.Cache,
                    batch: seq<string>, refresh: bool): (r: Progress)
    requires LfuCache.Valid(c)
    ensures LfuCache.Valid(r.cache) && r.cache.maxSize == c.maxSize
    ensures r.store.ids == st.ids && r.store.tasks.Keys == st.tasks.Keys
    decreases |batch|
  {
    if |batch| == 0 then Progress(st, folder, c)
    else
      var o := ProcessFile(env, st, id, folder, c, batch[0], refresh);
      RunBatch(env, o.store, id, o.folder, o.cache, batch[1..], refresh)
  }

  /** The loop of `process_task_batch`: preload a batch, run it, clear the cache. */
  function RunBatches(env: Env, st: TaskStore.Store, id: string, folder: Folder, c: LfuCache.Cache,
                      batches: seq<seq<string>>, refresh: bool): (r: Progress)
    requires LfuCache.Valid(c)
    ensures LfuCache.Valid(r.cache) && r.cache.maxSize == c.maxSize
    ensures r.store.ids == st.ids && r.store.tasks.Keys == st.tasks.Keys
    ensures |batches| > 0 ==> |r.cache.entries| == 0
    decreases |batches|
  {
    if |batches| == 0 then Progress(st, folder, c)
    else
      var p := RunBatch(env, st, id, folder, Preload(c, folder, batches[0]), batches[0], refresh);
      RunBatches(env, p.store, id, p.folder, LfuCache.Clear(p.cache), batches[1..], refresh)
  }

  /** `process_task_batch`: an unknown task or one without pending files
      is left alone; otherwise the pending files, listed once at the start,
      are run in batches. */
  function ProcessTaskBatch(env: Env, st: TaskStore.Store, id: string, folder: Folder, c: LfuCache.Cache,
                            batchSize: int, refresh: bool): (r: Progress)
    requires LfuCache.Valid(c)
    ensures LfuCache.Valid(r.cache) && r.cache.maxSize == c.maxSize
    ensures r.store.ids == st.ids && r.store.tasks.Keys == st.tasks.Keys
    ensures id !in st.tasks || |PendingFiles(st, id)| == 0 ==> r == Progress(st, folder, c)
  {
    if id !in st.tasks then Progress(st, folder, c)
    else
      var files := PendingFiles(st, id);
      if |files| == 0 then Progress(st, folder, c)
      else RunBatches(env, st, id, folder, c, Batches(files, batchSize), refresh)
  }

  /** The corrected run keeps the cache in agreement with the archives.
      The run as written does not (`StaleRunKeepsCached`). */
  lemma {:induction false} RunBatchAgrees(env: Env, st: TaskStore.Store, id: string, folder: Folder,
                                          c: LfuCache.Cache, batch: seq<string>)
    requires LfuCache.Valid(c) && Agrees(c, folder)
    ensures var r := RunBatch(env, st, id, folder, c, batch, true);
      Agrees(r.cache, r.folder)
    decreases |batch|
  {
    if |batch| > 0 {
      RefreshKeepsAgreement(env, st, id, folder, c, batch[0]);
      var o := ProcessFile(env, st, id, folder, c, batch[0], true);
      RunBatchAgrees(env, o.store, id, o.folder, o.cache, batch[1..]);
    }
  }

  /** Between the stores before and after a run over `names`: the same
      files, every one of `names` out of pending, every other record as it
      was. */
  ghost predicate SettledAfter(st: TaskStore.Store, st': TaskStore.Store, id: string, names: seq<string>)
    requires id in st.tasks && id in st'.tasks
  {
    && st'.tasks[id].files.Keys == st.tasks[id].files.Keys
    && (forall n :: n in names && n in st'.tasks[id].files ==> st'.tasks[id].files[n].status != Pending)
    && (forall n :: n in st.tasks[id].files && n !in names ==> st'.tasks[id].files[n] == st.tasks[id].files[n])
  }

  /** Without `.cbz` conversion, one file settles and nothing else moves. */
  lemma ProcessFileSettlesOne(env: Env, st: TaskStore.Store, id: string, folder: Folder, c: LfuCache.Cache,
                              filename: string, refresh: bool)
    requires LfuCache.Valid(c) && WellFormed(st) && !env.toCbz
    requires id in st.tasks && filename in st.tasks[id].files
    ensures var r := ProcessFile(env, st, id, folder, c, filename, refresh);
      WellFormed(r.store) && SettledAfter(st, r.store, id, [filename])
  {
    var r := ProcessFile(env, st, id, folder, c, filename, refresh);
    ProcessFileKeepsWellFormed(env, st, id, folder, c, filename, refresh);
    ProcessFileSettles(env, st, id, folder, c, filename, refresh);
    assert FinalName(env, filename, r.ok) == filename;
    OneSettled(st, r.store, id, filename);
  }

  lemma OneSettled(st: TaskStore.Store, st': TaskStore.Store, id: string, filename: string)
    requires id in st.tasks && id in st'.tasks && filename in st.tasks[id].files
    requires st'.tasks[id].files.Keys == st.tasks[id].files.Keys - {filename} + {filename}
    requires filename in st'.tasks[id].files && st'.tasks[id].files[filename].status != Pending
    requires forall n :: n in st.tasks[id].files && n != filename ==>
      st'.tasks[id].files[n] == st.tasks[id].files[n]
    ensures SettledAfter(st, st', id, [filename])
  {
    assert st.tasks[id].files.Keys - {filename} + {filename} == st.tasks[id].files.Keys;
  }

  /** Without `.cbz` conversion, a run over files their task holds keeps the
      store well formed and takes every one of them out of pending. */
  lemma {:induction false} RunBatchSettles(env: Env, st: TaskStore.Store, id: string, folder: Folder,
                                           c: LfuCache.Cache, batch: seq<string>, refresh: bool)
    requires LfuCache.Valid(c) && WellFormed(st) && !env.toCbz && id in st.tasks
    requires forall n :: n in batch ==> n in st.tasks[id].files
    ensures var r := RunBatch(env, st, id, folder, c, batch, refresh);
      WellFormed(r.store) && SettledAfter(st, r.store, id, batch)
    decreases |batch|
  {
    if |batch| > 0 {
      ProcessFileSettlesOne(env, st, id, folder, c, batch[0], refresh);
      var o := ProcessFile(env, st, id, folder, c, batch[0], refresh);
      RunBatchSettles(env, o.store, id, o.folder, o.cache, batch[1..], refresh);
      SettledStep(st, o.store, RunBatch(env, o.store, id, o.folder, o.cache, batch[1..], refresh).store, id, batch);
    }
  }

  /** One file settled, then the rest of the batch: the whole batch settled. */
  lemma SettledStep(st: TaskStore.Store, mid: TaskStore.Store, end: TaskStore.Store, id: string, batch: seq<string>)
    requires |batch| > 0 && id in st.tasks && id in mid.tasks && id in end.tasks
    requires SettledAfter(st, mid, id, [batch[0]]) && SettledAfter(mid, end, id, batch[1..])
    ensures SettledAfter(st, end, id, batch)
  {
    SettledCompose(st, mid, end, id, [batch[0]], batch[1..]);
    assert [batch[0]] + batch[1..] == batch;
  }

  /** Two runs one after the other settle the names of both. */
  lemma SettledCompose(st: TaskStore.Store, mid: TaskStore.Store, end: TaskStore.Store, id: string,
                       a: seq<string>, b: seq<string>)
    requires id in st.tasks && id in mid.tasks && id in end.tasks
    requires SettledAfter(st, mid, id, a) && SettledAfter(mid, end, id, b)
    ensures SettledAfter(st, end, id, a + b)
  {
    forall n | n in a + b && n in end.tasks[id].files
      ensures end.tasks[id].files[n].status != Pending
    {
      if n !in b {
        assert n in a;
      }
    }
  }

  /** The same over the batches of a task. */
  lemma {:induction false} RunBatchesSettles(env: Env, st: TaskStore.Store, id: string, folder: Folder,
                                             c: LfuCache.Cache, batches: seq<seq<string>>, refresh: bool)
    requires LfuCache.Valid(c) && WellFormed(st) && !env.toCbz && id in st.tasks
    requires forall n :: n in Concat(batches) ==> n in st.tasks[id].files
    ensures var r := RunBatches(env, st, id, folder, c, batches, refresh);
      WellFormed(r.store) && SettledAfter(st, r.store, id, Concat(batches))
    decreases |batches|
  {
    if |batches| > 0 {
      var c1 := Preload(c, folder, batches[0]);
      RunBatchSettles(env, st, id, folder, c1, batches[0], refresh);
      var p := RunBatch(env, st, id, folder, c1, batches[0], refresh);
      RunBatchesSettles(env, p.store, id, p.folder, LfuCache.Clear(p.cache), batches[1..], refresh);
    }
  }

  /** Settling every pending file leaves none pending. */
  lemma NoPendingLeft(st: TaskStore.Store, st': TaskStore.Store, id: string)
    requires WellFormed(st) && WellFormed(st') && id in st.tasks && id in st'.tasks
    requires SettledAfter(st, st', id, PendingFiles(st, id))
    ensures st'.tasks[id].stats.pending == 0
  {
    var t := st'.tasks[id];
    forall n | n in t.names && n in t.files
      ensures !StatusIs(Pending)(t.files[n])
    {
      assert n in st.tasks[id].files;
      if n !in PendingFiles(st, id) {
        assert t.files[n] == st.tasks[id].files[n];
        assert n in st.tasks[id].names;
      }
    }
    CountNone(t.names, t.files, StatusIs(Pending));
  }

  /** Without `.cbz` conversion and with a batch size of at least one,
      `process_task_batch` leaves no file of that task pending: the pending
      counter ends at zero, for the run as written and the corrected one
      alike. */
  lemma ProcessTaskBatchClearsPending(env: Env, st: TaskStore.Store, id: string, folder: Folder,
                                      c: LfuCache.Cache, batchSize: int, refresh: bool)
    requires LfuCache.Valid(c) && WellFormed(st) && !env.toCbz && batchSize >= 1 && id in st.tasks
    ensures var r := ProcessTaskBatch(env, st, id, folder, c, batchSize, refresh);
      && WellFormed(r.store)
      && r.store.tasks[id].files.Keys == st.tasks[id].files.Keys
      && r.store.tasks[id].stats.pending == 0
  {
    var files := PendingFiles(st, id);
    if |files| == 0 {
      QueriesMatchCounters(st, id);
    } else {
      var batches := Batches(files, batchSize);
      assert forall n :: n in Concat(batches) ==> n in st.tasks[id].files;
      RunBatchesSettles(env, st, id, folder, c, batches, refresh);
      var r := RunBatches(env, st, id, folder, c, batches, refresh);
      NoPendingLeft(st, r.store, id);
    }
  }
}

=== FILE: taskstore.dfy ===
/** The task status store (`TaskManager`): one task per registered folder,
    one file record per archive of that folder, and statistics counters that
    partition the files by status.  Python's dicts keep insertion order, so a
    task carries its file names as a sequence (`names`) next to the record
    map, and the store carries its task ids the same way. */
module TaskStore {
  import opened Common

  datatype Status = Pending | Success | Failed | Skipped

  /** Status of the translation phase.  A record whose translation key was
      never written reads as pending (`file_info.get('translation_status', 'pending')`). */
  datatype TranslationStatus = TranslationPending | TranslationSuccess | TranslationFailed

  datatype FileRecord = FileRecord(
    status: Status,
    error: string,
    translation: Option<TranslationStatus>,
    translationError: string)

  function TranslationOf(r: FileRecord): TranslationStatus {
    match r.translation
    case Some(t) => t
    case None => TranslationPending
  }

  datatype Statistics = Statistics(total: int, pending: int, success: int, failed: int, skipped: int)

  /** The translation counters, created on the first translation update. */
  datatype TranslationStatistics = TranslationStatistics(pending: int, success: int, failed: int)

  datatype Task = Task(
    id: string,
    folder: string,
    names: seq<string>,
    files: map<string, FileRecord>,
    stats: Statistics,
    translationStats: Option<TranslationStatistics>)

  datatype Store = Store(ids: seq<string>, tasks: map<string, Task>)

  // ------------------------------------------------------------- counting

  function StatusIs(s: Status): FileRecord -> bool {
    (r: FileRecord) => r.status == s
  }

  function TranslationIs(t: TranslationStatus): FileRecord -> bool {
    (r: FileRecord) => TranslationOf(r) == t
  }

  /** Number of names whose record satisfies `p`. */
  function CountWhere(names: seq<string>, files: map<string, FileRecord>, p: FileRecord -> bool): nat
    ensures CountWhere(names, files, p) <= |names|
  {
    if |names| == 0 then 0
    else (if names[0] in files && p(files[names[0]]) then 1 else 0) + CountWhere(names[1..], files, p)
  }

  /** The record map and the name order describe the same keys, once each. */
  ghost predicate KeysMatch(t: Task) {
    Distinct(t.names) && forall n :: n in t.files <==> n in t.names
  }

  /** The invariant the counters are meant to keep: `total` is the number of
      files and each status counter is the number of files with that status;
      the translation counters, once created, count translation statuses,
      and before that every file reads as translation-pending. */
  ghost predicate Consistent(t: Task) {
    && KeysMatch(t)
    && t.stats.total == |t.names|
    && t.stats.pending == CountWhere(t.names, t.files, StatusIs(Pending))
    && t.stats.success == CountWhere(t.names, t.files, StatusIs(Success))
    && t.stats.failed == CountWhere(t.names, t.files, StatusIs(Failed))
    && t.stats.skipped == CountWhere(t.names, t.files, StatusIs(Skipped))
    && match t.translationStats
       case None => forall n :: n in t.files ==> TranslationOf(t.files[n]) == TranslationPending
       case Some(ts) =>
         && ts.pending == CountWhere(t.names, t.files, TranslationIs(TranslationPending))
         && ts.success == CountWhere(t.names, t.files, TranslationIs(TranslationSuccess))
         && ts.failed == CountWhere(t.names, t.files, TranslationIs(TranslationFailed))
  }

  ghost predicate WellFormed(st: Store) {
    && Distinct(st.ids)
    && (forall id :: id in st.tasks <==> id in st.ids)
    && forall id :: id in st.tasks ==> st.tasks[id].id == id && Consistent(st.tasks[id])
  }

  // ------------------------------------------------------ counting lemmas

  lemma {:induction false} CountsPartition(names: seq<string>, files: map<string, FileRecord>)
    requires forall n :: n in names ==> n in files
    ensures CountWhere(names, files, StatusIs(Pending)) + CountWhere(names, files, StatusIs(Success))
          + CountWhere(names, files, StatusIs(Failed)) + CountWhere(names, files, StatusIs(Skipped))
         == |names|
  {
    if |names| > 0 {
      CountsPartition(names[1..], files);
    }
  }

  lemma {:induction false} TranslationCountsPartition(names: seq<string>, files: map<string, FileRecord>)
    requires forall n :: n in names ==> n in files
    ensures CountWhere(names, files, TranslationIs(TranslationPending))
          + CountWhere(names, files, TranslationIs(TranslationSuccess))
          + CountWhere(names, files, TranslationIs(TranslationFailed))
         == |names|
  {
    if |names| > 0 {
      TranslationCountsPartition(names[1..], files);
    }
  }

  /** The four status counters of a consistent task add up to `total`. */
  lemma StatisticsSumToTotal(t: Task)
    requires Consistent(t)
    ensures t.stats.pending + t.stats.success + t.stats.failed + t.stats.skipped == t.stats.total
  {
    CountsPartition(t.names, t.files);
  }

  /** Once created, the three translation counters of a consistent task add up to the number of files. */
  lemma TranslationStatisticsSumToTotal(t: Task)
    requires Consistent(t) && t.translationStats.Some?
    ensures t.translationStats.value.pending + t.translationStats.value.success
          + t.translationStats.value.failed == |t.files|
  {
    TranslationCountsPartition(t.names, t.files);
    DistinctCardinality(t.names, t.files);
  }

  lemma {:induction false} DistinctCardinality(names: seq<string>, files: map<string, FileRecord>)
    requires Distinct(names) && forall n :: n in files <==> n in names
    ensures |files| == |names|
    decreases |names|
  {
    if |names| == 0 {
      assert files.Keys == {};
    } else {
      var x := names[0];
      var rest := files - {x};
      var tail := names[1..];
      assert Distinct(tail) by {
        forall i, j | 0 <= i < j < |tail| ensures tail[i] != tail[j] {
          assert tail[i] == names[i + 1] && tail[j] == names[j + 1];
        }
      }
      assert x !in tail by {
        forall i | 0 <= i < |tail| ensures tail[i] != x {
          assert tail[i] == names[i + 1];
        }
      }
      assert forall n :: n in names <==> n == x || n in tail by {
        assert names == [x] + tail;
      }
      DistinctCardinality(tail, rest);
      assert files.Keys == rest.Keys + {x};
    }
  }

  /** Counting only looks at the records of the names counted. */
  lemma {:induction false} CountFrame(names: seq<string>, f: map<string, FileRecord>, g: map<string, FileRecord>, p: FileRecord -> bool)
    requires forall n :: n in names ==> (n in f <==> n in g) && (n in f ==> f[n] == g[n])
    ensures CountWhere(names, f, p) == CountWhere(names, g, p)
  {
    if |names| > 0 {
      CountFrame(names[1..], f, g, p);
    }
  }

  /** Replacing one record of a listed name moves at most one unit. */
  lemma {:induction false} CountAfterSet(names: seq<string>, files: map<string, FileRecord>, x: string, rec: FileRecord, p: FileRecord -> bool)
    requires Distinct(names) && x in names && x in files
    ensures CountWhere(names, files[x := rec], p)
         == CountWhere(names, files, p) - (if p(files[x]) then 1 else 0) + (if p(rec) then 1 else 0)
  {
    if names[0] == x {
      assert x !in names[1..];
      CountFrame(names[1..], files[x := rec], files, p);
    } else {
      CountAfterSet(names[1..], files, x, rec, p);
    }
  }

  lemma {:induction false} CountAppend(names: seq<string>, y: string, files: map<string, FileRecord>, p: FileRecord -> bool)
    ensures CountWhere(names + [y], files, p)
         == CountWhere(names, files, p) + (if y in files && p(files[y]) then 1 else 0)
  {
    if |names| == 0 {
      assert names + [y] == [y];
    } else {
      assert (names + [y])[1..] == names[1..] + [y];
      CountAppend(names[1..], y, files, p);
    }
  }

  lemma {:induction false} CountRemove(names: seq<string>, x: string, files: map<string, FileRecord>, p: FileRecord -> bool)
    requires Distinct(names) && x in names
    ensures CountWhere(names, files, p)
         == CountWhere(Remove(names, x), files, p) + (if x in files && p(files[x]) then 1 else 0)
  {
    if names[0] == x {
      assert x !in names[1..];
      assert Remove(names[1..], x) == names[1..];
    } else {
      CountRemove(names[1..], x, files, p);
    }
  }

  lemma {:induction false} CountAll(names: seq<string>, files: map<string, FileRecord>, p: FileRecord -> bool)
    requires forall n :: n in names ==> n in files && p(files[n])
    ensures CountWhere(names, files, p) == |names|
  {
    if |names| > 0 {
      CountAll(names[1..], files, p);
    }
  }

  lemma {:induction false} CountNone(names: seq<string>, files: map<string, FileRecord>, p: FileRecord -> bool)
    requires forall n :: n in names && n in files ==> !p(files[n])
    ensures CountWhere(names, files, p) == 0
  {
    if |names| > 0 {
      CountNone(names[1..], files, p);
    }
  }

  // --------------------------------------------------------------- queries

  /** Names of `t`, in insertion order, whose record satisfies `keep`. */
  function Select(t: Task, keep: FileRecord -> bool): (r: seq<string>)
    ensures forall n :: n in r <==> n in t.names && n in t.files && keep(t.files[n])
    ensures Subsequence(r, t.names)
  {
    Filter(t.names, n => n in t.files && keep(t.files[n]))
  }

  lemma {:induction false} SelectCounts(names: seq<string>, files: map<string, FileRecord>, keep: FileRecord -> bool)
    ensures |Filter(names, n => n in files && keep(files[n]))| == CountWhere(names, files, keep)
  {
    if |names| > 0 {
      SelectCounts(names[1..], files, keep);
    }
  }

  /** `get_pending_files`: the files whose status is pending, in insertion order. */
  function PendingFiles(st: Store, id: string): (r: seq<string>)
    ensures id !in st.tasks ==> r == []
    ensures id in st.tasks ==>
      && Subsequence(r, st.tasks[id].names)
      && forall n :: n in r <==> n in st.tasks[id].names && n in st.tasks[id].files
                                 && st.tasks[id].files[n].status == Pending
  {
    if id !in st.tasks then [] else Select(st.tasks[id], StatusIs(Pending))
  }

  /** `get_failed_files`: the files whose status is failed, in insertion order. */
  function FailedFiles(st: Store, id: string): (r: seq<string>)
    ensures id !in st.tasks ==> r == []
    ensures id in st.tasks ==>
      && Subsequence(r, st.tasks[id].names)
      && forall n :: n in r <==> n in st.tasks[id].names && n in st.tasks[id].files
                                 && st.tasks[id].files[n].status == Failed
  {
    if id !in st.tasks then [] else Select(st.tasks[id], StatusIs(Failed))
  }

  /** `get_untranslated_files`: translation status pending, or never recorded. */
  function UntranslatedFiles(st: Store, id: string): (r: seq<string>)
    ensures id !in st.tasks ==> r == []
    ensures id in st.tasks ==>
      && Subsequence(r, st.tasks[id].names)
      && forall n :: n in r <==> n in st.tasks[id].names && n in st.tasks[id].files
                                 && (st.tasks[id].files[n].translation.None?
                                     || st.tasks[id].files[n].translation == Some(TranslationPending))
  {
    if id !in st.tasks then [] else Select(st.tasks[id], TranslationIs(TranslationPending))
  }

  /** `get_translation_failed_files`: translation status failed. */
  function TranslationFailedFiles(st: Store, id: string): (r: seq<string>)
    ensures id !in st.tasks ==> r == []
    ensures id in st.tasks ==>
      && Subsequence(r, st.tasks[id].names)
      && forall n :: n in r <==> n in st.tasks[id].names && n in st.tasks[id].files
                                 && st.tasks[id].files[n].translation == Some(TranslationFailed)
  {
    if id !in st.tasks then [] else Select(st.tasks[id], TranslationIs(TranslationFailed))
  }

  /** In a well-formed store each query returns as many names as its counter says. */
  lemma QueriesMatchCounters(st: Store, id: string)
    requires WellFormed(st) && id in st.tasks
    ensures |PendingFiles(st, id)| == st.tasks[id].stats.pending
    ensures |FailedFiles(st, id)| == st.tasks[id].stats.failed
    ensures st.tasks[id].translationStats.Some? ==>
      && |UntranslatedFiles(st, id)| == st.tasks[id].translationStats.value.pending
      && |TranslationFailedFiles(st, id)| == st.tasks[id].translationStats.value.failed
  {
    var t := st.tasks[id];
    SelectCounts(t.names, t.files, StatusIs(Pending));
    SelectCounts(t.names, t.files, StatusIs(Failed));
    SelectCounts(t.names, t.files, TranslationIs(TranslationPending));
    SelectCounts(t.names, t.files, TranslationIs(TranslationFailed));
  }

  // ----------------------------------------------------- status transitions

  /** One file leaves status `was`: its counter drops by one (`StatusCounterMoves`). */
  function DecStatus(s: Statistics, was: Status): Statistics {
    match was
    case Pending => s.(pending := s.pending - 1)
    case Success => s.(success := s.success - 1)
    case Failed => s.(failed := s.failed - 1)
    case Skipped => s.(skipped := s.skipped - 1)
  }

  /** One file enters status `now` (`StatusCounterMoves`). */
  function IncStatus(s: Statistics, now: Status): Statistics {
    match now
    case Pending => s.(pending := s.pending + 1)
    case Success => s.(success := s.success + 1)
    case Failed => s.(failed := s.failed + 1)
    case Skipped => s.(skipped := s.skipped + 1)
  }

  /** One file leaves translation status `was` (`TranslationCounterMoves`). */
  function DecTranslation(s: TranslationStatistics, was: TranslationStatus): TranslationStatistics {
    match was
    case TranslationPending => s.(pending := s.pending - 1)
    case TranslationSuccess => s.(success := s.success - 1)
    case TranslationFailed => s.(failed := s.failed - 1)
  }

  /** One file enters translation status `now` (`TranslationCounterMoves`). */
  function IncTranslation(s: TranslationStatistics, now: TranslationStatus): TranslationStatistics {
    match now
    case TranslationPending => s.(pending := s.pending + 1)
    case TranslationSuccess => s.(success := s.success + 1)
    case TranslationFailed => s.(failed := s.failed + 1)
  }

  function StatusSum(s: Statistics): int {
    s.pending + s.success + s.failed + s.skipped
  }

  /** Leaving a status takes one file off the counters' sum and entering one
      adds it back; the total is untouched, and entering the status just left
      restores every counter. */
  lemma StatusCounterMoves(s: Statistics, was: Status, now: Status)
    ensures DecStatus(s, was).total == s.total && IncStatus(s, now).total == s.total
    ensures StatusSum(DecStatus(s, was)) == StatusSum(s) - 1
    ensures StatusSum(IncStatus(s, now)) == StatusSum(s) + 1
    ensures IncStatus(DecStatus(s, was), was) == s && DecStatus(IncStatus(s, now), now) == s
  {
  }

  function TranslationSum(s: TranslationStatistics): int {
    s.pending + s.success + s.failed
  }

  /** The same for the three translation counters. */
  lemma TranslationCounterMoves(s: TranslationStatistics, was: TranslationStatus, now: TranslationStatus)
    ensures TranslationSum(DecTranslation(s, was)) == TranslationSum(s) - 1
    ensures TranslationSum(IncTranslation(s, now)) == TranslationSum(s) + 1
    ensures IncTranslation(DecTranslation(s, was), was) == s && DecTranslation(IncTranslation(s, now), now) == s
  {
  }

  /** The record `update_file_status` invents for a name its task does not hold. */
  const FreshRecord := FileRecord(Pending, "", Some(TranslationPending), "")

  /** The first step of both update operations: a name the task does not
      hold is appended with a fresh pending record (counters untouched). */
  function EnsureRecord(t: Task, filename: string): (r: Task)
    ensures filename in r.files
    ensures filename in t.files ==> r == t
  {
    if filename in t.files then t
    else t.(names := t.names + [filename], files := t.files[filename := FreshRecord])
  }

  /** `update_file_status` on one task. */
  function SetStatus(t: Task, filename: string, status: Status, error: string): (r: Task)
    ensures filename in r.files && r.files[filename].status == status && r.files[filename].error == error
  {
    var t1 := EnsureRecord(t, filename);
    var before := t1.files[filename];
    t1.(files := t1.files[filename := before.(status := status, error := error)],
        stats := IncStatus(DecStatus(t1.stats, before.status), status))
  }

  /** `update_file_status`: an unknown task id changes nothing. */
  function UpdateFileStatus(st: Store, id: string, filename: string, status: Status, error: string): (r: Store)
    ensures id !in st.tasks ==> r == st
    ensures r.ids == st.ids && r.tasks.Keys == st.tasks.Keys
    ensures forall other :: other in st.tasks && other != id ==> r.tasks[other] == st.tasks[other]
    ensures id in st.tasks ==>
      filename in r.tasks[id].files && r.tasks[id].files[filename].status == status
      && r.tasks[id].files[filename].error == error
  {
    if id !in st.tasks then st
    else st.(tasks := st.tasks[id := SetStatus(st.tasks[id], filename, status, error)])
  }

  /** For a file the task already holds, an update keeps the counters a
      partition of the files: the old status loses one, the new one gains
      one, nothing else moves, and the set of files is unchanged. */
  lemma SetStatusKeepsConsistent(t: Task, filename: string, status: Status, error: string)
    requires Consistent(t) && filename in t.files
    ensures var r := SetStatus(t, filename, status, error);
      && Consistent(r)
      && r.names == t.names && r.files.Keys == t.files.Keys
      && r.stats.total == t.stats.total
      && (forall n :: n in t.files && n != filename ==> r.files[n] == t.files[n])
      && TranslationOf(r.files[filename]) == TranslationOf(t.files[filename])
  {
    var r := SetStatus(t, filename, status, error);
    var before := t.files[filename];
    var rec := before.(status := status, error := error);
    forall s: Status
      ensures CountWhere(t.names, r.files, StatusIs(s))
           == CountWhere(t.names, t.files, StatusIs(s)) - (if before.status == s then 1 else 0)
              + (if status == s then 1 else 0)
    {
      CountAfterSet(t.names, t.files, filename, rec, StatusIs(s));
    }
    forall u: TranslationStatus
      ensures CountWhere(t.names, r.files, TranslationIs(u)) == CountWhere(t.names, t.files, TranslationIs(u))
    {
      CountAfterSet(t.names, t.files, filename, rec, TranslationIs(u));
    }
    StatusMoveFields(t.stats, before.status, status);
  }

  /** A status change, counter by counter. */
  lemma StatusMoveFields(s: Statistics, was: Status, now: Status)
    ensures var m := IncStatus(DecStatus(s, was), now);
      && m.total == s.total
      && m.pending == s.pending - (if was == Pending then 1 else 0) + (if now == Pending then 1 else 0)
      && m.success == s.success - (if was == Success then 1 else 0) + (if now == Success then 1 else 0)
      && m.failed == s.failed - (if was == Failed then 1 else 0) + (if now == Failed then 1 else 0)
      && m.skipped == s.skipped - (if was == Skipped then 1 else 0) + (if now == Skipped then 1 else 0)
  {
  }

  /** The store-level form: a well-formed store stays well-formed. */
  lemma UpdateFileStatusKeepsWellFormed(st: Store, id: string, filename: string, status: Status, error: string)
    requires WellFormed(st)
    requires id in st.tasks ==> filename in st.tasks[id].files
    ensures WellFormed(UpdateFileStatus(st, id, filename, status, error))
    ensures id in st.tasks ==>
      var t := UpdateFileStatus(st, id, filename, status, error).tasks[id];
      && t.files.Keys == st.tasks[id].files.Keys
      && t.files[filename].translation == st.tasks[id].files[filename].translation
      && forall n :: n in st.tasks[id].files && n != filename ==> t.files[n] == st.tasks[id].files[n]
  {
    if id in st.tasks {
      SetStatusKeepsConsistent(st.tasks[id], filename, status, error);
    }
  }

  /** A name the task does not hold breaks the counters: the source appends a
      pending record, then decrements `pending` for it without ever having
      counted it, and leaves `total` alone. */
  lemma UnknownFilenameBreaksCounters()
    ensures var t := Task("t", "/d", [], map[], Statistics(0, 0, 0, 0, 0), None);
      && Consistent(t)
      && var r := SetStatus(t, "a.zip", Success, "");
      && r.stats.pending == -1 && r.stats.total == 0 && |r.names| == 1
      && !Consistent(r)
  {
    var t := Task("t", "/d", [], map[], Statistics(0, 0, 0, 0, 0), None);
    var t1 := EnsureRecord(t, "a.zip");
    assert t1.files["a.zip"] == FreshRecord;
    var r := SetStatus(t, "a.zip", Success, "");
    assert r.stats == Statistics(0, -1, 1, 0, 0) && r.names == ["a.zip"];
    assert r.stats.total != |r.names|;
  }

  /** `update_file_translation_status` on one task; the counters are created
      on first use with every file counted as pending. */
  function SetTranslation(t: Task, filename: string, status: TranslationStatus, error: string): (r: Task)
    ensures filename in r.files && r.files[filename].translation == Some(status)
    ensures r.files[filename].translationError == error && r.translationStats.Some?
  {
    var t1 := EnsureRecord(t, filename);
    var before := t1.files[filename];
    var counters := match t1.translationStats
      case Some(ts) => ts
      case None => TranslationStatistics(|t1.files|, 0, 0);
    t1.(files := t1.files[filename := before.(translation := Some(status), translationError := error)],
        translationStats := Some(IncTranslation(DecTranslation(counters, TranslationOf(before)), status)))
  }

  function UpdateTranslationStatus(st: Store, id: string, filename: string, status: TranslationStatus, error: string): (r: Store)
    ensures id !in st.tasks ==> r == st
    ensures r.ids == st.ids && r.tasks.Keys == st.tasks.Keys
    ensures forall other :: other in st.tasks && other != id ==> r.tasks[other] == st.tasks[other]
    ensures id in st.tasks ==>
      filename in r.tasks[id].files && r.tasks[id].files[filename].translation == Some(status)
  {
    if id !in st.tasks then st
    else st.(tasks := st.tasks[id := SetTranslation(st.tasks[id], filename, status, error)])
  }

  /** For a file the task already holds, a translation update keeps both
      families of counters partitions, including the lazy creation. */
  lemma SetTranslationKeepsConsistent(t: Task, filename: string, status: TranslationStatus, error: string)
    requires Consistent(t) && filename in t.files
    ensures var r := SetTranslation(t, filename, status, error);
      && Consistent(r)
      && r.names == t.names && r.files.Keys == t.files.Keys && r.stats == t.stats
      && r.files[filename].status == t.files[filename].status
      && (forall n :: n in t.files && n != filename ==> r.files[n] == t.files[n])
  {
    var before := t.files[filename];
    var rec := before.(translation := Some(status), translationError := error);
    var files' := t.files[filename := rec];
    forall s: Status
      ensures CountWhere(t.names, files', StatusIs(s)) == CountWhere(t.names, t.files, StatusIs(s))
    {
      CountAfterSet(t.names, t.files, filename, rec, StatusIs(s));
    }
    forall u: TranslationStatus
      ensures CountWhere(t.names, files', TranslationIs(u))
           == CountWhere(t.names, t.files, TranslationIs(u)) - (if TranslationOf(before) == u then 1 else 0)
              + (if status == u then 1 else 0)
    {
      CountAfterSet(t.names, t.files, filename, rec, TranslationIs(u));
    }
    if t.translationStats.None? {
      DistinctCardinality(t.names, t.files);
      CountAll(t.names, t.files, TranslationIs(TranslationPending));
      CountNone(t.names, t.files, TranslationIs(TranslationSuccess));
      CountNone(t.names, t.files, TranslationIs(TranslationFailed));
      TranslationMoveFields(TranslationStatistics(|t.files|, 0, 0), TranslationOf(before), status);
    } else {
      TranslationMoveFields(t.translationStats.value, TranslationOf(before), status);
    }
  }

  /** A translation status change, counter by counter. */
  lemma TranslationMoveFields(s: TranslationStatistics, was: TranslationStatus, now: TranslationStatus)
    ensures var m := IncTranslation(DecTranslation(s, was), now);
      && m.pending == s.pending - (if was == TranslationPending then 1 else 0) + (if now == TranslationPending then 1 else 0)
      && m.success == s.success - (if was == TranslationSuccess then 1 else 0) + (if now == TranslationSuccess then 1 else 0)
      && m.failed == s.failed - (if was == TranslationFailed then 1 else 0) + (if now == TranslationFailed then 1 else 0)
  {
  }

  lemma UpdateTranslationStatusKeepsWellFormed(st: Store, id: string, filename: string, status: TranslationStatus, error: string)
    requires WellFormed(st)
    requires id in st.tasks ==> filename in st.tasks[id].files
    ensures WellFormed(UpdateTranslationStatus(st, id, filename, status, error))
    ensures id in st.tasks ==>
      var t := UpdateTranslationStatus(st, id, filename, status, error).tasks[id];
      && t.files.Keys == st.tasks[id].files.Keys
      && t.files[filename].translationError == error
      && forall n :: n in st.tasks[id].files && n != filename ==> t.files[n] == st.tasks[id].files[n]
  {
    if id in st.tasks {
      SetTranslationKeepsConsistent(st.tasks[id], filename, status, error);
    }
  }

  // --------------------------------------------------- renaming a record

  /** The record move after a `.zip` -> `.cbz` rename: `files.pop(old)`
      followed by `files[new] = record`.  An existing `new` key is
      overwritten in place; otherwise `new` goes to the end of the order. */
  function MoveRecord(t: Task, from: string, to: string): (r: Task)
    ensures from in t.files ==> to in r.files && r.files[to] == t.files[from]
    ensures from in t.files && from != to ==> from !in r.files
    ensures from !in t.files ==> r == t
    ensures r.stats == t.stats && r.translationStats == t.translationStats
  {
    if from !in t.files then t
    else
      var rest := Remove(t.names, from);
      t.(names := if to in t.files && to != from then rest else rest + [to],
         files := (t.files - {from})[to := t.files[from]])
  }

  /** Moving a record to a fresh key loses and duplicates nothing: the
      counters still partition the files and every other record is kept. */
  lemma MoveRecordKeepsConsistent(t: Task, from: string, to: string)
    requires Consistent(t) && from in t.files && to !in t.files
    ensures var r := MoveRecord(t, from, to);
      && Consistent(r)
      && r.files.Keys == t.files.Keys - {from} + {to}
      && |r.names| == |t.names|
      && (forall n :: n in t.files && n != from ==> r.files[n] == t.files[n])
  {
    var r := MoveRecord(t, from, to);
    var rest := Remove(t.names, from);
    assert r.names == rest + [to];
    forall p: FileRecord -> bool
      ensures CountWhere(r.names, r.files, p) == CountWhere(t.names, t.files, p)
    {
      CountRemove(t.names, from, t.files, p);
      CountAppend(rest, to, r.files, p);
      CountFrame(rest, r.files, t.files, p);
    }
    assert Distinct(r.names) by {
      assert to !in rest;
      forall i, j | 0 <= i < j < |r.names| ensures r.names[i] != r.names[j] {
        if j == |rest| {
          assert r.names[i] == rest[i];
        } else {
          assert r.names[i] == rest[i] && r.names[j] == rest[j];
        }
      }
    }
  }

  /** Moving onto a key that already exists drops a record while `total` stays. */
  lemma MoveOntoExistingKeyBreaksCounters()
    ensures var rec := FileRecord(Pending, "", None, "");
      var t := Task("t", "/d", ["a.zip", "a.cbz"], map["a.zip" := rec, "a.cbz" := rec],
                    Statistics(2, 2, 0, 0, 0), None);
      && Consistent(t)
      && !Consistent(MoveRecord(t, "a.zip", "a.cbz"))
  {
    var rec := FileRecord(Pending, "", None, "");
    var t := Task("t", "/d", ["a.zip", "a.cbz"], map["a.zip" := rec, "a.cbz" := rec],
                  Statistics(2, 2, 0, 0, 0), None);
    assert ["a.zip", "a.cbz"][1..] == ["a.cbz"];
    assert "a.zip" != "a.cbz" by { assert "a.zip"[2] != "a.cbz"[2]; }
    var r := MoveRecord(t, "a.zip", "a.cbz");
    assert r.names == ["a.cbz"];
  }

  /** The store-level move (`task_data['files']` mutated in place). */
  function RenameFile(st: Store, id: string, from: string, to: string): (r: Store)
    ensures id !in st.tasks ==> r == st
    ensures r.ids == st.ids && r.tasks.Keys == st.tasks.Keys
    ensures forall other :: other in st.tasks && other != id ==> r.tasks[other] == st.tasks[other]
    ensures id in st.tasks && from in st.tasks[id].files ==>
      to in r.tasks[id].files && r.tasks[id].files[to] == st.tasks[id].files[from]
  {
    if id !in st.tasks then st
    else st.(tasks := st.tasks[id := MoveRecord(st.tasks[id], from, to)])
  }

  /** A rename onto a name its task does not hold keeps the store well formed. */
  lemma RenameFileKeepsWellFormed(st: Store, id: string, from: string, to: string)
    requires WellFormed(st)
    requires id in st.tasks && from in st.tasks[id].files ==> to !in st.tasks[id].files
    ensures WellFormed(RenameFile(st, id, from, to))
    ensures id in st.tasks && from in st.tasks[id].files ==>
      && RenameFile(st, id, from, to).tasks[id].files.Keys == st.tasks[id].files.Keys - {from} + {to}
      && forall n :: n in st.tasks[id].files && n != from ==>
           RenameFile(st, id, from, to).tasks[id].files[n] == st.tasks[id].files[n]
  {
    if id in st.tasks && from in st.tasks[id].files {
      MoveRecordKeepsConsistent(st.tasks[id], from, to);
    }
  }

  // -------------------------------------------------------- creating tasks

  /** `Path.glob('*.zip')` and `Path.glob('*.cbz')` on one directory entry
      name: `*` matches any text, a leading dot included, and the suffix
      test is case-sensitive. */
  predicate IsArchiveName(n: string) {
    EndsWith(n, ".zip") || EndsWith(n, ".cbz")
  }

  /** Names with a leading dot are listed like any other. */
  lemma DotNamesListed()
    ensures ArchiveNames([".h.zip", "a.zip"]) == [".h.zip", "a.zip"]
  {
    var listing := [".h.zip", "a.zip"];
    assert IsArchiveName(".h.zip") && IsArchiveName("a.zip");
    var r := ArchiveNames(listing);
    assert "a.zip"[0] == 'a' && ".h.zip"[0] == '.';
    assert !LessEq("a.zip", ".h.zip");
    SortedPair(r, ".h.zip", "a.zip");
  }

  /** A sorted, duplicate-free sequence holding exactly two strings lists
      them in order. */
  lemma SortedPair(r: seq<string>, a: string, b: string)
    requires Sorted(r) && Distinct(r) && a != b && !LessEq(b, a)
    requires forall x :: x in r <==> x == a || x == b
    ensures r == [a, b]
  {
    assert a in r && b in r;
    var i :| 0 <= i < |r| && r[i] == a;
    var j :| 0 <= j < |r| && r[j] == b;
    assert i < j;
    DistinctBound(r, {a, b});
    assert |{a, b}| == 2;
  }

  /** A duplicate-free sequence drawn from a set is no longer than the set. */
  lemma {:induction false} DistinctBound(r: seq<string>, s: set<string>)
    requires Distinct(r) && forall x :: x in r ==> x in s
    ensures |r| <= |s|
    decreases |r|
  {
    if |r| > 0 {
      assert forall k :: 0 <= k < |r[1..]| ==> r[1..][k] == r[k + 1] && r[k + 1] != r[0];
      DistinctBound(r[1..], s - {r[0]});
    }
  }

  /** The sorted, duplicate-free archive names of a directory listing. */
  function ArchiveNames(listing: seq<string>): (r: seq<string>)
    ensures Sorted(r) && Distinct(r)
    ensures forall n :: n in r <==> n in listing && IsArchiveName(n)
  {
    var found := Filter(listing, IsArchiveName);
    var sorted := Sort(found);
    assert forall n :: n in sorted <==> n in multiset(sorted);
    DedupSorted(sorted)
  }

  /** The `task_id`, `task_id_1`, `task_id_2`, ... candidates of `create_task`. */
  function Candidate(base: string, k: nat): string {
    if k == 0 then base else base + "_" + NatToString(k)
  }

  lemma CandidateInjective(base: string, j: nat, k: nat)
    ensures Candidate(base, j) == Candidate(base, k) ==> j == k
  {
    if j > 0 && k > 0 && Candidate(base, j) == Candidate(base, k) {
      var pre := base + "_";
      assert Candidate(base, j)[|pre|..] == NatToString(j);
      assert Candidate(base, k)[|pre|..] == NatToString(k);
      NatToStringInjective(j, k);
    }
  }

  lemma CandidateStartsWith(base: string, k: nat)
    ensures StartsWith(Candidate(base, k), base)
  {
    assert Candidate(base, k)[..|base|] == base;
  }

  function CandidatesBelow(base: string, k: nat): set<string> {
    set j | 0 <= j < k :: Candidate(base, j)
  }

  /** Each taken candidate shrinks the set of taken ids not yet tried. */
  lemma CandidatesBelowGrow(base: string, used: set<string>, k: nat)
    requires Candidate(base, k) in used
    ensures |used - CandidatesBelow(base, k + 1)| < |used - CandidatesBelow(base, k)|
  {
    var c := Candidate(base, k);
    assert c !in CandidatesBelow(base, k) by {
      if c in CandidatesBelow(base, k) {
        var j :| 0 <= j < k && Candidate(base, j) == c;
        CandidateInjective(base, j, k);
      }
    }
    assert CandidatesBelow(base, k + 1) == CandidatesBelow(base, k) + {c};
    assert used - CandidatesBelow(base, k + 1) == (used - CandidatesBelow(base, k)) - {c};
  }

  /** The suffix loop: the first candidate from `k` on that is not taken. */
  function FreshId(base: string, used: set<string>, k: nat): (r: string)
    ensures r !in used
    ensures exists j :: k <= j && r == Candidate(base, j)
                        && forall i :: k <= i < j ==> Candidate(base, i) in used
    decreases |used - CandidatesBelow(base, k)|
  {
    var c := Candidate(base, k);
    if c !in used then c
    else
      CandidatesBelowGrow(base, used, k);
      var r := FreshId(base, used, k + 1);
      FreshIdStep(base, used, k, r);
      r
  }

  /** A candidate found from `k + 1` on, past a taken candidate `k`, is
      the first free one from `k` on. */
  lemma FreshIdStep(base: string, used: set<string>, k: nat, r: string)
    requires Candidate(base, k) in used
    requires exists j :: k + 1 <= j && r == Candidate(base, j)
                         && forall i :: k + 1 <= i < j ==> Candidate(base, i) in used
    ensures exists j :: k <= j && r == Candidate(base, j)
                        && forall i :: k <= i < j ==> Candidate(base, i) in used
  {
    var j :| k + 1 <= j && r == Candidate(base, j)
             && forall i :: k + 1 <= i < j ==> Candidate(base, i) in used;
    assert forall i :: k <= i < j ==> Candidate(base, i) in used;
  }

  /** The task (if any) already registered for `folder`, in store order. */
  function FindByFolder(ids: seq<string>, tasks: map<string, Task>, folder: string): (r: Option<string>)
    ensures r.Some? ==> r.value in ids && r.value in tasks && tasks[r.value].folder == folder
    ensures r.None? ==> forall id :: id in ids && id in tasks ==> tasks[id].folder != folder
  {
    if |ids| == 0 then None
    else if ids[0] in tasks && tasks[ids[0]].folder == folder then Some(ids[0])
    else FindByFolder(ids[1..], tasks, folder)
  }

  /** `hexdigest()[:8]`. */
  function Take8(s: string): (r: string)
    ensures StartsWith(s, r) && |r| <= 8
  {
    if |s| <= 8 then s else s[..8]
  }

  /** The task `create_task` builds: every listed archive pending, with no
      translation status yet, and the counters set to the listing's length. */
  function NewTask(id: string, folder: string, names: seq<string>): (r: Task)
    ensures r.id == id && r.folder == folder && r.names == names
    ensures forall n :: n in r.files <==> n in names
    ensures forall n :: n in r.files ==> r.files[n].status == Pending && r.files[n].translation.None?
    ensures r.stats.total == |names| && r.stats.pending == |names| && r.translationStats.None?
  {
    Task(id, folder, names, map n | n in names :: FileRecord(Pending, "", None, ""),
         Statistics(|names|, |names|, 0, 0, 0), None)
  }

  /** `create_task`: the folder path is taken as already absolute, `md5hex`
      stands for the md5 hex digest, and `listing` for the folder's entry
      names (empty when the folder does not exist). */
  function CreateTask(st: Store, folder: string, md5hex: string -> string, listing: seq<string>): (r: (Store, string))
    ensures FindByFolder(st.ids, st.tasks, folder).Some? ==>
      r.0 == st && r.1 in st.tasks && st.tasks[r.1].folder == folder
    ensures FindByFolder(st.ids, st.tasks, folder).None? ==>
      && r.1 !in st.tasks
      && StartsWith(r.1, Take8(md5hex(folder)))
      && r.0.ids == st.ids + [r.1]
      && r.0.tasks.Keys == st.tasks.Keys + {r.1}
      && (forall id :: id in st.tasks ==> r.0.tasks[id] == st.tasks[id])
      && var t := r.0.tasks[r.1];
      && t.folder == folder && Sorted(t.names) && t.translationStats.None?
      && (forall n :: n in t.files <==> n in listing && IsArchiveName(n))
      && (forall n :: n in t.files ==> t.files[n].status == Pending && t.files[n].error == "")
      && t.stats.total == t.stats.pending == |t.files|
    ensures FindByFolder(st.ids, st.tasks, folder).None? ==>
      r.1 == FreshId(Take8(md5hex(folder)), st.tasks.Keys, 0)
  {
    match FindByFolder(st.ids, st.tasks, folder)
    case Some(existing) => (st, existing)
    case None =>
      var base := Take8(md5hex(folder));
      var id := FreshId(base, st.tasks.Keys, 0);
      assert StartsWith(id, base) by {
        var j: nat :| id == Candidate(base, j);
        CandidateStartsWith(base, j);
      }
      var names := ArchiveNames(listing);
      var t := NewTask(id, folder, names);
      DistinctCardinality(names, t.files);
      assert forall n :: n in t.files <==> n in listing && IsArchiveName(n);
      assert t.stats.total == t.stats.pending == |t.files|;
      (Register(st, t), id)
  }

  lemma NewTaskConsistent(id: string, folder: string, names: seq<string>)
    requires Distinct(names)
    ensures Consistent(NewTask(id, folder, names))
  {
    var t := NewTask(id, folder, names);
    CountAll(t.names, t.files, StatusIs(Pending));
    CountNone(t.names, t.files, StatusIs(Success));
    CountNone(t.names, t.files, StatusIs(Failed));
    CountNone(t.names, t.files, StatusIs(Skipped));
  }

  /** Appending a new task to the store (`self.tasks[task_id] = task_data`). */
  function Register(st: Store, t: Task): (r: Store)
    ensures r.ids == st.ids + [t.id] && r.tasks.Keys == st.tasks.Keys + {t.id}
    ensures t.id in r.tasks && r.tasks[t.id] == t
    ensures forall other :: other in st.tasks && other != t.id ==> r.tasks[other] == st.tasks[other]
  {
    Store(st.ids + [t.id], st.tasks[t.id := t])
  }

  lemma RegisterKeepsWellFormed(st: Store, t: Task)
    requires WellFormed(st) && t.id !in st.tasks && Consistent(t)
    ensures WellFormed(Register(st, t))
  {
    var ids := st.ids + [t.id];
    assert Distinct(ids) by {
      forall i, j | 0 <= i < j < |ids| ensures ids[i] != ids[j] {
        if j == |st.ids| {
          assert ids[i] == st.ids[i];
        } else {
          assert ids[i] == st.ids[i] && ids[j] == st.ids[j];
        }
      }
    }
  }

  lemma CreateTaskKeepsWellFormed(st: Store, folder: string, md5hex: string -> string, listing: seq<string>)
    requires WellFormed(st)
    ensures WellFormed(CreateTask(st, folder, md5hex, listing).0)
  {
    if FindByFolder(st.ids, st.tasks, folder).None? {
      var id := FreshId(Take8(md5hex(folder)), st.tasks.Keys, 0);
      var names := ArchiveNames(listing);
      NewTaskConsistent(id, folder, names);
      RegisterKeepsWellFormed(st, NewTask(id, folder, names));
    }
  }

  /** `delete_task`: only the record goes; false for an unknown id. */
  function DeleteTask(st: Store, id: string): (r: (Store, bool))
    ensures r.1 <==> id in st.tasks
    ensures r.0.tasks == st.tasks - {id}
    ensures forall other :: other in st.ids && other != id ==> other in r.0.ids
    ensures r.1 ==> id !in r.0.ids
  {
    if id !in st.tasks then (st, false)
    else (Store(Remove(st.ids, id), st.tasks - {id}), true)
  }

  lemma DeleteTaskKeepsWellFormed(st: Store, id: string)
    requires WellFormed(st)
    ensures WellFormed(DeleteTask(st, id).0)
  {
  }

  // ---------------------------------------------- resetting translations

  /** The reset loop of `retry_failed_translations`: each named file's
      translation status set back to pending. */
  function ResetTranslations(st: Store, id: string, names: seq<string>): (r: Store)
    ensures r.ids == st.ids && r.tasks.Keys == st.tasks.Keys
    ensures forall other :: other in st.tasks && other != id ==> r.tasks[other] == st.tasks[other]
    decreases |names|
  {
    if |names| == 0 then st
    else ResetTranslations(UpdateTranslationStatus(st, id, names[0], TranslationPending, ""), id, names[1..])
  }

  /** `retry_failed_translations`, up to the translation run it starts:
      nothing happens when its folder is missing; otherwise every
      translation-failed file of that task is set back to pending. */
  function RetryFailedTranslations(st: Store, id: string, folderExists: bool): (r: Store)
    ensures r.ids == st.ids && r.tasks.Keys == st.tasks.Keys
    ensures !folderExists ==> r == st
  {
    if !folderExists then st
    else ResetTranslations(st, id, TranslationFailedFiles(st, id))
  }

  lemma {:induction false} ResetTranslationsEffect(st: Store, id: string, names: seq<string>)
    requires WellFormed(st) && id in st.tasks
    requires forall n :: n in names ==> n in st.tasks[id].files
    ensures var r := ResetTranslations(st, id, names);
      && WellFormed(r)
      && r.tasks[id].names == st.tasks[id].names
      && r.tasks[id].files.Keys == st.tasks[id].files.Keys
      && (forall n :: n in names ==> r.tasks[id].files[n].translation == Some(TranslationPending))
      && (forall n :: n in st.tasks[id].files && n !in names ==>
            r.tasks[id].files[n] == st.tasks[id].files[n])
      && (forall n :: n in st.tasks[id].files ==>
            r.tasks[id].files[n].status == st.tasks[id].files[n].status)
    decreases |names|
  {
    if |names| > 0 {
      var st1 := UpdateTranslationStatus(st, id, names[0], TranslationPending, "");
      SetTranslationKeepsConsistent(st.tasks[id], names[0], TranslationPending, "");
      UpdateTranslationStatusKeepsWellFormed(st, id, names[0], TranslationPending, "");
      ResetTranslationsEffect(st1, id, names[1..]);
    }
  }

  /** After the reset no file of that task is translation-failed, and the
      processing statuses and counters are as before. */
  lemma RetryClearsTranslationFailures(st: Store, id: string)
    requires WellFormed(st) && id in st.tasks
    ensures var r := RetryFailedTranslations(st, id, true);
      && WellFormed(r)
      && TranslationFailedFiles(r, id) == []
      && r.tasks[id].stats == st.tasks[id].stats
  {
    var failed := TranslationFailedFiles(st, id);
    ResetTranslationsEffect(st, id, failed);
    var r := RetryFailedTranslations(st, id, true);
    var t := r.tasks[id];
    forall n | n in t.files ensures t.files[n].translation != Some(TranslationFailed) {
      if n !in failed {
        assert t.files[n] == st.tasks[id].files[n];
      }
    }
    NoMemberIsEmpty(TranslationFailedFiles(r, id));
    StatusUnchanged(st.tasks[id], t);
  }

  lemma NoMemberIsEmpty(q: seq<string>)
    ensures (forall n :: n !in q) ==> q == []
  {
    if |q| > 0 {
      assert q[0] in q;
    }
  }

  lemma StatusUnchanged(a: Task, b: Task)
    requires Consistent(a) && Consistent(b) && a.names == b.names
    requires forall n :: n in a.files ==> n in b.files && b.files[n].status == a.files[n].status
    ensures b.stats == a.stats
  {
    forall s: Status
      ensures CountWhere(b.names, b.files, StatusIs(s)) == CountWhere(a.names, a.files, StatusIs(s))
    {
      CountStatusFrame(a.names, a.files, b.files, s);
    }
  }

  lemma {:induction false} CountStatusFrame(names: seq<string>, f: map<string, FileRecord>, g: map<string, FileRecord>, s: Status)
    requires forall n :: n in names ==> n in f && n in g && f[n].status == g[n].status
    ensures CountWhere(names, f, StatusIs(s)) == CountWhere(names, g, StatusIs(s))
  {
    if |names| > 0 {
      CountStatusFrame(names[1..], f, g, s);
    }
  }
}

=== FILE: translation.dfy ===
/** Tag translation (`Translator`) and the all-or-nothing rule applied per
    field when an archive's metadata is translated (`_translate_content`).
    The dictionary maps an original tag to its translation; the reverse
    dictionary is only ever asked whether a tag is one of its keys, that is,
    whether the tag is already a translation. */
module Translation {
  import opened Common
  import opened ComicInfo

  type Dictionary = map<string, string>

  /** `is_already_translated`: the stripped tag is one of the translations. */
  predicate IsTranslation(dict: Dictionary, tag: string) {
    Strip(tag) in dict.Values
  }

  /** `translate_tag`: an empty tag is found as it is; otherwise the
      stripped tag is kept when it is already a translation, replaced when
      the dictionary knows it, and reported as not found otherwise. */
  function TranslateTag(dict: Dictionary, tag: string): (r: (string, bool))
    ensures r.1 <==> tag == "" || Strip(tag) in dict.Values || Strip(tag) in dict
    ensures tag == "" ==> r.0 == tag
    ensures tag != "" && r.1 ==> r.0 in dict.Values
    ensures !r.1 ==> r.0 == Strip(tag)
  {
    if tag == "" then (tag, true)
    else
      var clean := Strip(tag);
      if IsTranslation(dict, clean) then
        StripIdempotent(tag);
        (clean, true)
      else if clean in dict then
        StripIdempotent(tag);
        (dict[clean], true)
      else
        StripIdempotent(tag);
        (clean, false)
  }

  lemma StripIdempotent(s: string)
    ensures Strip(Strip(s)) == Strip(s)
  {
    StripFixed(Strip(s));
  }

  /** A text without surrounding white space is its own strip. */
  lemma StripFixed(s: string)
    requires |s| == 0 || (!IsSpace(s[0]) && !IsSpace(s[|s| - 1]))
    ensures Strip(s) == s
  {
    if |s| > 0 {
      assert RStrip(s) == s;
      assert LStrip(s) == s;
    }
  }

  /** Translations in a well-kept dictionary are non-empty and carry no
      surrounding white space. */
  ghost predicate CleanTranslations(dict: Dictionary) {
    forall v :: v in dict.Values ==> v != "" && Strip(v) == v
  }

  /** Translating a translated tag again changes nothing: the result of a
      successful lookup is recognised as already translated. */
  lemma TranslateTagSettles(dict: Dictionary, tag: string)
    requires CleanTranslations(dict)
    requires tag != "" && TranslateTag(dict, tag).1
    ensures TranslateTag(dict, TranslateTag(dict, tag).0) == (TranslateTag(dict, tag).0, true)
  {
  }

  /** The reference reading of `translate_tags_list`: each tag translated
      on its own, and found when every one of them was. */
  function TranslateAll(dict: Dictionary, tags: seq<string>): (seq<string>, bool) {
    (seq(|tags|, i requires 0 <= i < |tags| => TranslateTag(dict, tags[i]).0),
     forall i | 0 <= i < |tags| :: TranslateTag(dict, tags[i]).1)
  }

  /** `translate_tags_list`: the loop of the source. */
  method TranslateTagsList(dict: Dictionary, tags: seq<string>) returns (translated: seq<string>, allFound: bool)
    ensures |translated| == |tags|
    ensures forall i :: 0 <= i < |tags| ==> translated[i] == TranslateTag(dict, tags[i]).0
    ensures allFound <==> forall i :: 0 <= i < |tags| ==> TranslateTag(dict, tags[i]).1
    ensures (translated, allFound) == TranslateAll(dict, tags)
  {
    if |tags| == 0 {
      assert tags == TranslateAll(dict, tags).0;
      return tags, true;
    }
    var one := (tag: string) => TranslateTag(dict, tag);
    translated, allFound := TranslateEach(one, tags);
    assert translated == TranslateAll(dict, tags).0;
  }

  /** The loop body of `translate_tags_list` for any one-tag translation:
      collect every result, and remember whether any tag was not found. */
  method TranslateEach(one: string -> (string, bool), tags: seq<string>) returns (translated: seq<string>, allFound: bool)
    ensures |translated| == |tags|
    ensures forall i :: 0 <= i < |tags| ==> translated[i] == one(tags[i]).0
    ensures allFound <==> forall i :: 0 <= i < |tags| ==> one(tags[i]).1
  {
    translated := [];
    allFound := true;
    var k := 0;
    while k < |tags|
      invariant 0 <= k <= |tags|
      invariant |translated| == k
      invariant forall i :: 0 <= i < k ==> translated[i] == one(tags[i]).0
      invariant allFound <==> forall i :: 0 <= i < k ==> one(tags[i]).1
    {
      var t := one(tags[k]);
      translated := translated + [t.0];
      if !t.1 {
        allFound := false;
      }
      k := k + 1;
    }
  }

  // ------------------------------------------------------ field handling

  /** The reference reading of the comprehension: the comma pieces in
      order, each stripped, the empty ones dropped. */
  function KeptPieces(parts: seq<string>): seq<string> {
    if |parts| == 0 then []
    else (if Strip(parts[0]) == "" then [] else [Strip(parts[0])]) + KeptPieces(parts[1..])
  }

  predicate NotEmpty(t: string) {
    t != ""
  }

  function StripAll(parts: seq<string>): (r: seq<string>)
    ensures |r| == |parts|
    ensures forall i :: 0 <= i < |parts| ==> r[i] == Strip(parts[i])
  {
    seq(|parts|, i requires 0 <= i < |parts| => Strip(parts[i]))
  }

  /** Filtering the stripped pieces is the reference reading. */
  lemma {:induction false} FilterStrippedIsKept(parts: seq<string>)
    ensures Filter(StripAll(parts), NotEmpty) == KeptPieces(parts)
    decreases |parts|
  {
    if |parts| > 0 {
      assert StripAll(parts)[1..] == StripAll(parts[1..]);
      FilterStrippedIsKept(parts[1..]);
    }
  }

  /** `[tag.strip() for tag in text.split(',') if tag.strip()]`: the
      stripped, non-empty comma pieces of the text, in order. */
  function SplitTags(text: string): (r: seq<string>)
    ensures r == KeptPieces(Split(text, ','))
    ensures forall t :: t in r <==> t != "" && t in StripAll(Split(text, ','))
    ensures forall i :: 0 <= i < |r| ==> r[i] != ""
  {
    var parts := Split(text, ',');
    var r := Filter(StripAll(parts), NotEmpty);
    FilterStrippedIsKept(parts);
    assert forall i :: 0 <= i < |r| ==> r[i] in r;
    r
  }

  /** One tags field after translation: the new value when every tag was
      found, the old value otherwise, and whether it was all found. */
  datatype FieldResult<T> = FieldResult(value: T, found: bool)

  /** `metadata_json['tags']`: a list is translated item by item, a string
      is split on commas and joined back with `", "`; any other value, or
      no value, is left alone and counts as found. */
  function TranslateMetadataTags(dict: Dictionary, tags: Value): (r: FieldResult<Value>)
    ensures !r.found ==> r.value == tags
    ensures tags.Missing? ==> r == FieldResult(tags, true)
    ensures tags.Items? ==> (r.found <==> TranslateAll(dict, tags.items).1)
    ensures tags.Text? ==> (r.found <==> TranslateAll(dict, SplitTags(tags.text)).1)
    ensures tags.Items? && r.found ==>
      r.value.Items? && |r.value.items| == |tags.items|
      && forall i :: 0 <= i < |tags.items| ==> r.value.items[i] == TranslateTag(dict, tags.items[i]).0
    ensures tags.Text? && r.found ==>
      r.value == Text(Join(TranslateAll(dict, SplitTags(tags.text)).0, Separator))
  {
    match tags
    case Missing => FieldResult(tags, true)
    case Items(xs) =>
      var t := TranslateAll(dict, xs);
      if t.1 then FieldResult(Items(t.0), true) else FieldResult(tags, false)
    case Text(s) =>
      var t := TranslateAll(dict, SplitTags(s));
      if t.1 then FieldResult(Text(Join(t.0, Separator)), true) else FieldResult(tags, false)
  }

  /** The `<Tags>` element: absent or empty text is left alone and counts as
      found; otherwise the comma-separated tags are translated and joined. */
  function TranslateXmlTags(dict: Dictionary, text: Option<string>): (r: FieldResult<Option<string>>)
    ensures !r.found ==> r.value == text
    ensures text.None? || text == Some("") ==> r == FieldResult(text, true)
    ensures text.Some? && text.value != "" ==>
      (r.found <==> forall t :: t in SplitTags(text.value) ==> TranslateTag(dict, t).1)
    ensures text.Some? && text.value != "" && r.found ==>
      r.value == Some(Join(TranslateAll(dict, SplitTags(text.value)).0, Separator))
  {
    match text
    case None => FieldResult(text, true)
    case Some(s) =>
      if s == "" then FieldResult(text, true)
      else
        var tags := SplitTags(s);
        var t := TranslateAll(dict, tags);
        assert (forall t :: t in tags ==> TranslateTag(dict, t).1)
           <==> (forall i :: 0 <= i < |tags| ==> TranslateTag(dict, tags[i]).1);
        if t.1 then FieldResult(Some(Join(t.0, Separator)), true) else FieldResult(text, false)
  }

  /** `_translate_content`: the two fields are handled independently, each
      replaced only when all of its tags were found; the overall flag is
      their conjunction. */
  function TranslateContent(dict: Dictionary, tags: Value, xmlTags: Option<string>): (r: (Value, Option<string>, bool))
    ensures r.2 <==> TranslateMetadataTags(dict, tags).found && TranslateXmlTags(dict, xmlTags).found
    ensures r.0 != tags ==> TranslateMetadataTags(dict, tags).found
    ensures r.1 != xmlTags ==> TranslateXmlTags(dict, xmlTags).found
    ensures r.0 == TranslateMetadataTags(dict, tags).value
    ensures r.1 == TranslateXmlTags(dict, xmlTags).value
  {
    var m := TranslateMetadataTags(dict, tags);
    var x := TranslateXmlTags(dict, xmlTags);
    (m.value, x.value, m.found && x.found)
  }

  /** When every tag is already a translation, nothing is reported missing
      and the list comes back stripped. */
  lemma TranslatedListIsFound(dict: Dictionary, tags: seq<string>)
    requires forall i :: 0 <= i < |tags| ==> IsTranslation(dict, tags[i])
    ensures TranslateAll(dict, tags).1
    ensures forall i :: 0 <= i < |tags| && tags[i] != "" ==> TranslateAll(dict, tags).0[i] == Strip(tags[i])
  {
  }
}
